=== FILE: README.md ===
# miniBase kernel in Dafny

This project models the storage and query kernel of miniBase, a teaching
database written in Python. The model has five parts.

- **Table store with write-ahead hooks** (`storage_db.py`). It covers:
  - opening a table file and decoding its records;
  - per-type validation and padding of inserted values;
  - placing a record in a slot of a data block;
  - the tail-packed block layout;
  - full-table repacking in `write_block_to_file`;
  - match-based update and delete over the cached record list;
  - the before/after images it hands to the transaction manager;
  - auto-commit, or abort when an exception is caught.
- **Plain table store** (`mini_base.../storage_db.py`). It shares the layout and placement. Its update compares byte strings, its delete matches on `str`, and its repack pads without truncating.
- **Transaction manager** (`transaction_db.py`). It covers the active map, the committed set and monotonic ids. It also covers the page-per-entry image logs and the 16-byte transaction-log records.
- **B-tree index** (`index_db.py`). It covers the meta block, block allocation, fixed-width keys, sorted leaf insertion, child selection in an internal node, the leaf image, insertion and search.
- **Query plan** (`query_plan_db.py`). It covers:
  - extraction of the select/from/where parts of a syntax tree;
  - the left-deep plan of TABLE, X, Filter and Proj nodes;
  - cross product;
  - condition evaluation with unqualified-column resolution;
  - order-preserving selection;
  - projection with exact and unqualified column resolution.

**Files.** A file is a flat byte sequence. `WriteAt` writes at an offset, zero-filling any gap as a sparse seek-and-write does. `ReadAt` reads, coming back short at the end of the file.

**Errors.** An operation that Python ends by raising returns `None` or an explicit `Raised` outcome. Where the source catches the error itself, the model follows the handler; `Raised` then means the handler ran.

**Log calls.** As written, every image-log call in an active transaction raises inside `_write_to_log_file`, before the operation is recorded. A table store's call raises at `.encode` of its `bytes` file name (transaction_db.py:148), and any other call raises at the header update (transaction_db.py:174). Both are listed under "## Findings". The transaction manager's `LogImage` and the logged store's `Insert`, `Update` and `Delete` model the corrected calls, which record the operation and return. The calls as written are modelled beside them: `Transactions.LogImageAsWritten` and `LoggedStore.InsertAsWritten`, `UpdateAsWritten` and `DeleteAsWritten`.

**Inputs.** Timestamps are a `Stamp` parameter, and the transaction manager is passed explicitly. The contents of a table the planner scans are an input map.

**Modules.**
- `Common`: bytes, text, decimal and big-endian helpers.
- `Records`: field descriptors and per-type decoding.
- `TableLayout`, `TableFacts`, `Placement`, `TableOps`: the shared store logic and its properties.
- `LoggedStore`, `PlainStore`, `StoreAgreement`: the two stores and how they agree.
- `Transactions`: the transaction manager.
- `BTreeNode`, `BTreeLayout`, `BTreeIndex`: the index.
- `QueryExtract`, `QueryCondition`, `QueryPlan`: the planner.

In the table below, `storage_db.py` without a directory is the logged store, and the one under `mini_base_blank_python3.8_updated/` is the plain store.

## Model

| member | source | states |
|---|---|---|
| TableLayout.Open | storage_db.py:93-208 | An empty file is exactly the case that prompts for a schema. An opened table keeps its file, has one position per cached record, one value per field in every record, and every position inside data blocks 1..data_block_num. |
| TableLayout.DecodeBlocks | storage_db.py:174-208 | Decoding data blocks `Flag..data_block_num` gives as many positions as records, each inside those blocks, and every record has one value per field. |
| TableLayout.CheckInput | storage_db.py:238-258 | Each value is stripped as a `str` (the ASCII whitespace and the separators 0x1c-0x1f). Validation refuses iff some value refuses: an over-long string or a non-integer int. A list shorter than the schema with no earlier refusal raises instead. An accepted record holds one typed value per field (stripped text, `int`, or `bool` of the stripped text). The joined text is each value left-padded to its width, followed by any extra values unchanged. |
| TableLayout.SeparatorPaddingAccepted | storage_db.py:238-244 | A two-wide text field accepts `"ab\x1f"` and caches `ab`, because the value is stripped as a `str`. |
| TableLayout.CheckedRefusal | storage_db.py:239-254 | Checking from field `i` refuses iff some later value refuses, and raises for a short list iff no later value refuses. |
| TableLayout.Append | storage_db.py:260-281 | An accepted record is appended to the cache and its slot to the positions; the schema and the file are unchanged. |
| TableLayout.Capacity | storage_db.py:526-532 | The per-block capacity is the largest count whose slots and records fit in a block after its 8-byte header, i.e. `(BLOCK_SIZE-8)//(record_len+4)`. |
| TableLayout.FillBlock | storage_db.py:549-574 | Filling a block puts slot `j`'s offset entry at `8+4j`. It holds `BLOCK_SIZE-(j+1)*record_len`, and the repacked record sits at that offset. The header and the gap between the slots and the payloads are left alone. |
| TableLayout.BlockCount | storage_db.py:534 | The block count is the ceiling of records over capacity: enough blocks, and no empty last block. |
| TableLayout.BlockImages | storage_db.py:540-577 | There is one block image per block of the repack, each a full block, and image `k` is block `k`'s layout. |
| TableLayout.WriteImages | storage_db.py:576-577 | Writing images `b..` puts image `k` at block `k+1` and keeps everything before block `b+1`. |
| TableLayout.Repack | storage_db.py:522-582 | A capacity below 1 leaves the file and count untouched (the raise is caught). Otherwise the data block count becomes `ceil(n/cap)`, written at offset 4. The rest of block 0 is kept, and block `k+1` holds the image of records `[k*cap, min((k+1)*cap, n))`. |
| TableFacts.DecodeJoined | storage_db.py:188-207 | Per-field chunks that each decode to a value join into a record that decodes to those values. |
| TableFacts.InsertThenDecode | storage_db.py:238-258 | An accepted insert whose values fit their widths writes text that the constructor decodes back to the re-read record: ints and strings as cached, booleans as the decoder reads them. |
| TableFacts.FieldRoundTrip | storage_db.py:240-255 | A padded field decodes to its re-read value: the cached value for strings and ints, the decoder's reading for a boolean. |
| TableFacts.BoolCacheDisagrees | storage_db.py:250-255 | A boolean field given `no` is cached as `True`, since `bool` of non-empty text is true, but the stored `   no` decodes to `False`. |
| TableFacts.CheckFieldIntended | storage_db.py:250-254 | The corrected check differs from the original only for booleans, which it caches as the decoder reads them. |
| TableFacts.IntendedFieldRoundTrip | storage_db.py:192-207 | With the corrected check every accepted field, booleans included, decodes to exactly the cached value. |
| TableFacts.InsertedHolds | storage_db.py:298-328 | When the slot fits, an insert's writes all complete and leave the file holding: the block count at 4; the block header (block id, slot+1); the offset entry at `8+4*slot`; and, at the backward offset, the 18-byte record head (schema address 12, content length, stamp `2016-11-16`) followed by the content. No other byte changes. |
| Placement.PlacedRun | storage_db.py:262-279 | Successive inserts land where the true-division quotient says. If `record_len+4` divides 4084, `q = 4084/(record_len+4)` records fill each block in turn. Otherwise every record stays in block 1. |
| Placement.PlacementOverflows | storage_db.py:266-279 | With one 2-byte field the quotient is never integral, so record 170 is put in block 1 at slot 170, where its offset entry runs into the payloads. |
| Placement.PlaceIntendedFits | storage_db.py:266-279 | With the integer quotient, every placed slot's offset entry stays clear of the payloads. |
| TableOps.FindField | storage_db.py:426-435 | Field lookup gives the first field whose name, stripped as a `str` here (or as `bytes` in the plain store), equals the request, or nothing when no field matches. |
| TableOps.UpdateRows | storage_db.py:466-488 | Updating gives the same number of records. A matching record gets the new value in that one field; every other record is unchanged. With no match the list is unchanged. |
| TableOps.FirstShort | storage_db.py:468-470 | The first cached record too short to hold the field, where `record[field_index]` raises. |
| TableOps.KeepRows | storage_db.py:634-648 | Delete keeps exactly the records that do not match. It keeps all of them when none matches, and fewer when one does. |
| TableOps.KeepRowsAppend | storage_db.py:634-648 | The kept records of two runs of records are those of the first run followed by those of the second, so order and repeated records are preserved. |
| TableOps.KeepRowsOne | storage_db.py:634-648 | A single record is kept iff it does not match. With KeepRowsAppend this fixes the kept list record by record. |
| TableOps.DeleteTarget | storage_db.py:609-632 | The delete target is the field found by its name, both names stripped as a `str`, and the value typed for it; nothing when the field is unknown or the integer text is malformed. |
| TableOps.RenderFixed | storage_db.py:559-566 | A cached value renders as `str(value)` left-justified and cut to exactly the field width. |
| TableOps.RenderLoose | mini_base_blank_python3.8_updated/mini_base_blank_python3.8/storage_db.py:494-500 | The plain store renders `str(value)` left-justified without cutting, so the text is as long as the longer of the two. |
| TableOps.RenderedFieldReadsBack | storage_db.py:559-566 | A rendered value that fits its width and has no edge spaces decodes back to itself. |
| TableOps.RepackReadsBack | storage_db.py:559-574 | A repacked record whose values all render faithfully has the content length of the schema and decodes back to itself. |
| TableOps.RenderingsAgree | mini_base_blank_python3.8_updated/mini_base_blank_python3.8/storage_db.py:494-500 | The two renderings coincide whenever the text fits the width. |
| TableOps.LooseRenderingShifts | mini_base_blank_python3.8_updated/mini_base_blank_python3.8/storage_db.py:494-500 | An int wider than its field (123 in 2 bytes) pushes the next field along in the plain store's record text, where the logged store cuts it. |
| Transactions.EmptyLog | transaction_db.py:40-48 | A fresh log is one zeroed header block with zero entries. |
| Transactions.Init | transaction_db.py:28-48 | A new manager has counter 0, no active and no committed transactions, and satisfies the manager invariant when existing logs have readable headers. |
| Transactions.Begin | transaction_db.py:50-64 | The new id is the counter plus one and above every id seen, so it was neither active nor committed. It becomes active with no operations, a BEGIN record is appended, and no other transaction or log changes. |
| Transactions.Commit | transaction_db.py:66-83 | Commit succeeds iff the id is active. A failed commit changes nothing. A successful one moves the id from active to committed after a COMMIT record, and touches no other id. |
| Transactions.Abort | transaction_db.py:85-99 | Abort succeeds iff the id is active. It removes the id after an ABORT record without committing it; a failed abort changes nothing. |
| Transactions.LogImage | transaction_db.py:101-137 | With the corrected `_write_to_log_file`, image logging succeeds iff the id is active. A failed call changes nothing. A successful one appends the `(kind, entry)` operation to that transaction and writes only the log file of that kind. |
| Transactions.LogBothActive | storage_db.py:284-340 | With the corrected log call, logging a before-image then an after-image appends the two operations in that order. |
| Transactions.LogAppends | transaction_db.py:139-176 | With the corrected header update, each logged image adds exactly one entry to its log. That entry reads back as the table name, truncated or padded to 50 bytes; the ids; the stamp; and the data truncated to `BLOCK_SIZE-100`. |
| Transactions.AppendEntry | transaction_db.py:139-176 | The corrected append writes the entry page at `BLOCK_SIZE*(1+n)`. It raises the header count by one and leaves every other entry alone. |
| Transactions.EntryReadsBack | transaction_db.py:148-170 | An entry page decodes back: a 70-byte `'!50siid i'` header, then the data at offset 70. |
| Transactions.HeadReadsBack | transaction_db.py:162-167 | The 70-byte header places the name, transaction id, block id, stamp and data length at offsets 0, 50, 54, 58 and 66. |
| Transactions.TxnRecordReadsBack | transaction_db.py:178-183 | A transaction-log record is a 16-byte `'!iid'` append that reads back as id, type and stamp. |
| Transactions.AppendEntryAsWritten | transaction_db.py:139-176 | As written, the entry page is written but the header update raises, so the header keeps its old count. |
| Transactions.AsWrittenOverwrites | transaction_db.py:172-175 | As written, the count stays 0, so the second entry overwrites the first at page 1. |
| Transactions.AppendKeepsEarlier | transaction_db.py:157-176 | With the corrected header update, two appends leave two entries that read back in order. |
| Transactions.LogImageAsWritten | transaction_db.py:101-176 | As written, an inactive id returns False; for an active id the call raises before `operations.append`, so no operation is ever recorded. A `bytes` name raises at `.encode` with nothing written, and a `str` name raises after writing the entry page with the header count unchanged. |
| Transactions.LogCallsDiffer | transaction_db.py:101-176 | For an active id the corrected call returns True and records one more operation, while as written it raises and records none. For any other id both readings return False and change nothing. |
| LoggedStore.Enter | storage_db.py:226-231 | With no current transaction a new one is begun, marked for auto-commit and made current. Otherwise the current one is used as is. |
| LoggedStore.Leave | storage_db.py:342-347 | A normal end reports its result and auto-commits a transaction it began, clearing the current id. A transaction it did not begin is left alone. |
| LoggedStore.Fail | storage_db.py:515-519 | A caught exception aborts an auto transaction and clears the current id, without committing it. A caller's transaction is left as is. |
| LoggedStore.Insert | storage_db.py:223-347 | A refused value returns False and a short list raises; both leave the table and the image logs alone. An accepted record is appended to the cache, and the call does not return False. (Modelled with the corrected log call; see Findings.) |
| LoggedStore.InsertAccepted | storage_db.py:260-347 | An accepted record is cached, and the insert returns True or raises. (Modelled with the corrected log call; see Findings.) |
| LoggedStore.InsertTransaction | storage_db.py:226-346 | Inside a caller's transaction nothing is begun or committed. An auto transaction is committed after a True return, and is left active and current otherwise. |
| LoggedStore.AcceptedTransaction | storage_db.py:342-345 | Only a successful insert commits its auto transaction; the counter never moves. |
| LoggedStore.InsertLogsBlock | storage_db.py:284-340 | A successful insert in a caller's transaction logs the target block before and after the writes, in that order. (Modelled with the corrected log call; see Findings.) |
| LoggedStore.AcceptedLogsBlock | storage_db.py:284-340 | The same before/after pair for the accepted path. (Modelled with the corrected log call; see Findings.) |
| LoggedStore.LogFileBefore | storage_db.py:453-464 | The whole file is logged as a before-image under block 0 before any change. (Modelled with the corrected log call; see Findings.) |
| LoggedStore.Unmatched | storage_db.py:507-513 | An update or delete with no match does not rewrite the file or log an after-image. It still commits its auto transaction. (Modelled with the corrected log call; see Findings.) |
| LoggedStore.RaisedAfterLog | storage_db.py:466-519 | An exception caught after the before-image keeps the cache changes made so far. It logs no after-image and aborts an auto transaction. (Modelled with the corrected log call; see Findings.) |
| LoggedStore.Rewritten | storage_db.py:490-513 | A successful update or delete repacks the cache into the file, logs the whole new file as the after-image, and commits its auto transaction. (Modelled with the corrected log call; see Findings.) |
| LoggedStore.UpdateTarget | storage_db.py:421-451 | The update target is the field whose name, stripped as a `str`, is the request, and the typed old/new values. It is nothing when the field is unknown, the integer text is malformed, or a new string is longer than the field. |
| LoggedStore.Update | storage_db.py:411-519 | An unknown field or bad value ends in the caught exception (`Raised`) with the table unchanged. Otherwise only the records whose field equals the old value change, up to the first record too short to hold the field (also caught). The internal `updated` flag (`Done(b)`) is set iff some record matched; without it the file and the after-image log are untouched. (Modelled with the corrected log call; see Findings.) |
| LoggedStore.UpdateAt | storage_db.py:453-519 | The same update once the field and values are known: the `updated` flag, or the caught exception for a too-short record. (Modelled with the corrected log call; see Findings.) |
| LoggedStore.Delete | storage_db.py:585-680 | An unknown field or bad value ends in the caught exception (`Raised`) with the table unchanged. Otherwise the cache becomes `KeepRows` of it: exactly the matching records go, and the rest stay in order with repeats (TableOps.KeepRowsAppend). The internal `deleted` flag (`Done(b)`) is set iff something went. Without it the file and the after-image log are untouched. (Modelled with the corrected log call; see Findings.) |
| LoggedStore.UpdateAtOwn | storage_db.py:453-504 | Inside a caller's transaction an update logs the whole file before, and the new file after only when it succeeded. (Modelled with the corrected log call; see Findings.) |
| LoggedStore.UpdateAtAuto | storage_db.py:510-519 | In an auto transaction the transaction ends either way. It is committed iff the update did not raise. |
| LoggedStore.UpdateInOwnTransaction | storage_db.py:411-519 | Inside a caller's transaction an update begins and commits nothing. It logs the before-image and, on success, the after-image, in that order. (Modelled with the corrected log call; see Findings.) |
| LoggedStore.UpdateInAutoTransaction | storage_db.py:413-519 | Without a current transaction an update ends its own one: committed iff no exception was caught. |
| LoggedStore.DeleteInOwnTransaction | storage_db.py:594-665 | Inside a caller's transaction a delete logs the whole file before, and the new file after only when something was deleted. (Modelled with the corrected log call; see Findings.) |
| LoggedStore.DeleteInAutoTransaction | storage_db.py:587-680 | Without a current transaction a delete ends its own one: committed iff no exception was caught. |
| LoggedStore.InsertAsWritten | storage_db.py:223-294 | As written, an accepted record is cached and placed. Then, in an active transaction, the before-image log raises on the handle's `bytes` name: the file is not written, nothing is logged or committed, and an auto transaction stays current. A refused or missing value ends as in the corrected insert. |
| LoggedStore.UpdateAsWritten | storage_db.py:411-519 | As written, in an active transaction every update that gets past the type checks hits the raising before-image log first. It ends in the caught exception with the table unchanged, and an auto transaction is aborted, never committed. A caller's transaction and the image logs are left as they were. |
| LoggedStore.DeleteAsWritten | storage_db.py:585-680 | As written, in an active transaction the before-image log raises before the field lookup. Every delete ends in the caught exception with the table unchanged, and an auto transaction is aborted, never committed. |
| LoggedStore.UnloggedInsertAgrees | transaction_db.py:101-105 | In a transaction the manager does not hold, the log calls return False, and the insert as written equals the corrected one. |
| LoggedStore.UnloggedUpdateAgrees | transaction_db.py:101-105 | In a transaction the manager does not hold, the update as written equals the corrected one. |
| LoggedStore.UnloggedDeleteAgrees | transaction_db.py:101-105 | In a transaction the manager does not hold, the delete as written equals the corrected one. |
| PlainStore.Insert | mini_base_blank_python3.8_updated/mini_base_blank_python3.8/storage_db.py:221-307 | A refused value returns False and a short list raises, both with the table unchanged. An accepted record and its slot are appended, and the call does not return False. |
| PlainStore.InsertAccepted | mini_base_blank_python3.8_updated/mini_base_blank_python3.8/storage_db.py:248-307 | An accepted record and its placed slot are appended. |
| PlainStore.InsertPlacesRecord | mini_base_blank_python3.8_updated/mini_base_blank_python3.8/storage_db.py:271-305 | When the slot fits, the insert returns True and the file holds the record's offset entry and its content at the backward offset. |
| PlainStore.AcceptedPlaces | mini_base_blank_python3.8_updated/mini_base_blank_python3.8/storage_db.py:271-305 | The same for the accepted path. |
| PlainStore.Rewrite | mini_base_blank_python3.8_updated/mini_base_blank_python3.8/storage_db.py:433-519 | A rewrite replaces the cache and repacks it with the plain rendering; the positions are left stale. |
| PlainStore.UpdateWith | mini_base_blank_python3.8_updated/mini_base_blank_python3.8/storage_db.py:415-428 | Only matching records change, up to a record too short for the field (an exception the method catches). The internal `updated` flag is set iff some record matched, and the file is rewritten only then. |
| PlainStore.UpdateTarget | mini_base_blank_python3.8_updated/mini_base_blank_python3.8/storage_db.py:389-412 | Lookup compares the 10-byte name with the field names, both stripped as `bytes`, and the old and new values are typed (strings become bytes). It is nothing when the field is unknown or the integer text is malformed. |
| PlainStore.Update | mini_base_blank_python3.8_updated/mini_base_blank_python3.8/storage_db.py:370-431 | An unknown field or bad integer ends in the caught exception with the table unchanged. Otherwise records whose field equals the typed old value get the typed new one. The internal `updated` flag is set iff some matched, and the file is untouched otherwise. |
| PlainStore.LookupStripped | mini_base_blank_python3.8_updated/mini_base_blank_python3.8/storage_db.py:392 | A name without `bytes` whitespace at its edges is looked up as itself. |
| PlainStore.TextUpdateNeverApplies | mini_base_blank_python3.8_updated/mini_base_blank_python3.8/storage_db.py:410-421 | For a string field whose cache holds `str` values, no update ever matches: the table is unchanged and the internal `updated` flag is never set. |
| PlainStore.TextUpdateExample | mini_base_blank_python3.8_updated/mini_base_blank_python3.8/storage_db.py:410-421 | Updating `name` from `ab` to `cd` in a one-record table changes nothing. |
| PlainStore.UpdateIntended | mini_base_blank_python3.8_updated/mini_base_blank_python3.8/storage_db.py:370-431 | The corrected update ends in the caught exception for an unknown field, and leaves the file alone unless the `updated` flag is set. |
| PlainStore.IntendedTextUpdate | mini_base_blank_python3.8_updated/mini_base_blank_python3.8/storage_db.py:415-425 | With the corrected comparison a string update replaces exactly the records holding the old text. Its `updated` flag is set iff one exists. |
| PlainStore.Delete | mini_base_blank_python3.8_updated/mini_base_blank_python3.8/storage_db.py:522-597 | An unknown field, bad integer or too-short record ends in the caught exception with the table unchanged. Otherwise the cache becomes `KeepRows` of it: exactly the `str`-equal matches go, and the rest stay in order with repeats (TableOps.KeepRowsAppend). The internal `deleted` flag is set iff one went, and the file is rewritten only then. |
| PlainStore.DeleteIdempotent | mini_base_blank_python3.8_updated/mini_base_blank_python3.8/storage_db.py:569-591 | A second identical delete finds nothing: its `deleted` flag stays unset and the table is unchanged. |
| StoreAgreement.InsertsAgree | storage_db.py:238-328 | The plain store and the logged store with the corrected log call insert alike: the same table and the same result. |
| StoreAgreement.AcceptedAgree | storage_db.py:260-328 | The same on the accepted path, against the logged store with the corrected log call. |
| StoreAgreement.ContentsAgree | storage_db.py:559-566 | When every value fits its width, the two renderings of the cache coincide. |
| StoreAgreement.DeletesAgree | storage_db.py:609-652 | The plain store and the logged store with the corrected log call delete alike: the same `deleted` flag and records, and the same file when every value fits its width. |
| StoreAgreement.UpdatesAgreeOnNumbers | storage_db.py:438-488 | On int and bool fields whose names strip alike as `bytes` and as `str`, the plain store and the logged store with the corrected log call update alike: the same `updated` flag and records. |
| StoreAgreement.TargetsAgree | storage_db.py:426-447 | On int and bool fields whose names strip alike as `bytes` and as `str`, both stores find the same field and type the same values. |
| StoreAgreement.LookupsAgree | storage_db.py:426-435 | Where every field name strips alike as `bytes` and as `str`, the logged store's lookup and the plain store's find the same field. |
| StoreAgreement.LookupsDiffer | storage_db.py:426-435 | A field named `a` followed by the separator 0x1f is found under `a` by the logged update and not found by the plain update. |
| BTreeNode.FormatKey | mini_base_blank_python3.8_updated/mini_base_blank_python3.8/index_db.py:214-226 | A key is always exactly 10 bytes: longer input keeps its first 10, shorter input is a prefix followed by zero bytes. |
| BTreeNode.FormatKeyIdempotent | mini_base_blank_python3.8_updated/mini_base_blank_python3.8/index_db.py:214-226 | Formatting a formatted key changes nothing. |
| BTreeNode.LeafPosition | mini_base_blank_python3.8_updated/mini_base_blank_python3.8/index_db.py:326-339 | The insertion point is the first key not below the new key. |
| BTreeNode.InsertSortedPlaces | mini_base_blank_python3.8_updated/mini_base_blank_python3.8/index_db.py:326-339 | The pair goes in at that point and the lists stay parallel. Earlier entries are below the key. Later ones shift by one and are not below it, so an equal key goes before existing duplicates. |
| BTreeNode.InsertKeepsSorted | mini_base_blank_python3.8_updated/mini_base_blank_python3.8/index_db.py:326-339 | A sorted key list stays sorted. |
| BTreeNode.InsertedMatches | mini_base_blank_python3.8_updated/mini_base_blank_python3.8/index_db.py:326-339 | After inserting a key, its matches are the new pointer followed by the old matches. |
| BTreeNode.SortedScanFindsAll | mini_base_blank_python3.8_updated/mini_base_blank_python3.8/index_db.py:533-555 | On a sorted leaf the early-exit scan returns exactly the pointers whose key equals the search key, in leaf order. |
| BTreeNode.UnsortedScanMisses | mini_base_blank_python3.8_updated/mini_base_blank_python3.8/index_db.py:544-551 | On an unsorted leaf the early exit can miss a match. |
| BTreeNode.ChildIndex | mini_base_blank_python3.8_updated/mini_base_blank_python3.8/index_db.py:296-320 | The child index is the first key above the search key: every earlier key is at most the key. |
| BTreeNode.SortedChild | mini_base_blank_python3.8_updated/mini_base_blank_python3.8/index_db.py:296-320 | With sorted keys the child after key `i` is chosen iff key `i` is at most the search key. So `ptr_0` is chosen below `key_1`, `ptr_i` for the last key at most the search key, and the last pointer at or above every key. |
| BTreeNode.SplitLeaf | mini_base_blank_python3.8_updated/mini_base_blank_python3.8/index_db.py:484-497 | The described split keeps `ceil(n/2)` entries on the left and a non-empty right half. |
| BTreeNode.SplitLeafPartitions | mini_base_blank_python3.8_updated/mini_base_blank_python3.8/index_db.py:484-497 | The halves concatenate back to the leaf. The left leaf links to the new one, which takes the old next pointer. The promoted key is the first right key, bounding the halves when sorted. |
| BTreeLayout.MaxKeys | mini_base_blank_python3.8_updated/mini_base_blank_python3.8/index_db.py:68-89 | The capacities are 226 leaf keys and 291 internal keys, and a full node of either kind fits in its block. |
| BTreeLayout.LeafLists | mini_base_blank_python3.8_updated/mini_base_blank_python3.8/index_db.py:421-436 | A leaf's lists decode iff its count of entries fits in the buffer; then both lists have that length and every key is 10 bytes. |
| BTreeLayout.ChildOfDecoded | mini_base_blank_python3.8_updated/mini_base_blank_python3.8/index_db.py:296-320 | The byte-level child search picks the same pointer as the search over the decoded keys and pointers. |
| BTreeLayout.ScanLeafDecoded | mini_base_blank_python3.8_updated/mini_base_blank_python3.8/index_db.py:533-555 | The byte-level leaf scan gives the same pointers as the scan over the decoded lists. |
| BTreeLayout.LeafRoundTrip | mini_base_blank_python3.8_updated/mini_base_blank_python3.8/index_db.py:441-464 | A rewritten leaf reads back as a leaf with the same count, the same lists and the given next-leaf pointer. |
| BTreeIndex.MetaRoundTrip | mini_base_blank_python3.8_updated/mini_base_blank_python3.8/index_db.py:149-172 | A saved meta block loads back unchanged. |
| BTreeIndex.SaveMeta | mini_base_blank_python3.8_updated/mini_base_blank_python3.8/index_db.py:162-172 | Saving succeeds iff every field packs as `'!i?iii'`. It then rewrites block 0 with the meta image and keeps every node block. |
| BTreeIndex.Open | mini_base_blank_python3.8_updated/mini_base_blank_python3.8/index_db.py:97-131 | A missing file, or one whose block 0 is shorter than the 17-byte meta, is initialised with the empty meta. Any other file is kept and its meta loaded. Either way the meta is what block 0 holds. |
| BTreeIndex.Initialize | mini_base_blank_python3.8_updated/mini_base_blank_python3.8/index_db.py:134-146 | A fresh index has no root, no levels and next free block 1, and block 0 holds exactly that. |
| BTreeIndex.ReopenKeepsMeta | mini_base_blank_python3.8_updated/mini_base_blank_python3.8/index_db.py:149-172 | Saving and reopening gives back the same meta. |
| BTreeIndex.Allocate | mini_base_blank_python3.8_updated/mini_base_blank_python3.8/index_db.py:175-179 | Allocation returns the counter and bumps it by one. When the new meta packs, it is saved to block 0; otherwise the file is unchanged. |
| BTreeIndex.AllocateMany | mini_base_blank_python3.8_updated/mini_base_blank_python3.8/index_db.py:175-179 | `k` allocations in a row hand out consecutive ids starting at the counter, and leave the counter `k` higher. |
| BTreeIndex.AllocationsIncrease | mini_base_blank_python3.8_updated/mini_base_blank_python3.8/index_db.py:175-179 | `k` allocations return consecutive, strictly increasing ids from the old counter, all below the new counter, so none is reused. |
| BTreeIndex.ReadNode | mini_base_blank_python3.8_updated/mini_base_blank_python3.8/index_db.py:182-190 | A block id below 1 is refused; a node read has at least a header and at most a block. |
| BTreeIndex.WriteNode | mini_base_blank_python3.8_updated/mini_base_blank_python3.8/index_db.py:193-199 | A block id below 1 leaves the file unchanged. |
| BTreeIndex.NodeReadBack | mini_base_blank_python3.8_updated/mini_base_blank_python3.8/index_db.py:182-199 | A node written at a valid id reads back as written. |
| BTreeIndex.FindLeaf | mini_base_blank_python3.8_updated/mini_base_blank_python3.8/index_db.py:393-414 | The descent stops at a block that reads back as the buffer it returns. |
| BTreeIndex.Insert | mini_base_blank_python3.8_updated/mini_base_blank_python3.8/index_db.py:348-481 | An empty tree gets a new root, or the call raises. In that case the meta becomes root = the old next free block, levels 1, counter + 1. A tree with a root keeps its meta and is changed only when the leaf is rewritten. |
| BTreeIndex.InsertFirst | mini_base_blank_python3.8_updated/mini_base_blank_python3.8/index_db.py:354-374 | The first insert allocates a block, makes it the root with one level and saves that meta to block 0. |
| BTreeIndex.WriteRoot | mini_base_blank_python3.8_updated/mini_base_blank_python3.8/index_db.py:356-372 | The meta becomes a one-level tree rooted at `id`. With a packable meta and pointers the call succeeds, and then block `id` holds the one-entry root leaf with no next leaf and block 0 decodes to the saved meta. |
| BTreeIndex.InsertAt | mini_base_blank_python3.8_updated/mini_base_blank_python3.8/index_db.py:411-481 | Inserting at the reached leaf keeps the meta and changes the file only when the leaf is rewritten. A missing node ends the call with `NoNode`, and an unreadable node or leaf with the `struct` error, both with the index unchanged. |
| BTreeIndex.AddToLeaf | mini_base_blank_python3.8_updated/mini_base_blank_python3.8/index_db.py:439-481 | A leaf with room, a full block and packable pointers is rewritten (`Added`). A full leaf gives `Full` with the index unchanged, as the split stub leaves it. |
| BTreeIndex.InsertRewritesLeaf | mini_base_blank_python3.8_updated/mini_base_blank_python3.8/index_db.py:421-481 | A full leaf leaves the index unchanged. A leaf with room in a full block, with packable pointers, is rewritten with one more entry, the sorted insertion of the new pair, and keeps its original next-leaf pointer. |
| BTreeIndex.AddedLeafHolds | mini_base_blank_python3.8_updated/mini_base_blank_python3.8/index_db.py:439-464 | A rewritten leaf holds the inserted lists and the original next-leaf pointer. |
| BTreeIndex.Search | mini_base_blank_python3.8_updated/mini_base_blank_python3.8/index_db.py:514-518 | Search on an empty tree returns no pointers. |
| BTreeIndex.SearchSortedRoot | mini_base_blank_python3.8_updated/mini_base_blank_python3.8/index_db.py:514-555 | On a one-level tree with a sorted leaf, search returns exactly the pointers whose key equals the formatted key, in leaf order. |
| BTreeIndex.SearchAfterFirstInsert | mini_base_blank_python3.8_updated/mini_base_blank_python3.8/index_db.py:348-374 | After the first insert the key is found with its pointer and any other key is not found. |
| BTreeIndex.SearchAfterInsert | mini_base_blank_python3.8_updated/mini_base_blank_python3.8/index_db.py:348-464 | Inserting into a one-level tree whose sorted leaf has room adds the new pointer in front of the key's earlier matches. |
| QueryExtract.ExtractSfw | mini_base_blank_python3.8_updated/mini_base_blank_python3.8/query_plan_db.py:60-114 | A missing root, or a node that is not QUERY, gives two empty lists and no condition. |
| QueryExtract.ListRoundTrip | mini_base_blank_python3.8_updated/mini_base_blank_python3.8/query_plan_db.py:70-104 | Walking a select or from list built by the grammar gives back its entries in source order. |
| QueryExtract.ExtractQueryTree | mini_base_blank_python3.8_updated/mini_base_blank_python3.8/query_plan_db.py:60-114 | Extraction returns a query's select list and from list in source order, and its condition unchanged. |
| QueryExtract.ClausesGrow | mini_base_blank_python3.8_updated/mini_base_blank_python3.8/query_plan_db.py:68-112 | Later clauses only append to the lists. |
| QueryCondition.UpToDotOf | mini_base_blank_python3.8_updated/mini_base_blank_python3.8/query_plan_db.py:307 | The text before the first dot of `t.f` is `t` when `t` has no dot; the second dotted part that `split('.')[1]` takes is defined through it. |
| QueryCondition.LastPartOf | mini_base_blank_python3.8_updated/mini_base_blank_python3.8/query_plan_db.py:371 | `split('.')[-1]` of `a.f` is `f` when `f` has no dot. |
| QueryCondition.QualifiedParts | mini_base_blank_python3.8_updated/mini_base_blank_python3.8/query_plan_db.py:213 | A name built as `table.field` from dot-free parts contains a dot, and its first, second and last dotted parts are the table, the field and the field. |
| QueryCondition.ResolveKey | mini_base_blank_python3.8_updated/mini_base_blank_python3.8/query_plan_db.py:364-380 | A resolved column is one of the record's keys. |
| QueryCondition.ResolveKeyMeaning | mini_base_blank_python3.8_updated/mini_base_blank_python3.8/query_plan_db.py:364-380 | An exact key resolves to itself. Otherwise the name is missing iff no key ends in it, and ambiguous iff two different keys do. A hit is the unique key ending in it. |
| QueryCondition.ResolvesTo | mini_base_blank_python3.8_updated/mini_base_blank_python3.8/query_plan_db.py:364-380 | The unique candidate key is what resolution returns. |
| QueryCondition.FirstIndex | mini_base_blank_python3.8_updated/mini_base_blank_python3.8/query_plan_db.py:383-384 | `list.index` gives the first position holding the key, and fails iff the key is absent. |
| QueryCondition.LastIndex | mini_base_blank_python3.8_updated/mini_base_blank_python3.8/query_plan_db.py:264 | A `dict(zip(...))` key maps to the value at the last position holding it. |
| QueryCondition.CastConstant | mini_base_blank_python3.8_updated/mini_base_blank_python3.8/query_plan_db.py:392-410 | An int column casts with `int()` and a bool column to a bool; any other column casts with `str()`, which never fails. |
| QueryCondition.CastIntegerText | mini_base_blank_python3.8_updated/mini_base_blank_python3.8/query_plan_db.py:392-395 | Decimal integer text casts to its value. |
| QueryCondition.OrderConsistent | mini_base_blank_python3.8_updated/mini_base_blank_python3.8/query_plan_db.py:414-419 | Comparison is antisymmetric and is defined for `(a, b)` iff for `(b, a)`. Its zero is Python equality. |
| QueryCondition.CompareIntegers | mini_base_blank_python3.8_updated/mini_base_blank_python3.8/query_plan_db.py:414-419 | On integers the six operators are the usual comparisons. |
| QueryCondition.UnknownOperatorRejects | mini_base_blank_python3.8_updated/mini_base_blank_python3.8/query_plan_db.py:414-422 | An operator outside the six (and `EQX`) evaluates to False. |
| QueryCondition.UnresolvedColumnRejects | mini_base_blank_python3.8_updated/mini_base_blank_python3.8/query_plan_db.py:364-380 | An ambiguous or missing column makes a simple condition False. |
| QueryCondition.UnknownNodeRejects | mini_base_blank_python3.8_updated/mini_base_blank_python3.8/query_plan_db.py:436-437 | A node type other than SIMPLE_CONDITION, AND and OR evaluates to False. |
| QueryCondition.Connectives | mini_base_blank_python3.8_updated/mini_base_blank_python3.8/query_plan_db.py:424-430 | A false first operand decides an AND, and a true one an OR, without the second. When both evaluate, AND is conjunction and OR is disjunction. |
| QueryCondition.IntegerCondition | mini_base_blank_python3.8_updated/mini_base_blank_python3.8/query_plan_db.py:354-422 | A simple condition on a uniquely named int column compares that record's value with the constant. |
| QueryCondition.SelectRows | mini_base_blank_python3.8_updated/mini_base_blank_python3.8/query_plan_db.py:260-268 | Filtering succeeds iff the condition evaluates on every record, and gives the order-preserving subsequence of records it holds for. |
| QueryCondition.SelectAnd | mini_base_blank_python3.8_updated/mini_base_blank_python3.8/query_plan_db.py:260-268 | Filtering by `a AND b` is filtering by `a` then by `b`. |
| QueryPlan.JoinTree | mini_base_blank_python3.8_updated/mini_base_blank_python3.8/query_plan_db.py:130-148 | The from-tree of n tables is left-deep, with n-1 X nodes and leaves in list order. |
| QueryPlan.LeftDeepIsJoinTree | mini_base_blank_python3.8_updated/mini_base_blank_python3.8/query_plan_db.py:130-148 | Every left-deep tree is the from-tree of its leaves. |
| QueryPlan.ConstructFrom | mini_base_blank_python3.8_updated/mini_base_blank_python3.8/query_plan_db.py:130-148 | No tables gives nothing; otherwise the left-deep tree of the tables. |
| QueryPlan.ConstructWhere | mini_base_blank_python3.8_updated/mini_base_blank_python3.8/query_plan_db.py:159-168 | The where step keeps the leaves. It changes the plan only by wrapping it in a Filter on the given condition. |
| QueryPlan.ConstructSelect | mini_base_blank_python3.8_updated/mini_base_blank_python3.8/query_plan_db.py:179-187 | The select step keeps the leaves. It changes the plan only by wrapping it in a Proj on the given columns. |
| QueryPlan.BuildPlan | mini_base_blank_python3.8_updated/mini_base_blank_python3.8/query_plan_db.py:130-187 | A plan exists iff the from list is non-empty, and its leaves are the from list. |
| QueryPlan.Columns | mini_base_blank_python3.8_updated/mini_base_blank_python3.8/query_plan_db.py:210-213 | A scanned table names its fields `table.field`, each field name stripped as a `str`, in schema order. |
| QueryPlan.Load | mini_base_blank_python3.8_updated/mini_base_blank_python3.8/query_plan_db.py:204-223 | A scan of a known table gives its records and field descriptors, with one name per field. |
| QueryPlan.CrossRowsAt | mini_base_blank_python3.8_updated/mini_base_blank_python3.8/query_plan_db.py:236-245 | The cross product has `|L|*|R|` rows in left-major order: row `i*|R|+j` is `l_i ++ r_j`. |
| QueryPlan.CrossRel | mini_base_blank_python3.8_updated/mini_base_blank_python3.8/query_plan_db.py:236-245 | A product relation has `|L|*|R|` rows and the concatenated field lists. |
| QueryPlan.CrossAssociative | mini_base_blank_python3.8_updated/mini_base_blank_python3.8/query_plan_db.py:236-245 | Row-level cross product is associative. |
| QueryPlan.CrossRelAssociative | mini_base_blank_python3.8_updated/mini_base_blank_python3.8/query_plan_db.py:225-245 | Relation-level cross product is associative, so a left-deep tree equals the right-nested product. |
| QueryPlan.ResolveColumns | mini_base_blank_python3.8_updated/mini_base_blank_python3.8/query_plan_db.py:294-333 | Resolution gives one position per requested column, the one the scan finds. It fails iff some column is not found or is ambiguous. |
| QueryPlan.ColumnResolution | mini_base_blank_python3.8_updated/mini_base_blank_python3.8/query_plan_db.py:294-333 | A dotted request hits iff it is a field name, and picks its first occurrence. Over `table.field` names, a plain request is missing iff no field part equals it and ambiguous iff two do. A hit is the unique such column. |
| QueryPlan.ProjectRel | mini_base_blank_python3.8_updated/mini_base_blank_python3.8/query_plan_db.py:270-340 | `*` or no columns returns the input. An unresolved column gives nothing. Otherwise there is one output row per input row and one name and one type per requested column. |
| QueryPlan.ProjectMeaning | mini_base_blank_python3.8_updated/mini_base_blank_python3.8/query_plan_db.py:336-338 | Output column `c` of row `k` is the input value at the resolved position, with that position's name and type. |
| QueryPlan.LoadAll | mini_base_blank_python3.8_updated/mini_base_blank_python3.8/query_plan_db.py:204-223 | Every table loads, or some table is unknown. |
| QueryPlan.JoinTreeProduct | mini_base_blank_python3.8_updated/mini_base_blank_python3.8/query_plan_db.py:225-245 | Executing the from-tree of loadable tables gives the product of their relations. |
| QueryPlan.JoinTreeMissingTable | mini_base_blank_python3.8_updated/mini_base_blank_python3.8/query_plan_db.py:225-232 | One unknown table makes the whole from-tree fail. |
| QueryPlan.StarQuery | mini_base_blank_python3.8_updated/mini_base_blank_python3.8/query_plan_db.py:60-344 | For a hand-built select list `COLUMN_NAME('*')` over tables t1..tn, planning and execution, from syntax tree to result, give the product of the tables, or fail when one is unknown. |

## Left out

- File I/O (seek, read, write, flush, `os.path.exists`, closing) is modelled as pure functions on byte sequences; `print` output is dropped.
- The schema-prompting branch of the table constructor reads `input()`; an empty table file is reported as needing a schema and nothing more.
- `time.time()` is a `Stamp` parameter; one stamp is used per store call, where the source reads the clock again for each record.
- The process-global transaction manager is passed explicitly. The uninitialised `current_transaction_id` of the store is taken to start as none.
- Transactions.LogImage: models the corrected `_write_to_log_file` (str name, header count advanced), so logging an active id succeeds where the source raises (Transactions.LogImageAsWritten). It also requires room for one more entry in each image log's 32-bit record count (`Headroom`); the source's `struct.error` past 2^31-1 entries is not modelled.
- Transactions.LogBothActive: states the corrected log calls; as written the first call raises and no operation is appended.
- Transactions.LogAppends: states the corrected header update; as written the count never moves and the call raises (Transactions.AsWrittenOverwrites).
- LoggedStore.Insert: models the corrected log call; as written an accepted insert in an active transaction raises with the record cached and placed, the file unwritten and an auto transaction left open (LoggedStore.InsertAsWritten).
- LoggedStore.InsertAccepted: models the corrected log call; as written the first log call raises before any write (LoggedStore.InsertAsWritten).
- LoggedStore.InsertLogsBlock: models the corrected log call; as written the before/after operations are never appended (LoggedStore.InsertAsWritten).
- LoggedStore.AcceptedLogsBlock: models the corrected log call; as written the before/after operations are never appended (LoggedStore.InsertAsWritten).
- LoggedStore.LogFileBefore: models the corrected log call; as written this log call raises and records nothing (Transactions.LogImageAsWritten).
- LoggedStore.Unmatched: models the corrected log call; as written a call in an active transaction never reaches this ending, because the before-image log raises first (LoggedStore.UpdateAsWritten, LoggedStore.DeleteAsWritten).
- LoggedStore.RaisedAfterLog: models the corrected log call; as written it is the before-image log itself that raises, with the cache untouched (LoggedStore.UpdateAsWritten).
- LoggedStore.Rewritten: models the corrected log call; as written a call in an active transaction never reaches the repack, after-image or commit (LoggedStore.UpdateAsWritten, LoggedStore.DeleteAsWritten).
- LoggedStore.Update: models the corrected log call; as written an update in an active transaction aborts with the table unchanged once past the type checks (LoggedStore.UpdateAsWritten).
- LoggedStore.UpdateAt: models the corrected log call; as written, the same gap as LoggedStore.Update once the target is known (LoggedStore.UpdateAsWritten).
- LoggedStore.Delete: models the corrected log call; as written a delete in an active transaction aborts with the records unchanged (LoggedStore.DeleteAsWritten).
- LoggedStore.UpdateAtOwn: models the corrected log call; as written the logged operations are never appended (LoggedStore.UpdateAsWritten).
- LoggedStore.UpdateInOwnTransaction: models the corrected log call; as written the before/after operations never appear (LoggedStore.UpdateAsWritten).
- LoggedStore.DeleteInOwnTransaction: models the corrected log call; as written the before/after operations never appear (LoggedStore.DeleteAsWritten).
- StoreAgreement.InsertsAgree: compares the plain store with the corrected logged store; as written the logged insert raises where the plain one returns True.
- StoreAgreement.AcceptedAgree: compares the plain store with the corrected logged store on the accepted path.
- StoreAgreement.DeletesAgree: compares the plain store with the corrected logged store; as written the logged delete aborts with its records unchanged.
- StoreAgreement.UpdatesAgreeOnNumbers: compares the plain store with the corrected logged store; as written the logged update aborts with its records unchanged. It also holds only for field names that strip alike as `bytes` and as `str` (StoreAgreement.LookupsDiffer).
- StoreAgreement.TargetsAgree: holds only for field names that strip alike, because the plain store strips names as `bytes` and the logged store as `str` (StoreAgreement.LookupsDiffer).
- The outcome `Done(b)` of update and delete in both stores is the method's internal `updated`/`deleted` flag: the methods return `None` and catch every exception, so callers see neither the flag nor a raise, and `Raised` means the handler ran.
- TableLayout.Open: a directory that declares a negative field length is reported as `Corrupt`. The source reads such a descriptor and slices records with it, following Python's slice rules for negative bounds, which the model does not reproduce.
- QueryPlan.StarQuery: the select list `COLUMN_NAME('*')` is built by hand. The grammar lexes `*` but has no rule that puts it in a select list, so no parsed query reaches this path.
- The store's `__del__`, `show_table_data`, `delete_table_data` and `getFieldList` are outside the modelled core.
- Python `int()` is modelled for optional sign and decimal digits with surrounding whitespace; underscores and non-ASCII digits are not accepted. Text is ASCII, so a string's length is its byte count.
- `str.strip()` is modelled on ASCII text: it removes \t \n \v \f \r, space and the separators 0x1c-0x1f, where `bytes.strip()` removes only the first six. The non-ASCII whitespace `str.strip()` also removes is out of reach because text is ASCII.
- `struct.pack` of an int outside 32 bits raises in Python; the model's big-endian packing wraps instead, and contracts that depend on it require in-range values.
- BTreeNode.SplitLeaf: the split is a stub in the source; the model follows the steps its comment describes, and the insert path keeps the stub (a full leaf is left unwritten).
- The internal-node split and `_insert_into_parent` are stubs with no behaviour to model.
- `create_index` scans a whole table through the store constructor and is outside the modelled core.
- BTreeIndex.SearchAfterInsert: is stated for one-level trees; for deeper trees the descent is modelled but the search-after-insert property is not proved.
- BTreeIndex.SaveMeta: the `open` flag of the meta save is taken as always set.
- A syntax-tree node object is always truthy (the node class is not part of this model).
- A condition constant that is itself a node, and node items under `COLUMN_NAME` or `TABLE_NAME`, are treated as raising.
- The TABLE branch of execution builds a store from disk and prompts for an unknown table; the model takes table contents as an input map and treats an unknown table as a failure.
- Python's `None` results and raised exceptions of the planner both become `None`.
- `main_db.py`, `parser_db.py` and `lex_db.py` (the interactive loop and the PLY grammar) are not part of this model; the syntax tree is modelled by its node shape.

## Findings

| source | as written | input that shows it | evidently intended | confidence | as-written member | corrected member |
|---|---|---|---|---|---|---|
| transaction_db.py:148 | The table name is encoded with `.encode('utf-8')`, but a table store passes its handle's `f_handle.name`, which is `bytes` (the file is opened under a `bytes` path), so every log call of an active transaction raises before writing. | An update in an auto transaction of a table with a matching record: it aborts with the table unchanged instead of committing. | Log the name as text and record the operation. | not executed | LoggedStore.UpdateAsWritten | LoggedStore.UpdateInAutoTransaction |
| transaction_db.py:172-175 | The header count is packed into the immutable `bytes` just read, which raises after the entry page is written, so the count never moves. | Two image logs into a fresh log: the second entry overwrites the first at page 1. | The header count rises by one per entry. | not executed | Transactions.AsWrittenOverwrites | Transactions.AppendKeepsEarlier |
| storage_db.py:266-275 | `MAX_RECORD_NUM` uses true division, so the rollover test only fires when `record_len+4` divides 4084. | One 2-byte field (`record_len` 20): record 170 goes to block 1, slot 170, and its offset entry overlaps the payloads. | Roll over at the floor of the quotient. | not executed | Placement.PlacementOverflows | Placement.PlaceIntendedFits |
| storage_db.py:250-255 | A boolean field caches `bool(text)`, true for any non-empty text, while the decoder reads only `true`, `1`, `yes` and `t` as true. | A field `flag` given `no`: cached `True`, read back `False`. | Cache the value the decoder will read. | not executed | TableFacts.BoolCacheDisagrees | TableFacts.IntendedFieldRoundTrip |
| mini_base_blank_python3.8_updated/mini_base_blank_python3.8/storage_db.py:410-418 | String update values are encoded to `bytes` but the cache holds `str`, so `==` never holds. | Updating `name` from `ab` to `cd` in a table holding `ab` changes nothing. | Compare values of the same type. | not executed | PlainStore.TextUpdateExample | PlainStore.IntendedTextUpdate |

=== FILE: btree_index.dfy ===
/** The B-tree index file: block 0 holds the meta block, every other block
    a node. The index keeps the meta fields in memory and writes them back
    whenever a block is allocated or a root is created. Inserting into an
    empty tree creates a one-entry root leaf; otherwise the key descends to
    a leaf, which is rewritten with the new entry when it has room and left
    alone when it would overflow (splitting is not implemented). */
module BTreeIndex {
  import opened Common
  import opened Records
  import opened BTreeNode
  import opened BTreeLayout

  /** '!i?iii': meta block id, has-root flag, levels, root id, next free id. */
  const META_SIZE: nat := 17

  datatype Meta = Meta(hasRoot: bool, levels: int, root: int, nextFree: int)

  /** The in-memory meta fields and the index file's bytes. */
  datatype Index = Index(meta: Meta, file: bytes)

  /** No root, no levels, and block 1 the first one to hand out. */
  const EMPTY_META: Meta := Meta(false, 0, NO_BLOCK, 1)

  /** Fields `struct.pack` accepts as '!i'. */
  predicate MetaInRange(m: Meta)
  {
    InI32(m.levels) && InI32(m.root) && InI32(m.nextFree)
  }

  // ---------------------------------------------------------------------
  // The meta block
  // ---------------------------------------------------------------------

  /** The meta block as written: the packed fields in a zeroed block. */
  function MetaImage(m: Meta): (r: bytes)
    ensures |r| == BLOCK_SIZE
  {
    Be32(0) + [if m.hasRoot then 1 else 0] + Be32(m.levels) + Be32(m.root) + Be32(m.nextFree) +
    Zeros(BLOCK_SIZE - META_SIZE)
  }

  function DecodeMeta(b: bytes): Meta
    requires |b| >= META_SIZE
  {
    Meta(b[4] != 0, I32At(b, 5), I32At(b, 9), I32At(b, 13))
  }

  /** Meta fields survive the pack/unpack round trip. */
  lemma MetaRoundTrip(m: Meta)
    requires MetaInRange(m)
    ensures DecodeMeta(MetaImage(m)) == m
  {
    var b := MetaImage(m);
    assert b[5..9] == Be32(m.levels);
    assert b[9..13] == Be32(m.root);
    assert b[13..17] == Be32(m.nextFree);
    I32OfBe32(m.levels);
    I32OfBe32(m.root);
    I32OfBe32(m.nextFree);
  }

  /** `_save_meta_block`; `None` when a field does not pack (the `struct`
      error propagates to the caller). */
  function SaveMeta(ix: Index): (r: Option<bytes>)
    ensures r.Some? <==> MetaInRange(ix.meta)
    ensures r.Some? ==> ReadAt(r.value, 0, BLOCK_SIZE) == MetaImage(ix.meta)
    ensures r.Some? ==> |r.value| >= |ix.file|
    ensures r.Some? ==> forall i :: BLOCK_SIZE <= i < |ix.file| ==> r.value[i] == ix.file[i]
  {
    if MetaInRange(ix.meta) then
      ReadAfterWrite(ix.file, 0, MetaImage(ix.meta));
      Some(WriteAt(ix.file, 0, MetaImage(ix.meta)))
    else None
  }

  /** The constructor: a missing file is created with an empty meta block;
      an existing one has its meta block loaded, or re-initialised when the
      block is too short to hold the meta fields. */
  function Open(existing: Option<bytes>): (r: Index)
    ensures MetaInRange(r.meta)
    ensures |r.file| >= META_SIZE && DecodeMeta(ReadAt(r.file, 0, BLOCK_SIZE)) == r.meta
    ensures existing.Some? && |existing.value| >= META_SIZE ==> r.file == existing.value
    ensures existing.None? || |existing.value| < META_SIZE ==> r.meta == EMPTY_META
  {
    match existing
    case None => Initialize([])
    case Some(f) =>
      var b := ReadAt(f, 0, BLOCK_SIZE);
      if |b| < META_SIZE then Initialize(f) else Index(DecodeMeta(b), f)
  }

  /** `_initialize_meta_block`: empty meta fields, written to block 0. */
  function Initialize(f: bytes): (r: Index)
    ensures r.meta == EMPTY_META && MetaInRange(r.meta)
    ensures ReadAt(r.file, 0, BLOCK_SIZE) == MetaImage(EMPTY_META)
    ensures DecodeMeta(ReadAt(r.file, 0, BLOCK_SIZE)) == EMPTY_META
  {
    MetaRoundTrip(EMPTY_META);
    ReadAfterWrite(f, 0, MetaImage(EMPTY_META));
    Index(EMPTY_META, WriteAt(f, 0, MetaImage(EMPTY_META)))
  }

  /** Saving the meta block (as allocation, root creation and the destructor
      do) and opening the file again restores the meta fields. */
  lemma ReopenKeepsMeta(ix: Index)
    requires MetaInRange(ix.meta)
    ensures SaveMeta(ix).Some? && Open(SaveMeta(ix)).meta == ix.meta
  {
    MetaRoundTrip(ix.meta);
  }

  // ---------------------------------------------------------------------
  // Blocks
  // ---------------------------------------------------------------------

  /** The result of `_allocate_new_block_id`: the id handed out, the index
      after the counter moved on, and whether saving the meta block worked. */
  datatype Allocation = Allocation(id: int, index: Index, saved: bool)

  /** Hand out the counter, increment it and save the meta block. */
  function Allocate(ix: Index): (r: Allocation)
    ensures r.id == ix.meta.nextFree && r.index.meta == ix.meta.(nextFree := r.id + 1)
    ensures r.saved <==> MetaInRange(r.index.meta)
    ensures r.saved ==> ReadAt(r.index.file, 0, BLOCK_SIZE) == MetaImage(r.index.meta)
    ensures r.saved ==> DecodeMeta(ReadAt(r.index.file, 0, BLOCK_SIZE)) == r.index.meta
    ensures !r.saved ==> r.index.file == ix.file
  {
    var m := ix.meta.(nextFree := ix.meta.nextFree + 1);
    match SaveMeta(Index(m, ix.file))
    case None => Allocation(ix.meta.nextFree, Index(m, ix.file), false)
    case Some(f) =>
      MetaRoundTrip(m);
      Allocation(ix.meta.nextFree, Index(m, f), true)
  }

  /** The ids of `k` allocations in a row: consecutive from the counter,
      which ends `k` higher. */
  function AllocateMany(ix: Index, k: nat): (r: (seq<int>, Index))
    ensures |r.0| == k && r.1.meta.nextFree == ix.meta.nextFree + k
    ensures forall i :: 0 <= i < k ==> r.0[i] == ix.meta.nextFree + i
    decreases k
  {
    if k == 0 then ([], ix)
    else
      var a := Allocate(ix);
      var rest := AllocateMany(a.index, k - 1);
      ([a.id] + rest.0, rest.1)
  }

  /** Allocated ids are strictly increasing, start at the counter, stay
      below the counter left behind, and so are never handed out twice. */
  lemma {:induction false} AllocationsIncrease(ix: Index, k: nat)
    ensures var (ids, after) := AllocateMany(ix, k);
            after.meta.nextFree == ix.meta.nextFree + k &&
            (forall i :: 0 <= i < k ==> ids[i] == ix.meta.nextFree + i) &&
            (forall i, j :: 0 <= i < j < k ==> ids[i] < ids[j]) &&
            (forall i :: 0 <= i < k ==> ix.meta.nextFree <= ids[i] < after.meta.nextFree)
    decreases k
  {
    if k > 0 {
      AllocationsIncrease(Allocate(ix).index, k - 1);
    }
  }

  /** `_read_node_block`: no node for the sentinel, for block 0 or below,
      or for a block too short to hold a header. */
  function ReadNode(file: bytes, id: int): (r: Option<bytes>)
    ensures id < 1 ==> r == None
    ensures r.Some? ==> HEADER_SIZE <= |r.value| <= BLOCK_SIZE
  {
    if id == NO_BLOCK || id < 1 then None
    else
      var b := ReadAt(file, id * BLOCK_SIZE, BLOCK_SIZE);
      if |b| < HEADER_SIZE then None else Some(b)
  }

  /** `_write_node_block`: invalid ids are reported and nothing is written. */
  function WriteNode(file: bytes, id: int, buf: bytes): (r: bytes)
    ensures id < 1 ==> r == file
  {
    if id == NO_BLOCK || id < 1 then file else WriteAt(file, id * BLOCK_SIZE, buf)
  }

  /** A whole node written to a valid block is what reading it returns. */
  lemma NodeReadBack(file: bytes, id: int, buf: bytes)
    requires id >= 1 && |buf| == BLOCK_SIZE
    ensures ReadNode(WriteNode(file, id, buf), id) == Some(buf)
  {
    ReadAfterWrite(file, id * BLOCK_SIZE, buf);
  }

  // ---------------------------------------------------------------------
  // insert_index_entry
  // ---------------------------------------------------------------------

  /** How an insert ended: a new root leaf, an entry added to a leaf, a full
      leaf left alone, a node that could not be read, or a `struct` error. */
  datatype Status = NewRoot | Added | Full | NoNode | Raised

  datatype Inserted = Inserted(index: Index, status: Status)

  /** Where the descent towards a leaf ended. */
  datatype Descent = Reached(id: int, buf: bytes) | Lost | Broken

  /** `num_of_levels - 1` steps down from `id`, each through the child an
      internal node sends the key to, then the leaf's block. The descent
      does not check node types. */
  function FindLeaf(file: bytes, id: int, steps: int, key: bytes): (r: Descent)
    ensures r.Reached? ==> ReadNode(file, r.id) == Some(r.buf)
    decreases steps
  {
    match ReadNode(file, id)
    case None => Lost
    case Some(b) =>
      if steps <= 0 then Reached(id, b)
      else
        match ChildOf(b, key)
        case None => Broken
        case Some(c) => FindLeaf(file, c, steps - 1, key)
  }

  function Insert(ix: Index, key: Value, p: Ptr): (r: Inserted)
    ensures r.index.meta.nextFree >= ix.meta.nextFree
    ensures ix.meta.hasRoot ==> r.index.meta == ix.meta
    ensures ix.meta.hasRoot && r.status != Added ==> r.index == ix
    ensures ix.meta.hasRoot ==> r.status != NewRoot
    ensures !ix.meta.hasRoot ==> r.status in {NewRoot, Raised}
    ensures r.status == NewRoot ==>
              r.index.meta == Meta(true, 1, ix.meta.nextFree, ix.meta.nextFree + 1)
  {
    var k := FormatKey(key);
    if !ix.meta.hasRoot then InsertFirst(ix, k, p) else InsertIntoLeaf(ix, k, p)
  }

  /** Case 1: allocate the root, mark the tree as one level deep, write a
      leaf holding the single entry and no next leaf, save the meta block. */
  function InsertFirst(ix: Index, k: bytes, p: Ptr): (r: Inserted)
    requires |k| == KEY_SIZE
    ensures r.index.meta.nextFree == ix.meta.nextFree + 1
    ensures r.status in {NewRoot, Raised}
    ensures r.status == NewRoot ==>
              r.index.meta == Meta(true, 1, ix.meta.nextFree, ix.meta.nextFree + 1) &&
              MetaInRange(r.index.meta) &&
              ReadAt(r.index.file, 0, BLOCK_SIZE) == MetaImage(r.index.meta)
    ensures r.status == NewRoot ==>
              DecodeMeta(ReadAt(r.index.file, 0, BLOCK_SIZE)) == r.index.meta
  {
    var a := Allocate(ix);
    if !a.saved then Inserted(a.index, Raised) else WriteRoot(a.index, a.id, k, p)
  }

  /** The rest of case 1 once block `id` is allocated and the meta block
      saved: the tree becomes one level deep with `id` as root, the root
      leaf is written, and the meta block is saved again. */
  function WriteRoot(ix: Index, id: int, k: bytes, p: Ptr): (r: Inserted)
    requires |k| == KEY_SIZE
    ensures r.index.meta == ix.meta.(root := id, hasRoot := true, levels := 1)
    ensures r.status in {NewRoot, Raised}
    ensures r.status == NewRoot ==>
              MetaInRange(r.index.meta) && ReadAt(r.index.file, 0, BLOCK_SIZE) == MetaImage(r.index.meta)
    ensures r.status == NewRoot ==>
              DecodeMeta(ReadAt(r.index.file, 0, BLOCK_SIZE)) == r.index.meta
    ensures r.status == NewRoot && id >= 1 ==>
              ReadNode(r.index.file, id) == Some(LeafImage(id, Lists([k], [p]), NO_BLOCK))
    ensures MetaInRange(ix.meta) && InI32(id) && InI32(p.block) && InI32(p.offset) ==> r.status == NewRoot
  {
    var m := ix.meta.(root := id, hasRoot := true, levels := 1);
    if !InI32(id) || !InI32(p.block) || !InI32(p.offset) then Inserted(Index(m, ix.file), Raised)
    else
      var f := WriteNode(ix.file, id, LeafImage(id, Lists([k], [p]), NO_BLOCK));
      match SaveMeta(Index(m, f))
      case None => Inserted(Index(m, f), Raised)
      case Some(f2) =>
        MetaRoundTrip(m);
        if id >= 1 then
          NodeKeptBySave(ix.file, id, LeafImage(id, Lists([k], [p]), NO_BLOCK), m);
          Inserted(Index(m, f2), NewRoot)
        else Inserted(Index(m, f2), NewRoot)
  }

  /** Case 2: descend to a leaf, read its entries, insert the new one in
      order; rewrite the leaf (keeping its next pointer) when it still fits,
      leave everything alone when the leaf would overflow. */
  function InsertIntoLeaf(ix: Index, k: bytes, p: Ptr): (r: Inserted)
    ensures r.index.meta == ix.meta
    ensures r.status in {Added, Full, NoNode, Raised}
    ensures r.status != Added ==> r.index == ix
    // Naming the descent lets callers reason about the leaf it reached.
    ensures r == InsertAt(ix, FindLeaf(ix.file, ix.meta.root, ix.meta.levels - 1, k), k, p)
  {
    InsertAt(ix, FindLeaf(ix.file, ix.meta.root, ix.meta.levels - 1, k), k, p)
  }

  /** Case 2 once the descent has ended: nothing happens when no leaf was
      reached; otherwise the leaf's entries are read and the new one added. */
  function InsertAt(ix: Index, d: Descent, k: bytes, p: Ptr): (r: Inserted)
    requires d.Reached? ==> |d.buf| >= HEADER_SIZE
    ensures r.index.meta == ix.meta
    ensures r.status in {Added, Full, NoNode, Raised}
    ensures r.status != Added ==> r.index == ix
    ensures d.Lost? ==> r == Inserted(ix, NoNode)
    ensures d.Broken? ==> r == Inserted(ix, Raised)
    ensures d.Reached? && LeafLists(d.buf).None? ==> r == Inserted(ix, Raised)
    ensures r.status == Added ==> d.Reached? && LeafLists(d.buf).Some?
  {
    match d
    case Lost => Inserted(ix, NoNode)
    case Broken => Inserted(ix, Raised)
    case Reached(id, b) =>
      match LeafLists(b)
      case None => Inserted(ix, Raised)
      case Some(l) => AddToLeaf(ix, id, b, l, k, p)
  }

  /** The leaf's entries with the new one in place: written back when they
      fit, with the leaf's original next pointer; a `struct` error when a
      pointer does not pack or the block is too short to hold that pointer. */
  function AddToLeaf(ix: Index, id: int, b: bytes, l: Lists, k: bytes, p: Ptr): (r: Inserted)
    requires |l.keys| == |l.ptrs|
    ensures r.index.meta == ix.meta
    ensures r.status in {Added, Full, Raised}
    ensures r.status != Added ==> r.index == ix
    ensures |l.keys| >= MAX_LEAF_KEYS ==> r == Inserted(ix, Full)
    ensures |l.keys| < MAX_LEAF_KEYS && InI32(id) && InI32(p.block) && InI32(p.offset) && |b| >= BLOCK_SIZE ==>
              r.status == Added
  {
    var l2 := InsertSorted(l, k, p);
    if |l2.keys| > MAX_LEAF_KEYS then Inserted(ix, Full)
    else if !InI32(id) || !InI32(p.block) || !InI32(p.offset) || |b| < BLOCK_SIZE then Inserted(ix, Raised)
    else Inserted(ix.(file := WriteNode(ix.file, id, LeafImage(id, l2, I32At(b, NEXT_LEAF_AT)))), Added)
  }

  /** Block `id` holds a leaf with exactly the entries `l` and next-leaf
      pointer `next`. */
  predicate LeafHolds(file: bytes, id: int, l: Lists, next: int)
  {
    match ReadNode(file, id)
    case None => false
    case Some(b) =>
      |b| == BLOCK_SIZE && NodeType(b) == LEAF_NODE && KeyCount(b) == |l.keys| &&
      LeafLists(b) == Some(l) && I32At(b, NEXT_LEAF_AT) == next
  }

  /** A leaf insert that fits rewrites the leaf the key descends to: it now
      holds one more entry, the old ones with the new one in sorted place,
      and the same next-leaf pointer. A leaf already holding the maximum is
      left as it was. */
  lemma InsertRewritesLeaf(ix: Index, k: bytes, p: Ptr, id: int, b: bytes, l: Lists)
    requires |k| == KEY_SIZE
    requires FindLeaf(ix.file, ix.meta.root, ix.meta.levels - 1, k) == Reached(id, b)
    requires LeafLists(b) == Some(l)
    ensures |l.keys| >= MAX_LEAF_KEYS ==> InsertIntoLeaf(ix, k, p) == Inserted(ix, Full)
    ensures |l.keys| < MAX_LEAF_KEYS && InI32(id) && InI32(p.block) && InI32(p.offset) && |b| == BLOCK_SIZE ==>
              InsertIntoLeaf(ix, k, p).status == Added
    ensures var r := InsertIntoLeaf(ix, k, p);
            r.status == Added ==>
              |b| == BLOCK_SIZE && |InsertSorted(l, k, p).keys| == |l.keys| + 1 &&
              LeafHolds(r.index.file, id, InsertSorted(l, k, p), I32At(b, NEXT_LEAF_AT))
  {
    assert InsertIntoLeaf(ix, k, p) == InsertAt(ix, Reached(id, b), k, p);
    assert InsertAt(ix, Reached(id, b), k, p) == AddToLeaf(ix, id, b, l, k, p);
    AddedLeafHolds(ix, id, b, l, k, p);
  }

  lemma AddedLeafHolds(ix: Index, id: int, b: bytes, l: Lists, k: bytes, p: Ptr)
    requires |k| == KEY_SIZE && id >= 1 && HEADER_SIZE <= |b| <= BLOCK_SIZE && LeafLists(b) == Some(l)
    ensures |l.keys| >= MAX_LEAF_KEYS ==> AddToLeaf(ix, id, b, l, k, p) == Inserted(ix, Full)
    ensures var r := AddToLeaf(ix, id, b, l, k, p);
            r.status == Added ==>
              |b| == BLOCK_SIZE &&
              LeafHolds(r.index.file, id, InsertSorted(l, k, p), I32At(b, NEXT_LEAF_AT))
  {
    var l2 := InsertSorted(l, k, p);
    if |l2.keys| <= MAX_LEAF_KEYS && InI32(id) && InI32(p.block) && InI32(p.offset) && |b| >= BLOCK_SIZE {
      var next := I32At(b, NEXT_LEAF_AT);
      InsertedStorable(l, k, p);
      LeafWritten(ix.file, id, l2, next);
    }
  }

  /** A leaf image written to a valid block holds its entries there. */
  lemma LeafWritten(file: bytes, id: int, l: Lists, next: int)
    requires id >= 1 && Storable(l) && |l.keys| <= MAX_LEAF_KEYS && InI32(next)
    ensures LeafHolds(WriteNode(file, id, LeafImage(id, l, next)), id, l, next)
  {
    LeafRoundTrip(id, l, next);
    NodeReadBack(file, id, LeafImage(id, l, next));
  }

  /** Entries read from a leaf plus a 10-byte key with 32-bit pointers can be
      packed again. */
  lemma InsertedStorable(l: Lists, k: bytes, p: Ptr)
    requires |l.keys| == |l.ptrs| && |k| == KEY_SIZE && InI32(p.block) && InI32(p.offset)
    requires forall i :: 0 <= i < |l.keys| ==> |l.keys[i]| == KEY_SIZE
    requires forall i :: 0 <= i < |l.ptrs| ==> InI32(l.ptrs[i].block) && InI32(l.ptrs[i].offset)
    ensures Storable(InsertSorted(l, k, p))
  {
    var pos := LeafPosition(l.keys, k);
    var r := InsertSorted(l, k, p);
    forall i | 0 <= i < |r.keys|
      ensures |r.keys[i]| == KEY_SIZE && InI32(r.ptrs[i].block) && InI32(r.ptrs[i].offset)
    {
      if i < pos {
        assert r.keys[i] == l.keys[i] && r.ptrs[i] == l.ptrs[i];
      } else if i > pos {
        assert r.keys[i] == l.keys[i - 1] && r.ptrs[i] == l.ptrs[i - 1];
      }
    }
  }

  // ---------------------------------------------------------------------
  // search_key
  // ---------------------------------------------------------------------

  /** `search_key`: the data pointers stored under the key; `None` when a
      node's entries run past its block (the `struct` error propagates). */
  function Search(ix: Index, key: Value): (r: Option<seq<Ptr>>)
    ensures !ix.meta.hasRoot ==> r == Some([])
  {
    if !ix.meta.hasRoot then Some([])
    else SearchFrom(ix.file, ix.meta.root, ix.meta.levels, FormatKey(key))
  }

  /** At most `steps` nodes down from `id`: a leaf is scanned; an internal
      node passes the search to its child; an unreadable node, an unknown
      node type, the sentinel child and running out of steps all find
      nothing. */
  function SearchFrom(file: bytes, id: int, steps: int, key: bytes): Option<seq<Ptr>>
    decreases steps
  {
    if steps <= 0 then Some([])
    else
      match ReadNode(file, id)
      case None => Some([])
      case Some(b) =>
        if NodeType(b) == LEAF_NODE then ScanLeaf(b, key)
        else if NodeType(b) == INTERNAL_NODE then
          match ChildOf(b, key)
          case None => None
          case Some(c) => if c == NO_BLOCK then Some([]) else SearchFrom(file, c, steps - 1, key)
        else Some([])
  }

  /** In a one-level tree whose root leaf is sorted, a search returns, in
      leaf order, exactly the pointers stored under the formatted key. */
  lemma SearchSortedRoot(ix: Index, key: Value, b: bytes, l: Lists)
    requires ix.meta.hasRoot && ix.meta.levels == 1
    requires ReadNode(ix.file, ix.meta.root) == Some(b) && NodeType(b) == LEAF_NODE
    requires LeafLists(b) == Some(l) && Sorted(l.keys)
    ensures Search(ix, key) == Some(Matches(l, FormatKey(key)))
  {
    ScanLeafDecoded(b, FormatKey(key));
    SortedScanFindsAll(l, FormatKey(key));
  }

  /** The first insert into an empty index is found by searching for its key,
      and nothing else is found: any key that formats differently finds
      nothing. */
  lemma SearchAfterFirstInsert(ix: Index, key: Value, p: Ptr, other: Value)
    requires !ix.meta.hasRoot && MetaInRange(ix.meta)
    requires 1 <= ix.meta.nextFree && ix.meta.nextFree + 1 < TWO_31
    requires InI32(p.block) && InI32(p.offset)
    ensures Insert(ix, key, p).status == NewRoot
    ensures Search(Insert(ix, key, p).index, key) == Some([p])
    ensures FormatKey(other) != FormatKey(key) ==> Search(Insert(ix, key, p).index, other) == Some([])
  {
    var k := FormatKey(key);
    var l := Lists([k], [p]);
    assert Insert(ix, key, p) == InsertFirst(ix, k, p);
    var img := FirstRoot(ix, k, p);
    OneEntryLeaf(Insert(ix, key, p).index, key, img, k, p);
    OneEntryLeaf(Insert(ix, key, p).index, other, img, k, p);
  }

  /** A one-level tree whose root is a one-entry leaf finds that entry's
      pointer under its key and nothing under any other. */
  lemma OneEntryLeaf(ix: Index, key: Value, img: bytes, k: bytes, p: Ptr)
    requires ix.meta.hasRoot && ix.meta.levels == 1 && ix.meta.root >= 1
    requires |k| == KEY_SIZE && InI32(p.block) && InI32(p.offset)
    requires img == LeafImage(ix.meta.root, Lists([k], [p]), NO_BLOCK)
    requires ReadNode(ix.file, ix.meta.root) == Some(img)
    ensures Search(ix, key) == Some(if FormatKey(key) == k then [p] else [])
  {
    var l := Lists([k], [p]);
    LeafRoundTrip(ix.meta.root, l, NO_BLOCK);
    assert Sorted(l.keys);
    SearchSortedRoot(ix, key, img, l);
    MatchesOne(k, p, FormatKey(key));
  }


  /** The root block written by the first insert reads back as its leaf. */
  lemma FirstRoot(ix: Index, k: bytes, p: Ptr) returns (img: bytes)
    requires !ix.meta.hasRoot && MetaInRange(ix.meta) && |k| == KEY_SIZE
    requires 1 <= ix.meta.nextFree && ix.meta.nextFree + 1 < TWO_31
    requires InI32(p.block) && InI32(p.offset)
    ensures img == LeafImage(ix.meta.nextFree, Lists([k], [p]), NO_BLOCK)
    ensures var r := InsertFirst(ix, k, p);
            r.status == NewRoot && r.index.meta == Meta(true, 1, ix.meta.nextFree, ix.meta.nextFree + 1) &&
            ReadNode(r.index.file, ix.meta.nextFree) == Some(img)
  {
    var id := ix.meta.nextFree;
    var a := Allocate(ix);
    img := LeafImage(id, Lists([k], [p]), NO_BLOCK);
    assert InsertFirst(ix, k, p) == WriteRoot(a.index, id, k, p);
    RootWritten(a.index, id, k, p);
  }

  lemma RootWritten(ix: Index, id: int, k: bytes, p: Ptr)
    requires |k| == KEY_SIZE && MetaInRange(ix.meta) && id >= 1 && InI32(id)
    requires InI32(p.block) && InI32(p.offset)
    ensures var r := WriteRoot(ix, id, k, p);
            r.status == NewRoot &&
            ReadNode(r.index.file, id) == Some(LeafImage(id, Lists([k], [p]), NO_BLOCK))
  {
    var img := LeafImage(id, Lists([k], [p]), NO_BLOCK);
    var m := ix.meta.(root := id, hasRoot := true, levels := 1);
    assert MetaInRange(m);
    NodeKeptBySave(ix.file, id, img, m);
  }

  /** Saving the meta block leaves a node written before it readable. */
  lemma NodeKeptBySave(file: bytes, id: int, img: bytes, m: Meta)
    requires id >= 1 && |img| == BLOCK_SIZE && MetaInRange(m)
    ensures ReadNode(SaveMeta(Index(m, WriteNode(file, id, img))).value, id) == Some(img)
  {
    var f := WriteNode(file, id, img);
    NodeReadBack(file, id, img);
    ReadPastWrite(f, 0, MetaImage(m), id * BLOCK_SIZE, BLOCK_SIZE);
  }

  /** Inserting into a one-level tree whose sorted root leaf has room puts
      the new pointer first among those a search for its key returns,
      ahead of every pointer found before, and keeps the leaf sorted. */
  lemma SearchAfterInsert(ix: Index, key: Value, p: Ptr, b: bytes, l: Lists)
    requires ix.meta.hasRoot && ix.meta.levels == 1 && InI32(ix.meta.root)
    requires ReadNode(ix.file, ix.meta.root) == Some(b) && |b| == BLOCK_SIZE && NodeType(b) == LEAF_NODE
    requires LeafLists(b) == Some(l) && Sorted(l.keys) && |l.keys| < MAX_LEAF_KEYS
    requires InI32(p.block) && InI32(p.offset)
    ensures var r := Insert(ix, key, p);
            r.status == Added &&
            Search(ix, key) == Some(Matches(l, FormatKey(key))) &&
            Search(r.index, key) == Some([p] + Matches(l, FormatKey(key)))
  {
    var k := FormatKey(key);
    var id := ix.meta.root;
    var l2 := InsertSorted(l, k, p);
    var next := I32At(b, NEXT_LEAF_AT);
    var img := LeafImage(id, l2, next);
    assert FindLeaf(ix.file, id, 0, k) == Reached(id, b);
    assert Insert(ix, key, p) == InsertIntoLeaf(ix, k, p);
    assert InsertIntoLeaf(ix, k, p) == Inserted(ix.(file := WriteNode(ix.file, id, img)), Added);
    SearchSortedRoot(ix, key, b, l);
    InsertedStorable(l, k, p);
    LeafRoundTrip(id, l2, next);
    NodeReadBack(ix.file, id, img);
    InsertKeepsSorted(l, k, p);
    SearchSortedRoot(ix.(file := WriteNode(ix.file, id, img)), key, img, l2);
    InsertedMatches(l, k, p);
  }
}

=== FILE: btree_layout.dfy ===
/** The byte layout of one B-tree node block. Every node starts with the
    '!iii' header block id | node type | number of keys. A leaf follows it
    with 18-byte entries (a '!10s' key, then '!ii' data block id and offset)
    and keeps the next leaf's block id in the block's last four bytes; an
    internal node follows it with `ptr_0` and then 14-byte (key, pointer)
    pairs. Decoding follows the index's `struct.unpack_from` calls, which
    raise (here: `None`) when an entry runs past the end of the buffer. */
module BTreeLayout {
  import opened Common
  import opened BTreeNode

  const HEADER_SIZE: nat := 12
  const LEAF_ENTRY_SIZE: nat := 18
  const INTERNAL_ENTRY_SIZE: nat := 14
  const NEXT_LEAF_AT: nat := BLOCK_SIZE - 4

  const INTERNAL_NODE: int := 0
  const LEAF_NODE: int := 1
  /** Block id of "no block": no next leaf, no root. */
  const NO_BLOCK: int := -1

  /** `calculate_max_keys`: as many entries as fit between the header and
      the trailing four bytes. */
  const MAX_LEAF_KEYS: nat := (BLOCK_SIZE - HEADER_SIZE - 4) / LEAF_ENTRY_SIZE
  const MAX_INTERNAL_KEYS: nat := (BLOCK_SIZE - HEADER_SIZE - 4) / INTERNAL_ENTRY_SIZE

  /** With 4096-byte blocks a leaf holds 226 entries and an internal node
      291 keys, and a full leaf still ends before the next-leaf pointer. */
  lemma MaxKeys()
    ensures MAX_LEAF_KEYS == 226 && MAX_INTERNAL_KEYS == 291
    ensures HEADER_SIZE + LEAF_ENTRY_SIZE * MAX_LEAF_KEYS <= NEXT_LEAF_AT
    ensures HEADER_SIZE + 4 + INTERNAL_ENTRY_SIZE * MAX_INTERNAL_KEYS <= BLOCK_SIZE
  {
  }

  // ---------------------------------------------------------------------
  // Writing a leaf
  // ---------------------------------------------------------------------

  function Header(id: int, kind: int, n: int): (r: bytes)
    ensures |r| == HEADER_SIZE
  {
    Be32(id) + Be32(kind) + Be32(n)
  }

  function Entry(key: bytes, p: Ptr): (r: bytes)
    ensures |r| == LEAF_ENTRY_SIZE
  {
    PackStr(key, KEY_SIZE) + Be32(p.block) + Be32(p.offset)
  }

  /** The entries packed one after another from offset 12. */
  function Entries(l: Lists): (r: bytes)
    requires |l.keys| == |l.ptrs|
    ensures |r| == LEAF_ENTRY_SIZE * |l.keys|
    decreases |l.keys|
  {
    if |l.keys| == 0 then []
    else Entry(l.keys[0], l.ptrs[0]) + Entries(Lists(l.keys[1..], l.ptrs[1..]))
  }

  /** The leaf block the index builds: a fresh zeroed block with the header,
      the next pointer and every entry packed into it. Because at most
      `MAX_LEAF_KEYS` entries are packed, none of the writes overlap and the
      block is the concatenation below. */
  function LeafImage(id: int, l: Lists, next: int): (r: bytes)
    requires |l.keys| == |l.ptrs| <= MAX_LEAF_KEYS
    ensures |r| == BLOCK_SIZE
  {
    Header(id, LEAF_NODE, |l.keys|) + Entries(l) +
    Zeros(NEXT_LEAF_AT - HEADER_SIZE - LEAF_ENTRY_SIZE * |l.keys|) + Be32(next)
  }

  // ---------------------------------------------------------------------
  // Reading a node
  // ---------------------------------------------------------------------

  function NodeType(b: bytes): int
    requires |b| >= HEADER_SIZE
  {
    I32At(b, 4)
  }

  function KeyCount(b: bytes): int
    requires |b| >= HEADER_SIZE
  {
    I32At(b, 8)
  }

  function LeafKeyAt(b: bytes, i: nat): bytes
    requires HEADER_SIZE + LEAF_ENTRY_SIZE * (i + 1) <= |b|
  {
    b[HEADER_SIZE + LEAF_ENTRY_SIZE * i..HEADER_SIZE + LEAF_ENTRY_SIZE * i + KEY_SIZE]
  }

  function LeafPtrAt(b: bytes, i: nat): Ptr
    requires HEADER_SIZE + LEAF_ENTRY_SIZE * (i + 1) <= |b|
  {
    Ptr(I32At(b, HEADER_SIZE + LEAF_ENTRY_SIZE * i + KEY_SIZE), I32At(b, HEADER_SIZE + LEAF_ENTRY_SIZE * i + KEY_SIZE + 4))
  }

  /** The insert's read of a leaf into two lists; `None` when the key count
      reaches past the buffer. A negative count reads nothing. */
  function LeafLists(b: bytes): (r: Option<Lists>)
    requires |b| >= HEADER_SIZE
    ensures r.Some? <==> HEADER_SIZE + LEAF_ENTRY_SIZE * Max(KeyCount(b), 0) <= |b|
    ensures r.Some? ==> |r.value.keys| == |r.value.ptrs| == Max(KeyCount(b), 0)
    ensures r.Some? ==> forall i :: 0 <= i < |r.value.keys| ==> |r.value.keys[i]| == KEY_SIZE
  {
    var n := Max(KeyCount(b), 0);
    if HEADER_SIZE + LEAF_ENTRY_SIZE * n > |b| then None
    else Some(Lists(seq(n, i requires 0 <= i < n => LeafKeyAt(b, i)), seq(n, i requires 0 <= i < n => LeafPtrAt(b, i))))
  }

  /** `search_key`'s scan of a leaf from entry `i` of `n`: the pointers of
      equal keys, stopping at the first greater key; `None` when an entry it
      reaches runs past the buffer. */
  function ScanFrom(b: bytes, key: bytes, i: nat, n: int): Option<seq<Ptr>>
    decreases n - i
  {
    if i >= n then Some([])
    else if HEADER_SIZE + LEAF_ENTRY_SIZE * (i + 1) > |b| then None
    else
      var k := LeafKeyAt(b, i);
      if k == key then
        match ScanFrom(b, key, i + 1, n)
        case None => None
        case Some(rest) => Some([LeafPtrAt(b, i)] + rest)
      else if Below(key, k) then Some([])
      else ScanFrom(b, key, i + 1, n)
  }

  function ScanLeaf(b: bytes, key: bytes): Option<seq<Ptr>>
    requires |b| >= HEADER_SIZE
  {
    ScanFrom(b, key, 0, KeyCount(b))
  }

  /** `_find_child_ptr_in_internal_node` from key `i` of `n` with `child` the
      pointer followed so far; `None` when a key it reaches runs past the
      buffer. */
  function ChildFrom(b: bytes, key: bytes, i: nat, n: int, child: int): Option<int>
    decreases n - i
  {
    if i >= n then Some(child)
    else if HEADER_SIZE + 4 + INTERNAL_ENTRY_SIZE * (i + 1) > |b| then None
    else
      var at := HEADER_SIZE + 4 + INTERNAL_ENTRY_SIZE * i;
      if Below(key, b[at..at + KEY_SIZE]) then Some(child)
      else ChildFrom(b, key, i + 1, n, I32At(b, at + KEY_SIZE))
  }

  function ChildOf(b: bytes, key: bytes): Option<int>
    requires |b| >= HEADER_SIZE
  {
    if |b| < HEADER_SIZE + 4 then None
    else ChildFrom(b, key, 0, KeyCount(b), I32At(b, HEADER_SIZE))
  }

  /** An internal node's keys `key_1 … key_n` and pointers `ptr_0 … ptr_n`. */
  function InternalKeys(b: bytes, n: nat): (r: seq<bytes>)
    requires HEADER_SIZE + 4 + INTERNAL_ENTRY_SIZE * n <= |b|
    ensures |r| == n
  {
    seq(n, i requires 0 <= i < n => b[HEADER_SIZE + 4 + INTERNAL_ENTRY_SIZE * i..HEADER_SIZE + 4 + INTERNAL_ENTRY_SIZE * i + KEY_SIZE])
  }

  function InternalPtrs(b: bytes, n: nat): (r: seq<int>)
    requires HEADER_SIZE + 4 + INTERNAL_ENTRY_SIZE * n <= |b|
    ensures |r| == n + 1
  {
    seq(n + 1, i requires 0 <= i <= n => I32At(b, HEADER_SIZE + INTERNAL_ENTRY_SIZE * i))
  }

  // ---------------------------------------------------------------------
  // The readers agree with the list-level algorithms
  // ---------------------------------------------------------------------

  /** On a node whose keys fit in the buffer, the child read from the bytes
      is the list-level `FindChild` of its keys and pointers. */
  lemma ChildOfDecoded(b: bytes, key: bytes)
    requires |b| >= HEADER_SIZE
    requires HEADER_SIZE + 4 + INTERNAL_ENTRY_SIZE * Max(KeyCount(b), 0) <= |b|
    ensures var n := Max(KeyCount(b), 0);
            ChildOf(b, key) == Some(FindChild(InternalKeys(b, n), InternalPtrs(b, n), key))
  {
    var n := Max(KeyCount(b), 0);
    if KeyCount(b) > 0 {
      ChildFromDecoded(b, key, n, 0);
    }
  }

  lemma {:induction false} ChildFromDecoded(b: bytes, key: bytes, n: nat, i: nat)
    requires HEADER_SIZE + 4 + INTERNAL_ENTRY_SIZE * n <= |b| && i <= n
    ensures var keys := InternalKeys(b, n);
            ChildFrom(b, key, i, n, InternalPtrs(b, n)[i]) ==
              Some(InternalPtrs(b, n)[i + ChildIndex(keys[i..], key)])
    decreases n - i
  {
    var keys := InternalKeys(b, n);
    var ptrs := InternalPtrs(b, n);
    if i < n {
      ChildStep(b, key, n, i, ptrs[i]);
      assert keys[i..][0] == keys[i];
      assert keys[i..][1..] == keys[i + 1..];
      if !Below(key, keys[i]) {
        ChildFromDecoded(b, key, n, i + 1);
      }
    }
  }

  /** One round of the child loop, in terms of the decoded keys and pointers. */
  lemma ChildStep(b: bytes, key: bytes, n: nat, i: nat, c: int)
    requires HEADER_SIZE + 4 + INTERNAL_ENTRY_SIZE * n <= |b| && i < n
    ensures ChildFrom(b, key, i, n, c) ==
              if Below(key, InternalKeys(b, n)[i]) then Some(c) else ChildFrom(b, key, i + 1, n, InternalPtrs(b, n)[i + 1])
  {
    var at := HEADER_SIZE + 4 + INTERNAL_ENTRY_SIZE * i;
    assert at + INTERNAL_ENTRY_SIZE <= HEADER_SIZE + 4 + INTERNAL_ENTRY_SIZE * n;
    assert at + KEY_SIZE == HEADER_SIZE + INTERNAL_ENTRY_SIZE * (i + 1);
  }

  /** On a leaf whose entries fit in the buffer, the scan read from the bytes
      is the list-level scan of the decoded lists. */
  lemma ScanLeafDecoded(b: bytes, key: bytes)
    requires |b| >= HEADER_SIZE && LeafLists(b).Some?
    ensures ScanLeaf(b, key) == Some(ScanKeys(LeafLists(b).value, key))
  {
    var l := LeafLists(b).value;
    ScanFromDecoded(b, key, l, 0);
    assert l.keys[0..] == l.keys && l.ptrs[0..] == l.ptrs;
  }

  lemma {:induction false} ScanFromDecoded(b: bytes, key: bytes, l: Lists, i: nat)
    requires |b| >= HEADER_SIZE && LeafLists(b) == Some(l) && i <= |l.keys|
    ensures ScanFrom(b, key, i, KeyCount(b)) == Some(ScanKeys(Lists(l.keys[i..], l.ptrs[i..]), key))
    decreases |l.keys| - i
  {
    var tail := Lists(l.keys[i..], l.ptrs[i..]);
    if i < |l.keys| {
      assert tail.keys[1..] == l.keys[i + 1..] && tail.ptrs[1..] == l.ptrs[i + 1..];
      assert tail.keys[0] == LeafKeyAt(b, i) && tail.ptrs[0] == LeafPtrAt(b, i);
      ScanFromDecoded(b, key, l, i + 1);
    }
  }

  // ---------------------------------------------------------------------
  // Writing then reading a leaf
  // ---------------------------------------------------------------------

  /** Keys and pointers a leaf can carry: 10-byte keys, 32-bit pointers. */
  predicate Storable(l: Lists)
  {
    |l.keys| == |l.ptrs| &&
    (forall i :: 0 <= i < |l.keys| ==> |l.keys[i]| == KEY_SIZE) &&
    (forall i :: 0 <= i < |l.ptrs| ==> InI32(l.ptrs[i].block) && InI32(l.ptrs[i].offset))
  }

  /** The leaf block decodes to what was packed into it: a leaf with the same
      entries and the same next pointer. */
  lemma LeafRoundTrip(id: int, l: Lists, next: int)
    requires Storable(l) && |l.keys| <= MAX_LEAF_KEYS && InI32(next)
    ensures var b := LeafImage(id, l, next);
            NodeType(b) == LEAF_NODE && KeyCount(b) == |l.keys| &&
            LeafLists(b) == Some(l) && I32At(b, NEXT_LEAF_AT) == next
  {
    var b := LeafImage(id, l, next);
    var n := |l.keys|;
    LeafImageParts(id, l, next);
    var h := Header(id, LEAF_NODE, n);
    HoldsPart(b, 0, h, 4, 8);
    assert h[4..8] == Be32(LEAF_NODE);
    HoldsI32(b, 4, LEAF_NODE);
    HoldsPart(b, 0, h, 8, 12);
    assert h[8..12] == Be32(n);
    HoldsI32(b, 8, n);
    HoldsI32(b, NEXT_LEAF_AT, next);
    LeafEntriesRead(id, l, next);
  }

  /** Where the header, the entries and the next pointer sit in a leaf block. */
  lemma LeafImageParts(id: int, l: Lists, next: int)
    requires |l.keys| == |l.ptrs| <= MAX_LEAF_KEYS
    ensures var b := LeafImage(id, l, next);
            Holds(b, 0, Header(id, LEAF_NODE, |l.keys|)) &&
            Holds(b, HEADER_SIZE, Entries(l)) &&
            Holds(b, NEXT_LEAF_AT, Be32(next))
  {
    var n := |l.keys|;
    var h := Header(id, LEAF_NODE, n);
    var e := Entries(l);
    var z := Zeros(NEXT_LEAF_AT - HEADER_SIZE - LEAF_ENTRY_SIZE * n);
    assert LeafImage(id, l, next) == h + e + z + Be32(next);
    PartsHeld(h, e, z, Be32(next));
  }

  /** The first, second and last of four joined parts sit at their offsets. */
  lemma PartsHeld(a: bytes, b: bytes, c: bytes, d: bytes)
    ensures var f := a + b + c + d;
            Holds(f, 0, a) && Holds(f, |a|, b) && Holds(f, |a| + |b| + |c|, d)
  {
    var f := a + b + c + d;
    assert f[0..|a|] == a;
    assert f[|a|..|a| + |b|] == b;
    assert f[|a| + |b| + |c|..|f|] == d;
  }

  lemma LeafEntriesRead(id: int, l: Lists, next: int)
    requires Storable(l) && |l.keys| <= MAX_LEAF_KEYS
    requires KeyCount(LeafImage(id, l, next)) == |l.keys|
    ensures LeafLists(LeafImage(id, l, next)) == Some(l)
  {
    var b := LeafImage(id, l, next);
    LeafImageParts(id, l, next);
    assert HEADER_SIZE + LEAF_ENTRY_SIZE * |l.keys| <= |b|;
    var r := LeafLists(b).value;
    forall i | 0 <= i < |l.keys|
      ensures r.keys[i] == l.keys[i] && r.ptrs[i] == l.ptrs[i]
    {
      EntryHeld(l, i);
      EntryDecoded(b, HEADER_SIZE, Entries(l), i, l.keys[i], l.ptrs[i]);
    }
    assert r.keys == l.keys && r.ptrs == l.ptrs;
  }

  /** Entry `i` sits at `18 * i` in the packed entries. */
  lemma {:induction false} EntryHeld(l: Lists, i: nat)
    requires |l.keys| == |l.ptrs| && i < |l.keys|
    ensures Holds(Entries(l), LEAF_ENTRY_SIZE * i, Entry(l.keys[i], l.ptrs[i]))
    decreases i
  {
    var first := Entry(l.keys[0], l.ptrs[0]);
    var tail := Lists(l.keys[1..], l.ptrs[1..]);
    assert Entries(l) == first + Entries(tail);
    if i == 0 {
      assert Holds(first + Entries(tail), 0, first + Entries(tail));
      HoldsSplit(Entries(l), 0, first, Entries(tail));
    } else {
      EntryHeld(tail, i - 1);
      HoldsAfter(first, Entries(tail), LEAF_ENTRY_SIZE * (i - 1), Entry(l.keys[i], l.ptrs[i]));
    }
  }

  lemma HoldsAfter(a: bytes, f: bytes, pos: int, d: bytes)
    requires Holds(f, pos, d)
    ensures Holds(a + f, |a| + pos, d)
  {
    assert (a + f)[|a| + pos..|a| + pos + |d|] == f[pos..pos + |d|];
  }

  /** A packed entry read back at its place in a buffer holding the entries. */
  lemma EntryDecoded(b: bytes, at: nat, e: bytes, i: nat, key: bytes, p: Ptr)
    requires at == HEADER_SIZE && Holds(b, at, e)
    requires Holds(e, LEAF_ENTRY_SIZE * i, Entry(key, p))
    requires |key| == KEY_SIZE && InI32(p.block) && InI32(p.offset)
    ensures HEADER_SIZE + LEAF_ENTRY_SIZE * (i + 1) <= |b|
    ensures LeafKeyAt(b, i) == key && LeafPtrAt(b, i) == Ptr(p.block, p.offset)
  {
    var pos := at + LEAF_ENTRY_SIZE * i;
    var d := Entry(key, p);
    HoldsPart(e, LEAF_ENTRY_SIZE * i, d, 0, LEAF_ENTRY_SIZE);
    assert d[0..LEAF_ENTRY_SIZE] == d;
    HoldsPart(b, at, e, LEAF_ENTRY_SIZE * i, LEAF_ENTRY_SIZE * i + LEAF_ENTRY_SIZE);
    assert b[pos..pos + LEAF_ENTRY_SIZE] == d;
    assert Holds(b, pos, d);
    assert PackStr(key, KEY_SIZE) == key;
    HoldsPart(b, pos, d, 0, KEY_SIZE);
    assert d[0..KEY_SIZE] == key;
    HoldsPart(b, pos, d, KEY_SIZE, KEY_SIZE + 4);
    assert d[KEY_SIZE..KEY_SIZE + 4] == Be32(p.block);
    HoldsI32(b, pos + KEY_SIZE, p.block);
    HoldsPart(b, pos, d, KEY_SIZE + 4, LEAF_ENTRY_SIZE);
    assert d[KEY_SIZE + 4..LEAF_ENTRY_SIZE] == Be32(p.offset);
    HoldsI32(b, pos + KEY_SIZE + 4, p.offset);
  }
}

=== FILE: btree_node.dfy ===
/** The list-level algorithms of the B-tree index: fixed-width keys, the
    child an internal node sends a key to, sorted insertion into a leaf's
    parallel key and pointer lists, the leaf scan of `search_key`, and the
    leaf split the index describes but does not implement. Keys compare as
    Python `bytes`. */
module BTreeNode {
  import opened Common
  import opened Records

  const KEY_SIZE: nat := 10

  /** A leaf's pointer to a record: data block id and offset in the block. */
  datatype Ptr = Ptr(block: int, offset: int)

  // ---------------------------------------------------------------------
  // _format_key
  // ---------------------------------------------------------------------

  /** The bytes of a key value: a `str` encoded, `bytes` as they are,
      anything else through `str()` first. */
  function KeyBytes(v: Value): bytes
  {
    if v.BytesV? then v.raw else PyStr(v)
  }

  /** `_format_key`: the key's bytes cut to 10, or padded with NUL bytes to 10. */
  function FormatKey(v: Value): (r: bytes)
    ensures |r| == KEY_SIZE
    ensures |KeyBytes(v)| >= KEY_SIZE ==> r == KeyBytes(v)[..KEY_SIZE]
    ensures |KeyBytes(v)| < KEY_SIZE ==>
              r[..|KeyBytes(v)|] == KeyBytes(v) && forall i :: |KeyBytes(v)| <= i < KEY_SIZE ==> r[i] == 0
  {
    var b := KeyBytes(v);
    if |b| > KEY_SIZE then b[..KEY_SIZE] else b + Zeros(KEY_SIZE - |b|)
  }

  /** A formatted key formats to itself: formatting is idempotent. */
  lemma FormatKeyIdempotent(v: Value)
    ensures FormatKey(BytesV(FormatKey(v))) == FormatKey(v)
  {
    var k := FormatKey(v);
    assert KeyBytes(BytesV(k)) == k;
    assert k[..KEY_SIZE] == k;
  }

  // ---------------------------------------------------------------------
  // Ordered keys
  // ---------------------------------------------------------------------

  /** Python's `a <= b` on `bytes`. */
  predicate AtMost(a: bytes, b: bytes) { !Below(b, a) }

  /** Non-decreasing, neighbour by neighbour. */
  predicate Sorted(keys: seq<bytes>)
  {
    forall i :: 0 <= i < |keys| - 1 ==> AtMost(keys[i], keys[i + 1])
  }

  /** `a <= b <= c` gives `a <= c`. */
  lemma AtMostTransitive(a: bytes, b: bytes, c: bytes)
    requires AtMost(a, b) && AtMost(b, c)
    ensures AtMost(a, c)
  {
    BelowTotal(a, b);
    BelowTotal(b, c);
    if Below(c, a) {
      if Below(a, b) {
        BelowTransitive(c, a, b);
      }
    }
  }

  /** `a < b <= c` gives `a < c`. */
  lemma BelowAtMost(a: bytes, b: bytes, c: bytes)
    requires Below(a, b) && AtMost(b, c)
    ensures Below(a, c)
  {
    BelowTotal(b, c);
    if b != c {
      BelowTransitive(a, b, c);
    }
  }

  /** Neighbour order gives order between any two positions. */
  lemma {:induction false} SortedPair(keys: seq<bytes>, i: nat, j: nat)
    requires Sorted(keys) && i <= j < |keys|
    ensures AtMost(keys[i], keys[j])
    decreases j - i
  {
    if i == j {
      BelowIrreflexive(keys[i]);
    } else {
      SortedPair(keys, i + 1, j);
      AtMostTransitive(keys[i], keys[i + 1], keys[j]);
    }
  }

  // ---------------------------------------------------------------------
  // _insert_into_sorted_leaf_lists
  // ---------------------------------------------------------------------

  /** The loop `while pos < len(key_list) and key_list[pos] < key`: the
      first position whose key is not below the new one. */
  function LeafPosition(keys: seq<bytes>, key: bytes): (pos: nat)
    ensures pos <= |keys|
    ensures forall i :: 0 <= i < pos ==> Below(keys[i], key)
    ensures pos < |keys| ==> !Below(keys[pos], key)
    decreases |keys|
  {
    if |keys| == 0 || !Below(keys[0], key) then 0 else 1 + LeafPosition(keys[1..], key)
  }

  /** A leaf's parallel lists after `list.insert(pos, …)` on both. */
  datatype Lists = Lists(keys: seq<bytes>, ptrs: seq<Ptr>)

  function InsertSorted(l: Lists, key: bytes, p: Ptr): (r: Lists)
    requires |l.keys| == |l.ptrs|
    ensures |r.keys| == |r.ptrs| == |l.keys| + 1
  {
    var pos := LeafPosition(l.keys, key);
    Lists(l.keys[..pos] + [key] + l.keys[pos..], l.ptrs[..pos] + [p] + l.ptrs[pos..])
  }

  /** `r` is `l` with `key` and `p` placed at `pos`: every key before it is
      below it, every old entry keeps its pointer beside its key and its
      order, and on a sorted list every key after it is at least the new one. */
  predicate PlacedAt(l: Lists, r: Lists, key: bytes, p: Ptr, pos: int)
    requires |l.keys| == |l.ptrs| && |r.keys| == |r.ptrs| == |l.keys| + 1
  {
    0 <= pos <= |l.keys| &&
    r.keys[pos] == key && r.ptrs[pos] == p &&
    (forall i :: 0 <= i < pos ==> r.keys[i] == l.keys[i] && r.ptrs[i] == l.ptrs[i] && Below(l.keys[i], key)) &&
    (forall i :: pos <= i < |l.keys| ==>
       r.keys[i + 1] == l.keys[i] && r.ptrs[i + 1] == l.ptrs[i] &&
       (Sorted(l.keys) ==> !Below(l.keys[i], key)))
  }

  /** Where the new entry goes: after every key below it and before the
      first one that is not (so an equal key already present ends up after
      the new one). */
  lemma InsertSortedPlaces(l: Lists, key: bytes, p: Ptr)
    requires |l.keys| == |l.ptrs|
    ensures exists pos :: PlacedAt(l, InsertSorted(l, key, p), key, p, pos)
  {
    var pos := LeafPosition(l.keys, key);
    SpliceAt(l.keys, pos, key);
    SpliceAt(l.ptrs, pos, p);
    if pos < |l.keys| {
      SortedFromPosition(l.keys, key, pos);
    }
    assert PlacedAt(l, InsertSorted(l, key, p), key, p, pos);
  }

  /** Inserting `x` at `pos` shifts everything from `pos` on up by one. */
  lemma SpliceAt<T>(s: seq<T>, pos: nat, x: T)
    requires pos <= |s|
    ensures var r := s[..pos] + [x] + s[pos..];
            |r| == |s| + 1 && r[pos] == x &&
            (forall i :: 0 <= i < pos ==> r[i] == s[i]) &&
            (forall i :: pos <= i < |s| ==> r[i + 1] == s[i])
  {
  }

  /** Past the first key not below the new one, no key is below it, provided
      the keys are sorted; unsorted, the position says nothing about them. */
  lemma SortedFromPosition(keys: seq<bytes>, key: bytes, pos: nat)
    requires pos < |keys| && !Below(keys[pos], key)
    ensures Sorted(keys) ==> forall i :: pos <= i < |keys| ==> !Below(keys[i], key)
  {
    if Sorted(keys) {
      forall i | pos <= i < |keys|
        ensures !Below(keys[i], key)
      {
        SortedPair(keys, pos, i);
        AtMostTransitive(key, keys[pos], keys[i]);
      }
    }
  }

  /** A sorted key list stays sorted. */
  lemma InsertKeepsSorted(l: Lists, key: bytes, p: Ptr)
    requires |l.keys| == |l.ptrs| && Sorted(l.keys)
    ensures Sorted(InsertSorted(l, key, p).keys)
  {
    var pos := LeafPosition(l.keys, key);
    var r := InsertSorted(l, key, p).keys;
    forall i | 0 <= i < |r| - 1
      ensures AtMost(r[i], r[i + 1])
    {
      if i + 1 < pos {
        assert r[i] == l.keys[i] && r[i + 1] == l.keys[i + 1];
      } else if i + 1 == pos {
        assert r[i] == l.keys[i] && r[i + 1] == key;
        BelowAsymmetric(l.keys[i], key);
      } else if i == pos {
        assert r[i] == key && r[i + 1] == l.keys[pos];
      } else {
        assert r[i] == l.keys[i - 1] && r[i + 1] == l.keys[i];
      }
    }
  }

  // ---------------------------------------------------------------------
  // search_key's scan of a leaf
  // ---------------------------------------------------------------------

  /** The scan as written: collect the pointers of equal keys in leaf order,
      stopping at the first key greater than the one searched. */
  function ScanKeys(l: Lists, key: bytes): (r: seq<Ptr>)
    requires |l.keys| == |l.ptrs|
    decreases |l.keys|
  {
    if |l.keys| == 0 then []
    else
      var rest := ScanKeys(Lists(l.keys[1..], l.ptrs[1..]), key);
      if l.keys[0] == key then [l.ptrs[0]] + rest
      else if Below(key, l.keys[0]) then []
      else rest
  }

  /** Every pointer whose key equals `key`, in leaf order. */
  function Matches(l: Lists, key: bytes): (r: seq<Ptr>)
    requires |l.keys| == |l.ptrs|
    ensures |r| <= |l.keys|
    decreases |l.keys|
  {
    if |l.keys| == 0 then []
    else
      var rest := Matches(Lists(l.keys[1..], l.ptrs[1..]), key);
      if l.keys[0] == key then [l.ptrs[0]] + rest else rest
  }

  /** On a sorted leaf the early exit loses nothing: the scan finds exactly
      the pointers of every equal key, in leaf order. */
  lemma {:induction false} SortedScanFindsAll(l: Lists, key: bytes)
    requires |l.keys| == |l.ptrs| && Sorted(l.keys)
    ensures ScanKeys(l, key) == Matches(l, key)
    decreases |l.keys|
  {
    if |l.keys| > 0 {
      var tail := Lists(l.keys[1..], l.ptrs[1..]);
      assert Sorted(tail.keys);
      SortedScanFindsAll(tail, key);
      if l.keys[0] != key && Below(key, l.keys[0]) {
        forall i | 0 <= i < |tail.keys|
          ensures tail.keys[i] != key
        {
          SortedPair(l.keys, 0, i + 1);
          BelowAtMost(key, l.keys[0], l.keys[i + 1]);
          BelowIrreflexive(key);
        }
        NoMatches(tail, key);
      }
    }
  }

  lemma {:induction false} NoMatches(l: Lists, key: bytes)
    requires |l.keys| == |l.ptrs|
    requires forall i :: 0 <= i < |l.keys| ==> l.keys[i] != key
    ensures Matches(l, key) == []
    decreases |l.keys|
  {
    if |l.keys| > 0 {
      NoMatches(Lists(l.keys[1..], l.ptrs[1..]), key);
    }
  }

  /** The pointers under the inserted key: the new one, then the old ones. */
  lemma InsertedMatches(l: Lists, k: bytes, p: Ptr)
    requires |l.keys| == |l.ptrs|
    ensures Matches(InsertSorted(l, k, p), k) == [p] + Matches(l, k)
  {
    var pos := LeafPosition(l.keys, k);
    var bk, bp, ak, ap := l.keys[..pos], l.ptrs[..pos], l.keys[pos..], l.ptrs[pos..];
    BeforePositionDiffers(l.keys, k);
    MatchesAround(bk, bp, ak, ap, k, p);
    assert InsertSorted(l, k, p) == Lists(bk + [k] + ak, bp + [p] + ap);
    Rejoin(l.keys, pos);
    Rejoin(l.ptrs, pos);
  }

  lemma Rejoin<T>(s: seq<T>, pos: nat)
    requires pos <= |s|
    ensures s[..pos] + s[pos..] == s
  {
  }

  /** No key before the insertion point equals the inserted one. */
  lemma BeforePositionDiffers(keys: seq<bytes>, k: bytes)
    ensures forall i :: 0 <= i < |keys[..LeafPosition(keys, k)]| ==> keys[..LeafPosition(keys, k)][i] != k
  {
    var pos := LeafPosition(keys, k);
    forall i | 0 <= i < pos
      ensures keys[..pos][i] != k
    {
      BelowIrreflexive(k);
    }
  }

  /** Inserting an entry for `k` after entries none of which is `k` puts its
      pointer first among the matches. */
  lemma MatchesAround(bk: seq<bytes>, bp: seq<Ptr>, ak: seq<bytes>, ap: seq<Ptr>, k: bytes, p: Ptr)
    requires |bk| == |bp| && |ak| == |ap|
    requires forall i :: 0 <= i < |bk| ==> bk[i] != k
    ensures Matches(Lists(bk + [k] + ak, bp + [p] + ap), k) == [p] + Matches(Lists(bk + ak, bp + ap), k)
  {
    var before := Lists(bk, bp);
    var after := Lists(ak, ap);
    var mid := Lists([k] + ak, [p] + ap);
    assert bk + [k] + ak == bk + mid.keys && bp + [p] + ap == bp + mid.ptrs;
    MatchesAppend(before, mid, k);
    MatchesAppend(before, after, k);
    NoMatches(before, k);
    assert mid.keys[1..] == ak && mid.ptrs[1..] == ap;
  }

  lemma {:induction false} MatchesAppend(a: Lists, b: Lists, k: bytes)
    requires |a.keys| == |a.ptrs| && |b.keys| == |b.ptrs|
    ensures Matches(Lists(a.keys + b.keys, a.ptrs + b.ptrs), k) == Matches(a, k) + Matches(b, k)
    decreases |a.keys|
  {
    var c := Lists(a.keys + b.keys, a.ptrs + b.ptrs);
    if |a.keys| > 0 {
      var tail := Lists(a.keys[1..], a.ptrs[1..]);
      MatchesAppend(tail, b, k);
      TailOfAppend(a.keys, b.keys);
      TailOfAppend(a.ptrs, b.ptrs);
      MatchesStep(c, k);
      MatchesStep(a, k);
    } else {
      assert c == b;
    }
  }

  lemma TailOfAppend<T>(x: seq<T>, y: seq<T>)
    requires |x| > 0
    ensures (x + y)[1..] == x[1..] + y
  {
  }

  /** One step of the scan, with the head's contribution split off. */
  lemma MatchesStep(l: Lists, k: bytes)
    requires |l.keys| == |l.ptrs| && |l.keys| > 0
    ensures Matches(l, k) == (if l.keys[0] == k then [l.ptrs[0]] else []) + Matches(Lists(l.keys[1..], l.ptrs[1..]), k)
  {
  }

  /** The pointers under a key in a one-entry leaf. */
  lemma MatchesOne(k: bytes, p: Ptr, key: bytes)
    ensures Matches(Lists([k], [p]), key) == if key == k then [p] else []
  {
    var l := Lists([k], [p]);
    assert l.keys[1..] == [] && l.ptrs[1..] == [];
    assert Matches(Lists([], []), key) == [];
  }

  /** The scan is not sound on an unsorted leaf: a greater key ahead of an
      equal one hides it. */
  lemma UnsortedScanMisses(a: bytes, b: bytes, p: Ptr, q: Ptr)
    requires Below(a, b)
    ensures ScanKeys(Lists([b, a], [p, q]), a) == []
    ensures Matches(Lists([b, a], [p, q]), a) == [q]
  {
    BelowIrreflexive(a);
    var l := Lists([b, a], [p, q]);
    assert l.keys[1..] == [a] && l.ptrs[1..] == [q];
  }

  // ---------------------------------------------------------------------
  // _find_child_ptr_in_internal_node
  // ---------------------------------------------------------------------

  /** The loop's exit: the first key the searched key is below, or the
      number of keys when there is none. */
  function ChildIndex(keys: seq<bytes>, key: bytes): (j: nat)
    ensures j <= |keys|
    ensures forall i :: 0 <= i < j ==> !Below(key, keys[i])
    ensures j < |keys| ==> Below(key, keys[j])
    decreases |keys|
  {
    if |keys| == 0 || Below(key, keys[0]) then 0 else 1 + ChildIndex(keys[1..], key)
  }

  /** The child followed: `ptr_0` below the first key, else the pointer
      after the last key passed. */
  function FindChild(keys: seq<bytes>, ptrs: seq<int>, key: bytes): int
    requires |ptrs| == |keys| + 1
  {
    ptrs[ChildIndex(keys, key)]
  }

  /** In a sorted node the child index counts exactly the keys at most the
      searched one: `ptr_0` when it is below `key_1`, the last pointer when
      it is at least every key, and otherwise the pointer of the last key
      not above it. */
  lemma SortedChild(keys: seq<bytes>, key: bytes)
    requires Sorted(keys)
    ensures forall i :: 0 <= i < |keys| ==> (i < ChildIndex(keys, key) <==> AtMost(keys[i], key))
  {
    var j := ChildIndex(keys, key);
    forall i | j <= i < |keys|
      ensures Below(key, keys[i])
    {
      SortedPair(keys, j, i);
      BelowAtMost(key, keys[j], keys[i]);
    }
    forall i | 0 <= i < |keys|
      ensures i < j <==> AtMost(keys[i], key)
    {
      if i >= j {
        BelowAsymmetric(key, keys[i]);
      }
    }
  }

  // ---------------------------------------------------------------------
  // The leaf split, as the comment on `_split_leaf_node` describes it
  // ---------------------------------------------------------------------

  /** The two leaves of a split and the key promoted to the parent. */
  datatype Split = Split(left: Lists, leftNext: int, right: Lists, rightNext: int, promoted: bytes)

  /** The first `ceil(N/2)` entries stay in the old leaf, the rest move to
      the new one; the old leaf's next pointer becomes the new leaf's id,
      the new leaf takes over the old next pointer, and the new leaf's first
      key is promoted. The index itself leaves this unimplemented. */
  function SplitLeaf(l: Lists, oldNext: int, newId: int): (s: Split)
    requires |l.keys| == |l.ptrs| >= 2
    ensures |s.left.keys| == |s.left.ptrs| == (|l.keys| + 1) / 2
    ensures |s.right.keys| == |s.right.ptrs| == |l.keys| / 2 > 0
  {
    var h := (|l.keys| + 1) / 2;
    Split(Lists(l.keys[..h], l.ptrs[..h]), newId, Lists(l.keys[h..], l.ptrs[h..]), oldNext, l.keys[h])
  }

  /** A split loses and reorders nothing, links the new leaf into the chain
      after the old one, and on a sorted leaf separates the halves at the
      promoted key: every left key is at most it, every right key at least it. */
  lemma SplitLeafPartitions(l: Lists, oldNext: int, newId: int)
    requires |l.keys| == |l.ptrs| >= 2
    ensures var s := SplitLeaf(l, oldNext, newId);
            s.left.keys + s.right.keys == l.keys && s.left.ptrs + s.right.ptrs == l.ptrs &&
            s.leftNext == newId && s.rightNext == oldNext && s.promoted == s.right.keys[0]
    ensures var s := SplitLeaf(l, oldNext, newId);
            Sorted(l.keys) ==>
              (forall i :: 0 <= i < |s.left.keys| ==> AtMost(s.left.keys[i], s.promoted)) &&
              (forall i :: 0 <= i < |s.right.keys| ==> AtMost(s.promoted, s.right.keys[i]))
  {
    var h := (|l.keys| + 1) / 2;
    var s := SplitLeaf(l, oldNext, newId);
    assert l.keys[..h] + l.keys[h..] == l.keys;
    assert l.ptrs[..h] + l.ptrs[h..] == l.ptrs;
    if Sorted(l.keys) {
      forall i | 0 <= i < |s.left.keys|
        ensures AtMost(s.left.keys[i], s.promoted)
      {
        SortedPair(l.keys, i, h);
      }
      forall i | 0 <= i < |s.right.keys|
        ensures AtMost(s.promoted, s.right.keys[i])
      {
        SortedPair(l.keys, h, h + i);
      }
    }
  }
}

=== FILE: common.dfy ===
/** Shared vocabulary of the storage kernel: bytes, Python-style text helpers,
    decimal text, big-endian 32-bit integers, flat files written at byte
    offsets, and the byte-wise ordering Python uses for `bytes` comparisons. */
module Common {

  newtype byte = x: int | 0 <= x < 256
  type bytes = seq<byte>

  datatype Option<+T> = None | Some(value: T)

  /** Every file the kernel writes is organised in blocks of this size. */
  const BLOCK_SIZE: nat := 4096

  function Min(a: int, b: int): int { if a <= b then a else b }
  function Max(a: int, b: int): int { if a >= b then a else b }

  // ---------------------------------------------------------------------
  // Buffers and padding
  // ---------------------------------------------------------------------

  /** `n` copies of `b`: zero-filled buffers and space padding. */
  function Repeat(b: byte, n: nat): (r: bytes)
    ensures |r| == n
    ensures forall i :: 0 <= i < n ==> r[i] == b
  {
    seq(n, _ => b)
  }

  function Zeros(n: nat): bytes { Repeat(0, n) }

  function Spaces(n: nat): bytes { Repeat(32, n) }

  /** An ASCII literal as bytes (what `'...'.encode('utf-8')` gives for ASCII text). */
  function Ascii(s: string): (r: bytes)
    requires forall i :: 0 <= i < |s| ==> s[i] as int < 128
    ensures |r| == |s|
    ensures forall i :: 0 <= i < |s| ==> r[i] as int == s[i] as int
  {
    seq(|s|, i requires 0 <= i < |s| && s[i] as int < 128 => s[i] as int as byte)
  }

  /** Python `str.ljust(n)`: pad on the right with spaces, never truncate. */
  function LJust(s: bytes, n: int): (r: bytes)
    ensures |r| == Max(|s|, n)
    ensures r[..|s|] == s
    ensures forall i :: |s| <= i < |r| ==> r[i] == 32
  {
    if |s| < n then s + Spaces(n - |s|) else s
  }

  /** `' ' * (n - len(s)) + s`: pad on the left with spaces, never truncate. */
  function PadLeft(s: bytes, n: int): (r: bytes)
    ensures |r| == Max(|s|, n)
    ensures r[|r| - |s|..] == s
    ensures forall i :: 0 <= i < |r| - |s| ==> r[i] == 32
  {
    if |s| < n then Spaces(n - |s|) + s else s
  }

  /** The `struct` format `'<n>s'`: truncate to `n` bytes, or pad with NUL bytes. */
  function PackStr(s: bytes, n: nat): (r: bytes)
    ensures |r| == n
    ensures forall i :: 0 <= i < n ==> r[i] == if i < |s| then s[i] else 0
  {
    if |s| >= n then s[..n] else s + Zeros(n - |s|)
  }

  // ---------------------------------------------------------------------
  // Whitespace stripping and case folding
  // ---------------------------------------------------------------------

  /** Which `strip()` is meant: `bytes.strip()` removes the ASCII whitespace
      \t \n \v \f \r and space; `str.strip()` removes every character
      `str.isspace()` accepts, which on ASCII text adds the separators
      0x1c-0x1f. */
  datatype Spacing = AsBytes | AsStr

  predicate IsSpace(w: Spacing, b: byte) { b == 32 || 9 <= b <= 13 || (w == AsStr && 28 <= b <= 31) }

  function StripLeft(w: Spacing, s: bytes): (r: bytes)
    ensures |r| <= |s|
    ensures |r| > 0 ==> !IsSpace(w, r[0])
  {
    if |s| > 0 && IsSpace(w, s[0]) then StripLeft(w, s[1..]) else s
  }

  /** `lstrip()` removes a prefix made only of whitespace. */
  lemma {:induction false} StripLeftShape(w: Spacing, s: bytes)
    ensures StripLeft(w, s) == s[|s| - |StripLeft(w, s)|..]
    ensures forall i :: 0 <= i < |s| - |StripLeft(w, s)| ==> IsSpace(w, s[i])
  {
    if |s| > 0 && IsSpace(w, s[0]) {
      StripLeftShape(w, s[1..]);
      assert s[1..][|s| - 1 - |StripLeft(w, s)|..] == s[|s| - |StripLeft(w, s)|..];
      forall i | 1 <= i < |s| - |StripLeft(w, s)|
        ensures IsSpace(w, s[i])
      {
        assert s[1..][i - 1] == s[i];
      }
    }
  }

  function StripRight(w: Spacing, s: bytes): (r: bytes)
    ensures |r| <= |s|
    ensures |r| > 0 ==> !IsSpace(w, r[|r| - 1])
  {
    if |s| > 0 && IsSpace(w, s[|s| - 1]) then StripRight(w, s[..|s| - 1]) else s
  }

  /** `rstrip()` removes a suffix made only of whitespace. */
  lemma {:induction false} StripRightShape(w: Spacing, s: bytes)
    ensures StripRight(w, s) == s[..|StripRight(w, s)|]
    ensures forall i :: |StripRight(w, s)| <= i < |s| ==> IsSpace(w, s[i])
  {
    if |s| > 0 && IsSpace(w, s[|s| - 1]) {
      StripRightShape(w, s[..|s| - 1]);
      assert s[..|s| - 1][..|StripRight(w, s)|] == s[..|StripRight(w, s)|];
    }
  }

  /** No leading and no trailing whitespace: what `strip()` returns. */
  predicate Stripped(w: Spacing, s: bytes) {
    |s| == 0 || (!IsSpace(w, s[0]) && !IsSpace(w, s[|s| - 1]))
  }

  /** Python `strip()`: the result is an infix of `s`, has no whitespace at
      either end, and only whitespace was removed around it. */
  function Strip(w: Spacing, s: bytes): (r: bytes)
    ensures Stripped(w, r)
    ensures |r| <= |s|
  {
    StripRightShape(w, StripLeft(w, s));
    StripRight(w, StripLeft(w, s))
  }

  /** `strip()` returns an infix of its argument, and is empty exactly when
      the argument is all whitespace. */
  lemma StripShape(w: Spacing, s: bytes)
    ensures var a := |s| - |StripLeft(w, s)|; Strip(w, s) == s[a..a + |Strip(w, s)|]
    ensures |Strip(w, s)| == 0 <==> forall i :: 0 <= i < |s| ==> IsSpace(w, s[i])
  {
    var l := StripLeft(w, s);
    StripLeftShape(w, s);
    StripRightShape(w, l);
    var a := |s| - |l|;
    assert Strip(w, s) == s[a..a + |Strip(w, s)|];
    if |Strip(w, s)| == 0 {
      assert |l| == 0;
    }
  }

  lemma StripLeftNoop(w: Spacing, s: bytes)
    requires |s| == 0 || !IsSpace(w, s[0])
    ensures StripLeft(w, s) == s
  {
  }

  lemma StripRightNoop(w: Spacing, s: bytes)
    requires |s| == 0 || !IsSpace(w, s[|s| - 1])
    ensures StripRight(w, s) == s
  {
  }

  /** Surrounding whitespace padding is exactly what `strip()` takes off:
      a stripped value padded with spaces on either side comes back unchanged. */
  lemma {:induction false} StripPadded(w: Spacing, v: bytes, a: nat, b: nat)
    requires Stripped(w, v)
    ensures Strip(w, Spaces(a) + v + Spaces(b)) == v
  {
    var t := v + Spaces(b);
    var s := Spaces(a) + v + Spaces(b);
    assert s == Spaces(a) + t;
    StripLeftOfSpaces(w, t, a);
    var l := StripLeft(w, s);
    if |v| == 0 {
      assert t == Spaces(b) + [];
      StripLeftOfSpaces(w, [], b);
      assert l == [];
      StripRightNoop(w, l);
    } else {
      StripLeftNoop(w, t);
      assert l == t;
      StripRightOfSpaces(w, v, b);
    }
    assert StripRight(w, l) == v;
  }

  lemma {:induction false} StripLeftOfSpaces(w: Spacing, t: bytes, a: nat)
    ensures StripLeft(w, Spaces(a) + t) == StripLeft(w, t)
  {
    if a > 0 {
      assert (Spaces(a) + t)[1..] == Spaces(a - 1) + t;
      StripLeftOfSpaces(w, t, a - 1);
    } else {
      assert Spaces(a) + t == t;
    }
  }

  lemma {:induction false} StripRightOfSpaces(w: Spacing, t: bytes, b: nat)
    requires |t| == 0 || !IsSpace(w, t[|t| - 1])
    ensures StripRight(w, t + Spaces(b)) == t
  {
    if b > 0 {
      assert (t + Spaces(b))[..|t + Spaces(b)| - 1] == t + Spaces(b - 1);
      StripRightOfSpaces(w, t, b - 1);
    } else {
      assert t + Spaces(b) == t;
      StripRightNoop(w, t);
    }
  }

  /** What `str.strip()` leaves, `bytes.strip()` leaves too. */
  lemma StrippedAsBytes(s: bytes)
    requires Stripped(AsStr, s)
    ensures Stripped(AsBytes, s)
  {
  }

  /** The two sets differ on the ASCII separators: `"a\x1f".strip()` is
      `"a"`, while `b"a\x1f".strip()` keeps the separator. */
  lemma SeparatorStrips()
    ensures Strip(AsStr, [97, 31]) == [97]
    ensures Strip(AsBytes, [97, 31]) == [97, 31]
  {
    StripLeftNoop(AsStr, [97, 31]);
    assert [97, 31][..1] == [97];
    StripLeftNoop(AsBytes, [97, 31]);
    StripRightNoop(AsBytes, [97, 31]);
  }

  /** A value that already has no surrounding whitespace is left alone. */
  lemma StripNoop(w: Spacing, s: bytes)
    requires Stripped(w, s)
    ensures Strip(w, s) == s
  {
    StripPadded(w, s, 0, 0);
    assert Spaces(0) + s + Spaces(0) == s;
  }

  /** Python `lower()` restricted to ASCII letters. */
  function Lower(s: bytes): (r: bytes)
    ensures |r| == |s|
    ensures forall i :: 0 <= i < |s| ==>
              r[i] == if 65 <= s[i] <= 90 then s[i] + 32 else s[i]
  {
    seq(|s|, i requires 0 <= i < |s| => if 65 <= s[i] <= 90 then s[i] + 32 else s[i])
  }

  /** Python `upper()` restricted to ASCII letters. */
  function Upper(s: bytes): (r: bytes)
    ensures |r| == |s|
    ensures forall i :: 0 <= i < |s| ==>
              r[i] == if 97 <= s[i] <= 122 then s[i] - 32 else s[i]
  {
    seq(|s|, i requires 0 <= i < |s| => if 97 <= s[i] <= 122 then s[i] - 32 else s[i])
  }

  // ---------------------------------------------------------------------
  // Decimal text: Python `str(int)` and `int(str)`
  // ---------------------------------------------------------------------

  predicate IsDigit(b: byte) { 48 <= b <= 57 }

  predicate AllDigits(s: bytes) { forall i :: 0 <= i < |s| ==> IsDigit(s[i]) }

  function DigitsValue(s: bytes): nat
    requires AllDigits(s)
  {
    if |s| == 0 then 0 else DigitsValue(s[..|s| - 1]) * 10 + (s[|s| - 1] as int - 48)
  }

  /** Decimal digits of a natural number, most significant first, no leading zero. */
  function ShowNat(n: nat): (r: bytes)
    ensures |r| > 0 && AllDigits(r)
    ensures |r| > 1 ==> r[0] != 48
  {
    if n < 10 then [(48 + n) as byte] else ShowNat(n / 10) + [(48 + n % 10) as byte]
  }

  /** Python `str(i)` for an integer. */
  function ShowInt(i: int): (r: bytes)
    ensures |r| > 0 && Stripped(AsStr, r) && Stripped(AsBytes, r)
  {
    if i < 0 then [45] + ShowNat(-i) else ShowNat(i)
  }

  /** Python `int(s)` for ASCII text: surrounding whitespace, an optional sign,
      then one or more decimal digits; anything else raises `ValueError` (`None`).
      `int()` of a `str` skips `str` whitespace and `int()` of a `bytes`
      object only the ASCII whitespace, as `w` says. */
  function ParseInt(w: Spacing, s: bytes): Option<int>
  {
    var t := Strip(w, s);
    var signed := |t| > 0 && (t[0] == 45 || t[0] == 43);
    var body := if signed then t[1..] else t;
    if |body| > 0 && AllDigits(body) then
      Some(if signed && t[0] == 45 then -(DigitsValue(body) as int) else DigitsValue(body))
    else None
  }

  lemma {:induction false} DigitsValueShowNat(n: nat)
    ensures DigitsValue(ShowNat(n)) == n
  {
    if n >= 10 {
      var r := ShowNat(n);
      assert r[..|r| - 1] == ShowNat(n / 10);
      DigitsValueShowNat(n / 10);
    }
  }

  /** Integer text round-trips: `int(str(i)) == i`. */
  lemma ParseShowInt(w: Spacing, i: int)
    ensures ParseInt(w, ShowInt(i)) == Some(i)
  {
    var s := ShowInt(i);
    StripNoop(w, s);
    if i < 0 {
      assert s[1..] == ShowNat(-i);
      DigitsValueShowNat(-i);
    } else {
      DigitsValueShowNat(i);
    }
  }

  // ---------------------------------------------------------------------
  // The `struct` format '!i': big-endian signed 32-bit integers
  // ---------------------------------------------------------------------

  const TWO_31: int := 0x8000_0000
  const TWO_32: int := 0x1_0000_0000

  predicate InI32(x: int) { -TWO_31 <= x < TWO_31 }

  /** Four big-endian bytes of `x` in two's complement. */
  function Be32(x: int): (r: bytes)
    ensures |r| == 4
  {
    BeBytes(x % TWO_32, 4)
  }

  /** The low `n` bytes of `u`, most significant first. */
  function BeBytes(u: int, n: nat): (r: bytes)
    ensures |r| == n
    decreases n
  {
    if n == 0 then [] else BeBytes(u / 0x100, n - 1) + [(u % 0x100) as byte]
  }

  /** Unpack '!i': four big-endian bytes as a signed 32-bit integer. */
  function I32Of(s: bytes): (x: int)
    requires |s| == 4
    ensures InI32(x)
  {
    var u := s[0] as int * 0x100_0000 + s[1] as int * 0x1_0000 + s[2] as int * 0x100 + s[3] as int;
    if u >= TWO_31 then u - TWO_32 else u
  }

  /** Every signed 32-bit value survives a pack/unpack round trip. */
  lemma I32OfBe32(x: int)
    requires InI32(x)
    ensures I32Of(Be32(x)) == x
  {
    var u := x % TWO_32;
    var u1 := u / 0x100;
    var u2 := u1 / 0x100;
    var u3 := u2 / 0x100;
    var b := Be32(x);
    assert b == BeBytes(u3, 1) + [(u2 % 0x100) as byte] + [(u1 % 0x100) as byte] + [(u % 0x100) as byte];
    assert BeBytes(u3, 1) == [(u3 % 0x100) as byte];
    assert u == u1 * 0x100 + u % 0x100;
    assert u1 == u2 * 0x100 + u1 % 0x100;
    assert u2 == u3 * 0x100 + u2 % 0x100;
    assert u3 < 0x100;
    assert x < 0 ==> u == x + TWO_32;
    assert x >= 0 ==> u == x;
  }

  /** `struct.unpack_from('!i', buf, off)`. */
  function I32At(buf: bytes, off: int): int
    requires 0 <= off && off + 4 <= |buf|
  {
    I32Of(buf[off..off + 4])
  }

  // ---------------------------------------------------------------------
  // Flat files: seek + write and seek + read
  // ---------------------------------------------------------------------

  /** Seek to `pos` and write `d`. A gap past the end reads back as zero bytes,
      as a file written beyond its end does; the same function is
      `struct.pack_into` when the write stays inside the buffer. */
  function WriteAt(f: bytes, pos: nat, d: bytes): (r: bytes)
    ensures |r| == Max(|f|, pos + |d|)
  {
    seq(Max(|f|, pos + |d|), i requires 0 <= i =>
          if pos <= i < pos + |d| then d[i - pos] else if i < |f| then f[i] else 0)
  }

  /** Seek to `pos` and read up to `n` bytes; short at the end of the file. */
  function ReadAt(f: bytes, pos: nat, n: nat): (r: bytes)
    ensures |r| == if pos >= |f| then 0 else Min(n, |f| - pos)
    ensures forall i :: 0 <= i < |r| ==> r[i] == f[pos + i]
  {
    if pos >= |f| then [] else f[pos..Min(|f|, pos + n)]
  }

  /** What was written at `pos` is read back from `pos`. */
  lemma ReadAfterWrite(f: bytes, pos: nat, d: bytes)
    ensures ReadAt(WriteAt(f, pos, d), pos, |d|) == d
  {
  }

  /** A write leaves every byte range it does not touch as it was. */
  lemma ReadPastWrite(f: bytes, pos: nat, d: bytes, q: nat, n: nat)
    requires q + n <= |f|
    requires q + n <= pos || pos + |d| <= q
    ensures ReadAt(WriteAt(f, pos, d), q, n) == ReadAt(f, q, n)
  {
    var a := ReadAt(WriteAt(f, pos, d), q, n);
    var b := ReadAt(f, q, n);
    assert |a| == |b|;
    forall i | 0 <= i < |a| ensures a[i] == b[i] {
    }
  }

  /** `f` carries the bytes `d` starting at `pos`. */
  predicate Holds(f: bytes, pos: int, d: bytes)
  {
    0 <= pos && pos + |d| <= |f| && f[pos..pos + |d|] == d
  }

  lemma HoldsWritten(f: bytes, pos: nat, d: bytes)
    ensures Holds(WriteAt(f, pos, d), pos, d)
  {
  }

  /** A write elsewhere keeps a byte range in place. */
  lemma HoldsKept(f: bytes, pos: nat, d: bytes, q: int, e: bytes)
    requires Holds(f, q, e)
    requires q + |e| <= pos || pos + |d| <= q
    ensures Holds(WriteAt(f, pos, d), q, e)
  {
    var r := WriteAt(f, pos, d);
    forall i | q <= i < q + |e|
      ensures r[i] == e[i - q]
    {
      assert f[q..q + |e|][i - q] == e[i - q];
    }
    assert r[q..q + |e|] == e;
  }

  /** A part of a held range is held at the matching offset. */
  lemma HoldsPart(f: bytes, pos: int, d: bytes, k: nat, m: nat)
    requires Holds(f, pos, d) && k <= m <= |d|
    ensures Holds(f, pos + k, d[k..m])
  {
    forall i | pos + k <= i < pos + m
      ensures f[i] == d[i - pos]
    {
      assert f[pos..pos + |d|][i - pos] == d[i - pos];
    }
    assert f[pos + k..pos + m] == d[k..m];
  }

  /** Both halves of a held concatenation are held. */
  lemma HoldsSplit(f: bytes, pos: int, a: bytes, b: bytes)
    requires Holds(f, pos, a + b)
    ensures Holds(f, pos, a) && Holds(f, pos + |a|, b)
  {
    HoldsPart(f, pos, a + b, 0, |a|);
    HoldsPart(f, pos, a + b, |a|, |a| + |b|);
    assert (a + b)[0..|a|] == a && (a + b)[|a|..|a| + |b|] == b;
  }

  lemma HoldsRead(f: bytes, pos: nat, d: bytes)
    requires Holds(f, pos, d)
    ensures ReadAt(f, pos, |d|) == d
  {
  }

  /** A held packed integer unpacks to itself. */
  lemma HoldsI32(f: bytes, pos: nat, x: int)
    requires Holds(f, pos, Be32(x)) && InI32(x)
    ensures pos + 4 <= |f| && I32At(f, pos) == x
  {
    I32OfBe32(x);
  }

  // ---------------------------------------------------------------------
  // Python's ordering of `bytes`
  // ---------------------------------------------------------------------

  /** `a < b` on Python `bytes`: lexicographic by byte value, a proper
      prefix sorting first. */
  predicate Below(a: bytes, b: bytes)
    decreases |a|
  {
    if |a| == 0 then |b| > 0
    else if |b| == 0 then false
    else if a[0] != b[0] then a[0] < b[0]
    else Below(a[1..], b[1..])
  }

  lemma BelowIrreflexive(a: bytes)
    ensures !Below(a, a)
  {
  }

  lemma {:induction false} BelowTransitive(a: bytes, b: bytes, c: bytes)
    requires Below(a, b) && Below(b, c)
    ensures Below(a, c)
    decreases |a|
  {
    if |a| > 0 && |b| > 0 && |c| > 0 && a[0] == b[0] && b[0] == c[0] {
      BelowTransitive(a[1..], b[1..], c[1..]);
    }
  }

  lemma {:induction false} BelowTotal(a: bytes, b: bytes)
    ensures Below(a, b) || a == b || Below(b, a)
    decreases |a|
  {
    if |a| > 0 && |b| > 0 && a[0] == b[0] {
      BelowTotal(a[1..], b[1..]);
      if a[1..] == b[1..] {
        assert a == [a[0]] + a[1..] && b == [b[0]] + b[1..];
      }
    }
  }

  lemma {:induction false} BelowAsymmetric(a: bytes, b: bytes)
    requires Below(a, b)
    ensures !Below(b, a)
    decreases |a|
  {
    if |a| > 0 && |b| > 0 && a[0] == b[0] {
      BelowAsymmetric(a[1..], b[1..]);
    }
  }

  // ---------------------------------------------------------------------
  // Order-preserving selection
  // ---------------------------------------------------------------------

  /** The elements of `s` that `keep` accepts, in their original order
      (a loop that appends each accepted element to a new list). */
  function Filter<T(==,!new)>(s: seq<T>, keep: T -> bool): (r: seq<T>)
    ensures |r| <= |s|
    ensures forall x :: x in r <==> x in s && keep(x)
    ensures (forall i :: 0 <= i < |s| ==> keep(s[i])) ==> r == s
    decreases |s|
  {
    if |s| == 0 then []
    else
      var rest := Filter(s[..|s| - 1], keep);
      assert forall x :: x in s <==> x in s[..|s| - 1] || x == s[|s| - 1];
      if keep(s[|s| - 1]) then rest + [s[|s| - 1]] else rest
  }

  /** Selection distributes over concatenation: the kept elements of the
      first part come first, each part in its own order. */
  lemma {:induction false} FilterAppend<T(!new)>(a: seq<T>, b: seq<T>, keep: T -> bool)
    ensures Filter(a + b, keep) == Filter(a, keep) + Filter(b, keep)
    decreases |b|
  {
    if |b| > 0 {
      var c := b[..|b| - 1];
      assert (a + b)[..|a + b| - 1] == a + c;
      FilterAppend(a, c, keep);
    } else {
      assert a + b == a;
    }
  }
}

=== FILE: logged_store.dfy ===
/** `insert_record`, `update_record` and `del_one_record` of the logged table
    store. Each call runs in the handle's transaction, beginning an automatic
    one when the handle has none; it logs a before-image of what it is about
    to overwrite and an after-image of what it wrote, and commits an
    automatic transaction when it finishes. Update and delete catch their own
    exceptions and then abort an automatic transaction; insert catches
    nothing. */
module LoggedStore {
  import opened Common
  import opened Records
  import opened TableLayout
  import opened TableOps
  import opened Transactions

  /** A `Storage` handle: the open table, its current transaction, and the
      file name its log entries carry. */
  datatype Store = Store(table: Table, txn: Option<int>, name: bytes)

  datatype Step = Step(store: Store, manager: Manager, outcome: Outcome)

  /** The transaction a call runs in and whether the call began it. */
  datatype Context = Context(store: Store, manager: Manager, id: int, auto: bool)

  // ---------------------------------------------------------------------
  // Entering and leaving the transaction
  // ---------------------------------------------------------------------

  /** The handle's transaction, or a new one the call will commit itself. */
  function Enter(s: Store, m: Manager, now: Stamp): (c: Context)
    ensures c.store.table == s.table && c.store.name == s.name
    ensures c.manager.beforeLog == m.beforeLog && c.manager.afterLog == m.afterLog
    ensures Inv(m) ==> Inv(c.manager)
    ensures s.txn.Some? ==> c == Context(s, m, s.txn.value, false)
    ensures s.txn.None? ==>
              c.auto && c.id == m.counter + 1 && c.store.txn == Some(c.id) &&
              IsActive(c.manager, c.id) && c.manager.active[c.id] == [] &&
              (Inv(m) ==> !IsCommitted(c.manager, c.id))
  {
    if s.txn.Some? then Context(s, m, s.txn.value, false)
    else
      var (m1, id) := Begin(m, now);
      Context(s.(txn := Some(id)), m1, id, true)
  }

  /** The end of a call that returned: an automatic transaction is
      committed and the handle forgets it. */
  function Leave(c: Context, now: Stamp, ok: bool): (r: Step)
    requires Inv(c.manager)
    ensures r.outcome == Done(ok) && Inv(r.manager)
    ensures r.store == c.store.(txn := if c.auto then None else c.store.txn)
    ensures r.manager.beforeLog == c.manager.beforeLog && r.manager.afterLog == c.manager.afterLog
    ensures !c.auto ==> r.manager == c.manager
    ensures c.auto && IsActive(c.manager, c.id) ==> IsCommitted(r.manager, c.id) && !IsActive(r.manager, c.id)
  {
    if c.auto then Step(c.store.(txn := None), Commit(c.manager, c.id, now).0, Done(ok))
    else Step(c.store, c.manager, Done(ok))
  }

  /** The `except` clause of update and delete: an automatic transaction
      with a non-zero id is aborted and the handle forgets it. */
  function Fail(c: Context, now: Stamp): (r: Step)
    requires Inv(c.manager)
    ensures r.outcome == Raised && Inv(r.manager)
    ensures r.manager.beforeLog == c.manager.beforeLog && r.manager.afterLog == c.manager.afterLog
    ensures !(c.auto && c.id != 0) ==> r.store == c.store && r.manager == c.manager
    ensures c.auto && c.id != 0 ==>
              r.store == c.store.(txn := None) && !IsActive(r.manager, c.id) &&
              (!IsCommitted(c.manager, c.id) ==> !IsCommitted(r.manager, c.id))
  {
    if c.auto && c.id != 0 then Step(c.store.(txn := None), Abort(c.manager, c.id, now).0, Raised)
    else Step(c.store, c.manager, Raised)
  }

  // ---------------------------------------------------------------------
  // insert_record
  // ---------------------------------------------------------------------

  /** Block `b` of a file, as `seek(BLOCK_SIZE * b)` then `read(BLOCK_SIZE)` gives it. */
  function BlockOf(f: bytes, b: nat): bytes { ReadAt(f, BLOCK_SIZE * b, BLOCK_SIZE) }

  /** `insert_record` on a handle. A refused value returns `False` and a
      missing one raises, both leaving the table and the image logs alone.
      An accepted record is cached and placed whether or not its writes
      complete. */
  function Insert(s: Store, m: Manager, input: seq<bytes>, now: Stamp): (r: Step)
    requires Inv(m) && Headroom(m, 2)
    ensures Inv(r.manager) && r.store.name == s.name && r.store.table.fields == s.table.fields
    ensures !CheckInput(s.table.fields, input).Accepted? ==>
              r.store.table == s.table &&
              r.manager.beforeLog == m.beforeLog && r.manager.afterLog == m.afterLog &&
              r.outcome == (if CheckInput(s.table.fields, input).Refused? then Done(false) else Raised)
    ensures CheckInput(s.table.fields, input).Accepted? ==>
              r.store.table.records == s.table.records + [CheckInput(s.table.fields, input).row] &&
              r.outcome != Done(false)
  {
    var c := Enter(s, m, now);
    match CheckInput(c.store.table.fields, input)
    case Missing => Step(c.store, c.manager, Raised)
    case Refused => Step(c.store, c.manager, Done(false))
    case Accepted(row, text) => InsertAccepted(c, row, text, now)
  }

  /** Steps 2 to 5 of `insert_record` for an accepted record. */
  function InsertAccepted(c: Context, row: Row, text: bytes, now: Stamp): (r: Step)
    requires Inv(c.manager) && Headroom(c.manager, 2)
    ensures Inv(r.manager) && r.store.name == c.store.name && r.store.table.fields == c.store.table.fields
    ensures r.store.table.records == c.store.table.records + [row]
    ensures r.outcome == Done(true) || r.outcome == Raised
  {
    var (t1, slot) := Append(c.store.table, row, text);
    var b := slot.block;
    var w := WriteInserted(t1.file, t1.dataBlocks, slot, text);
    var s1 := c.store.(table := t1.(file := w.file));
    if !w.complete then
      Step(s1, LogImage(c.manager, BeforeImage, c.id, c.store.name, b, BlockOf(t1.file, b), now).0, Raised)
    else
      var m2 := LogBoth(c.manager, c.id, c.store.name, b, BlockOf(t1.file, b), BlockOf(w.file, b), now);
      Leave(c.(store := s1, manager := m2), now, true)
  }

  /** The transaction side of an insert: a handle's own transaction stays
      open and nothing is committed; an automatic one is committed exactly
      when the insert returns `True`, and otherwise stays open on the handle. */
  lemma InsertTransaction(s: Store, m: Manager, input: seq<bytes>, now: Stamp)
    requires Inv(m) && Headroom(m, 2)
    ensures var r := Insert(s, m, input, now);
            (s.txn.Some? ==>
               r.store.txn == s.txn && r.manager.counter == m.counter && r.manager.committed == m.committed) &&
            (s.txn.None? && r.outcome == Done(true) ==>
               r.store.txn == None && IsCommitted(r.manager, m.counter + 1)) &&
            (s.txn.None? && r.outcome != Done(true) ==>
               r.store.txn == Some(m.counter + 1) && IsActive(r.manager, m.counter + 1))
  {
    var c := Enter(s, m, now);
    var ck := CheckInput(c.store.table.fields, input);
    InsertUnfold(s, m, input, now);
    if ck.Accepted? {
      AcceptedTransaction(c, ck.row, ck.text, now);
    }
  }

  /** `Insert` by the outcome of the check. */
  lemma InsertUnfold(s: Store, m: Manager, input: seq<bytes>, now: Stamp)
    requires Inv(m) && Headroom(m, 2)
    ensures var c := Enter(s, m, now);
            var ck := CheckInput(s.table.fields, input);
            Insert(s, m, input, now) ==
              if ck.Accepted? then InsertAccepted(c, ck.row, ck.text, now)
              else Step(c.store, c.manager, if ck.Refused? then Done(false) else Raised)
  {
  }

  lemma AcceptedTransaction(c: Context, row: Row, text: bytes, now: Stamp)
    requires Inv(c.manager) && Headroom(c.manager, 2)
    ensures var r := InsertAccepted(c, row, text, now);
            r.manager.counter == c.manager.counter &&
            (r.outcome == Done(true) ==> r.store.txn == (if c.auto then None else c.store.txn)) &&
            (r.outcome != Done(true) ==> r.store.txn == c.store.txn) &&
            (!c.auto ==> r.manager.committed == c.manager.committed) &&
            (IsActive(c.manager, c.id) ==>
               if c.auto && r.outcome == Done(true) then IsCommitted(r.manager, c.id) else IsActive(r.manager, c.id))
  {
    var (t1, slot) := Append(c.store.table, row, text);
    var w := WriteInserted(t1.file, t1.dataBlocks, slot, text);
    if w.complete {
      var m2 := LogBoth(c.manager, c.id, c.store.name, slot.block, BlockOf(t1.file, slot.block), BlockOf(w.file, slot.block), now);
      assert InsertAccepted(c, row, text, now) == Leave(c.(store := c.store.(table := t1.(file := w.file)), manager := m2), now, true);
    }
  }

  /** Write-ahead logging of an insert in the handle's own transaction: its
      operations grow by exactly the before-image of the target block as it
      was and the after-image of that block as written. */
  lemma InsertLogsBlock(s: Store, m: Manager, input: seq<bytes>, now: Stamp)
    requires Inv(m) && Headroom(m, 2)
    requires s.txn.Some? && IsActive(m, s.txn.value)
    ensures var r := Insert(s, m, input, now);
            var id := s.txn.value;
            r.outcome == Done(true) ==>
              |r.store.table.positions| > 0 &&
              var b := r.store.table.positions[|r.store.table.positions| - 1].block;
              IsActive(r.manager, id) &&
              r.manager.active[id] ==
                m.active[id] + [Op(BeforeImage, LogEntry(id, s.name, b, BlockOf(s.table.file, b), now)),
                                Op(AfterImage, LogEntry(id, s.name, b, BlockOf(r.store.table.file, b), now))]
  {
    var ck := CheckInput(s.table.fields, input);
    if ck.Accepted? {
      var c := Enter(s, m, now);
      assert Insert(s, m, input, now) == InsertAccepted(c, ck.row, ck.text, now);
      AcceptedLogsBlock(c, ck.row, ck.text, now);
    }
  }

  lemma AcceptedLogsBlock(c: Context, row: Row, text: bytes, now: Stamp)
    requires Inv(c.manager) && Headroom(c.manager, 2)
    requires !c.auto && IsActive(c.manager, c.id)
    ensures var r := InsertAccepted(c, row, text, now);
            r.outcome == Done(true) ==>
              |r.store.table.positions| > 0 &&
              var b := r.store.table.positions[|r.store.table.positions| - 1].block;
              IsActive(r.manager, c.id) &&
              r.manager.active[c.id] ==
                c.manager.active[c.id] + [Op(BeforeImage, LogEntry(c.id, c.store.name, b, BlockOf(c.store.table.file, b), now)),
                                          Op(AfterImage, LogEntry(c.id, c.store.name, b, BlockOf(r.store.table.file, b), now))]
  {
    var (t1, slot) := Append(c.store.table, row, text);
    var w := WriteInserted(t1.file, t1.dataBlocks, slot, text);
    if w.complete {
      var b := slot.block;
      var m2 := LogBoth(c.manager, c.id, c.store.name, b, BlockOf(t1.file, b), BlockOf(w.file, b), now);
      assert InsertAccepted(c, row, text, now) == Step(c.store.(table := t1.(file := w.file)), m2, Done(true));
    }
  }

  // ---------------------------------------------------------------------
  // The endings update and delete share
  // ---------------------------------------------------------------------

  /** What an update or delete appends to its transaction's operations once
      it has logged the whole file: the before-image, then the after-image
      when it rewrote the file. */
  function FileImages(id: int, name: bytes, before: bytes, after: bytes, wrote: bool, now: Stamp): seq<Op>
  {
    [Op(BeforeImage, LogEntry(id, name, 0, before, now))] +
    (if wrote then [Op(AfterImage, LogEntry(id, name, 0, after, now))] else [])
  }

  /** The whole file as `seek(0)` then `read()` gives it, logged as a
      before-image of the special block 0. */
  function LogFileBefore(c: Context, now: Stamp): (m: Manager)
    requires Inv(c.manager) && Headroom(c.manager, 2)
    ensures Inv(m) && Headroom(m, 1) && m.afterLog == c.manager.afterLog
    ensures m.counter == c.manager.counter && m.committed == c.manager.committed
    ensures IsActive(m, c.id) <==> IsActive(c.manager, c.id)
    ensures IsActive(c.manager, c.id) ==>
              m.active[c.id] == c.manager.active[c.id] +
                                [Op(BeforeImage, LogEntry(c.id, c.store.name, 0, c.store.table.file, now))]
  {
    LogImage(c.manager, BeforeImage, c.id, c.store.name, 0, c.store.table.file, now).0
  }

  /** No record matched: only the before-image was logged, and the call returns. */
  function Unmatched(c: Context, now: Stamp): (r: Step)
    requires Inv(c.manager) && Headroom(c.manager, 2)
    ensures Inv(r.manager) && r.outcome == Done(false)
    ensures r.store == c.store.(txn := if c.auto then None else c.store.txn)
    ensures r.manager.afterLog == c.manager.afterLog && r.manager.counter == c.manager.counter
    ensures !c.auto ==> r.manager.committed == c.manager.committed
    ensures c.auto && IsActive(c.manager, c.id) ==> IsCommitted(r.manager, c.id) && !IsActive(r.manager, c.id)
    ensures !c.auto && IsActive(c.manager, c.id) ==>
              IsActive(r.manager, c.id) &&
              r.manager.active[c.id] ==
                c.manager.active[c.id] + FileImages(c.id, c.store.name, c.store.table.file, [], false, now)
  {
    Leave(c.(manager := LogFileBefore(c, now)), now, false)
  }

  /** An exception after the before-image: the cache holds `rows`, the file
      is as it was, and the `except` clause runs. */
  function RaisedAfterLog(c: Context, rows: seq<Row>, now: Stamp): (r: Step)
    requires Inv(c.manager) && Headroom(c.manager, 2)
    ensures Inv(r.manager) && r.outcome == Raised
    ensures r.store.table == c.store.table.(records := rows) && r.store.name == c.store.name
    ensures r.manager.afterLog == c.manager.afterLog && r.manager.counter == c.manager.counter
    ensures !c.auto ==> r.store.txn == c.store.txn && r.manager.committed == c.manager.committed
    ensures c.auto && c.id != 0 ==> r.store.txn == None && !IsActive(r.manager, c.id)
    ensures c.auto && c.id != 0 && !IsCommitted(c.manager, c.id) ==> !IsCommitted(r.manager, c.id)
    ensures !c.auto && IsActive(c.manager, c.id) ==>
              IsActive(r.manager, c.id) &&
              r.manager.active[c.id] ==
                c.manager.active[c.id] + FileImages(c.id, c.store.name, c.store.table.file, [], false, now)
  {
    var m1 := LogFileBefore(c, now);
    Fail(c.(store := c.store.(table := c.store.table.(records := rows)), manager := m1), now)
  }

  /** Some record matched: the cache becomes `rows`, the file is repacked
      from it, the whole new file is logged as the after-image, and the
      call returns. */
  function Rewritten(c: Context, rows: seq<Row>, now: Stamp): (r: Step)
    requires Inv(c.manager) && Headroom(c.manager, 2)
    ensures Inv(r.manager) && r.outcome == Done(true)
    ensures r.store.table.fields == c.store.table.fields && r.store.table.records == rows
    ensures r.store.name == c.store.name && r.store.txn == (if c.auto then None else c.store.txn)
    ensures var p := Repack(c.store.table.fields, Contents(c.store.table.fields, rows, false),
                            c.store.table.file, c.store.table.dataBlocks);
            r.store.table.file == p.file && r.store.table.dataBlocks == p.dataBlocks
    ensures r.manager.counter == c.manager.counter
    ensures !c.auto ==> r.manager.committed == c.manager.committed
    ensures c.auto && IsActive(c.manager, c.id) ==> IsCommitted(r.manager, c.id) && !IsActive(r.manager, c.id)
    ensures !c.auto && IsActive(c.manager, c.id) ==>
              IsActive(r.manager, c.id) &&
              r.manager.active[c.id] ==
                c.manager.active[c.id] + FileImages(c.id, c.store.name, c.store.table.file, r.store.table.file, true, now)
  {
    var t := c.store.table;
    var p := Repack(t.fields, Contents(t.fields, rows, false), t.file, t.dataBlocks);
    var m2 := LogBoth(c.manager, c.id, c.store.name, 0, t.file, p.file, now);
    assert FileImages(c.id, c.store.name, t.file, p.file, true, now) ==
           [Op(BeforeImage, LogEntry(c.id, c.store.name, 0, t.file, now)),
            Op(AfterImage, LogEntry(c.id, c.store.name, 0, p.file, now))];
    Leave(c.(store := c.store.(table := t.(records := rows, file := p.file, dataBlocks := p.dataBlocks)),
             manager := m2), now, true)
  }

  // ---------------------------------------------------------------------
  // update_record
  // ---------------------------------------------------------------------

  /** Type handling: `int()` of both values for an integer field (`None` is
      the `ValueError`), the truth words for a boolean one; any other field
      refuses a new value longer than the field and pads a text field's new
      value to the field's length. */
  function UpdateArgs(f: Field, prev: bytes, next: bytes): Option<Change>
  {
    if f.kind == INTEGER then
      match (ParseInt(AsStr, prev), ParseInt(AsStr, next))
      case (Some(o), Some(n)) => Some(Change(IntV(o), IntV(n)))
      case _ => None
    else if f.kind == BOOLEAN then Some(Change(BoolV(ArgumentTrue(prev)), BoolV(ArgumentTrue(next))))
    else if |next| > f.length then None
    else if IsText(f) then Some(Change(StrV(prev), StrV(LJust(next, f.length))))
    else Some(Change(StrV(prev), StrV(next)))
  }

  /** The field (found by its exact stripped name) and typed arguments of an
      update; `None` when either step raises. */
  function UpdateTarget(fields: seq<Field>, name: bytes, prev: bytes, next: bytes): (r: Option<(nat, Change)>)
    ensures r.Some? ==> r.value.0 < |fields| && FindField(AsStr, fields, name) == Some(r.value.0) &&
                        UpdateArgs(fields[r.value.0], prev, next) == Some(r.value.1)
    ensures r.None? ==> FindField(AsStr, fields, name).None? || UpdateArgs(fields[FindField(AsStr, fields, name).value], prev, next).None?
  {
    match FindField(AsStr, fields, name)
    case None => None
    case Some(k) =>
      match UpdateArgs(fields[k], prev, next)
      case None => None
      case Some(ch) => Some((k, ch))
  }

  /** `update_record(field_name, old_value, new_value)`. An unknown field or
      a badly typed value raises before anything is logged. Otherwise the
      whole file is logged as a before-image and every cached record whose
      field holds the old value gets the new one, the others staying as
      they were; a record too short to have the field raises part-way,
      keeping the updates made before it. Only when some record changed is
      the file rewritten and an after-image logged. */
  function Update(s: Store, m: Manager, name: bytes, prev: bytes, next: bytes, now: Stamp): (r: Step)
    requires Inv(m) && Headroom(m, 2)
    ensures Inv(r.manager) && r.store.name == s.name && r.store.table.fields == s.table.fields
    ensures UpdateTarget(s.table.fields, name, prev, next).None? ==>
              r.outcome == Raised && r.store.table == s.table &&
              r.manager.beforeLog == m.beforeLog && r.manager.afterLog == m.afterLog
    ensures UpdateTarget(s.table.fields, name, prev, next).Some? ==>
              var (k, ch) := UpdateTarget(s.table.fields, name, prev, next).value;
              var rows := s.table.records;
              var mt := Matcher(s.table.fields[k], ch.target);
              var j := FirstShort(rows, k);
              r.store.table.records == UpdateRows(rows[..j], k, mt, ch.next) + rows[j..] &&
              r.outcome == (if j < |rows| then Raised else Done(AnyMatch(rows, k, mt)))
    ensures r.outcome != Done(true) ==> r.store.table.file == s.table.file && r.manager.afterLog == m.afterLog
  {
    var c := Enter(s, m, now);
    match UpdateTarget(c.store.table.fields, name, prev, next)
    case None => Fail(c, now)
    case Some((k, ch)) => UpdateAt(c, k, ch, now)
  }

  /** The update once the field and arguments are known. */
  function UpdateAt(c: Context, k: nat, ch: Change, now: Stamp): (r: Step)
    requires Inv(c.manager) && Headroom(c.manager, 2) && k < |c.store.table.fields|
    ensures Inv(r.manager) && r.store.name == c.store.name && r.store.table.fields == c.store.table.fields
    ensures var rows := c.store.table.records;
            var mt := Matcher(c.store.table.fields[k], ch.target);
            var j := FirstShort(rows, k);
            r.store.table.records == UpdateRows(rows[..j], k, mt, ch.next) + rows[j..] &&
            r.outcome == (if j < |rows| then Raised else Done(AnyMatch(rows, k, mt)))
    ensures r.outcome != Done(true) ==> r.store.table.file == c.store.table.file && r.manager.afterLog == c.manager.afterLog
  {
    var rows := c.store.table.records;
    var mt := Matcher(c.store.table.fields[k], ch.target);
    var j := FirstShort(rows, k);
    if j < |rows| then RaisedAfterLog(c, UpdateRows(rows[..j], k, mt, ch.next) + rows[j..], now)
    else
      assert rows[..j] == rows && rows[j..] == [];
      assert UpdateRows(rows, k, mt, ch.next) + [] == UpdateRows(rows, k, mt, ch.next);
      if !AnyMatch(rows, k, mt) then Unmatched(c, now)
      else Rewritten(c, UpdateRows(rows, k, mt, ch.next), now)
  }

  // ---------------------------------------------------------------------
  // del_one_record
  // ---------------------------------------------------------------------

  /** `del_one_record(field_name, field_value)`. The whole file is logged as
      a before-image first, even when the field is unknown or the value
      badly typed. Every cached record whose field renders as the value is
      dropped, the others kept in order; a record too short to have the
      field raises and changes nothing. Only when some record was dropped
      is the file rewritten and an after-image logged. */
  function Delete(s: Store, m: Manager, name: bytes, value: bytes, now: Stamp): (r: Step)
    requires Inv(m) && Headroom(m, 2)
    ensures Inv(r.manager) && r.store.name == s.name && r.store.table.fields == s.table.fields
    ensures DeleteTarget(s.table.fields, name, value).None? ==> r.outcome == Raised && r.store.table == s.table
    ensures DeleteTarget(s.table.fields, name, value).Some? ==>
              var (k, target) := DeleteTarget(s.table.fields, name, value).value;
              var rows := s.table.records;
              var mt := DeleteMatcher(s.table.fields[k], target);
              if FirstShort(rows, k) < |rows| then r.outcome == Raised && r.store.table == s.table
              else r.outcome == Done(AnyMatch(rows, k, mt)) && r.store.table.records == KeepRows(rows, k, mt)
    ensures r.outcome != Done(true) ==> r.store.table.file == s.table.file && r.manager.afterLog == m.afterLog
  {
    var c := Enter(s, m, now);
    var rows := c.store.table.records;
    match DeleteTarget(c.store.table.fields, name, value)
    case None => RaisedAfterLog(c, rows, now)
    case Some((k, target)) =>
      var mt := DeleteMatcher(c.store.table.fields[k], target);
      if FirstShort(rows, k) < |rows| then RaisedAfterLog(c, rows, now)
      else if !AnyMatch(rows, k, mt) then Unmatched(c, now)
      else Rewritten(c, KeepRows(rows, k, mt), now)
  }

  // ---------------------------------------------------------------------
  // Transactions and logs of update and delete
  // ---------------------------------------------------------------------

  /** The update's ending in the handle's own transaction: the transaction
      stays open with the images appended. */
  lemma UpdateAtOwn(c: Context, k: nat, ch: Change, now: Stamp)
    requires Inv(c.manager) && Headroom(c.manager, 2) && k < |c.store.table.fields|
    requires !c.auto && IsActive(c.manager, c.id)
    ensures var r := UpdateAt(c, k, ch, now);
            r.store.txn == c.store.txn && r.manager.counter == c.manager.counter &&
            r.manager.committed == c.manager.committed && IsActive(r.manager, c.id) &&
            r.manager.active[c.id] ==
              c.manager.active[c.id] + FileImages(c.id, c.store.name, c.store.table.file, r.store.table.file,
                                                  r.outcome == Done(true), now)
  {
    var rows := c.store.table.records;
    var mt := Matcher(c.store.table.fields[k], ch.target);
    var j := FirstShort(rows, k);
    if j < |rows| {
      assert UpdateAt(c, k, ch, now) == RaisedAfterLog(c, UpdateRows(rows[..j], k, mt, ch.next) + rows[j..], now);
    } else if !AnyMatch(rows, k, mt) {
      assert UpdateAt(c, k, ch, now) == Unmatched(c, now);
    } else {
      assert UpdateAt(c, k, ch, now) == Rewritten(c, UpdateRows(rows, k, mt, ch.next), now);
    }
  }

  /** The update's ending in an automatic transaction: committed when the
      update returns, aborted when it raised, and forgotten either way. */
  lemma UpdateAtAuto(c: Context, k: nat, ch: Change, now: Stamp)
    requires Inv(c.manager) && Headroom(c.manager, 2) && k < |c.store.table.fields|
    requires c.auto && c.id != 0 && IsActive(c.manager, c.id) && !IsCommitted(c.manager, c.id)
    ensures var r := UpdateAt(c, k, ch, now);
            r.store.txn == None && r.manager.counter == c.manager.counter && !IsActive(r.manager, c.id) &&
            (IsCommitted(r.manager, c.id) <==> r.outcome.Done?)
  {
    var rows := c.store.table.records;
    var mt := Matcher(c.store.table.fields[k], ch.target);
    var j := FirstShort(rows, k);
    if j < |rows| {
      assert UpdateAt(c, k, ch, now) == RaisedAfterLog(c, UpdateRows(rows[..j], k, mt, ch.next) + rows[j..], now);
    } else if !AnyMatch(rows, k, mt) {
      assert UpdateAt(c, k, ch, now) == Unmatched(c, now);
    } else {
      assert UpdateAt(c, k, ch, now) == Rewritten(c, UpdateRows(rows, k, mt, ch.next), now);
    }
  }

  /** An update in the handle's own transaction commits and ends nothing;
      when that transaction is active its operations grow by the whole
      file's before-image (unless the field or the arguments were refused
      first) and, when the file was rewritten, its after-image. */
  lemma UpdateInOwnTransaction(s: Store, m: Manager, name: bytes, prev: bytes, next: bytes, now: Stamp)
    requires Inv(m) && Headroom(m, 2) && s.txn.Some?
    ensures var r := Update(s, m, name, prev, next, now);
            r.store.txn == s.txn && r.manager.counter == m.counter && r.manager.committed == m.committed &&
            (IsActive(m, s.txn.value) ==>
               IsActive(r.manager, s.txn.value) &&
               r.manager.active[s.txn.value] ==
                 m.active[s.txn.value] +
                 if UpdateTarget(s.table.fields, name, prev, next).None? then []
                 else FileImages(s.txn.value, s.name, s.table.file, r.store.table.file, r.outcome == Done(true), now))
  {
    var c := Enter(s, m, now);
    match UpdateTarget(c.store.table.fields, name, prev, next)
    case None =>
      assert Update(s, m, name, prev, next, now) == Fail(c, now);
    case Some((k, ch)) =>
      assert Update(s, m, name, prev, next, now) == UpdateAt(c, k, ch, now);
      if IsActive(m, s.txn.value) {
        UpdateAtOwn(c, k, ch, now);
      }
  }

  /** An automatic transaction never outlives an update: it is committed
      exactly when the update raised nothing, and aborted otherwise. */
  lemma UpdateInAutoTransaction(s: Store, m: Manager, name: bytes, prev: bytes, next: bytes, now: Stamp)
    requires Inv(m) && Headroom(m, 2) && s.txn.None?
    ensures var r := Update(s, m, name, prev, next, now);
            r.store.txn == None && !IsActive(r.manager, m.counter + 1) &&
            (IsCommitted(r.manager, m.counter + 1) <==> r.outcome.Done?)
  {
    var c := Enter(s, m, now);
    match UpdateTarget(c.store.table.fields, name, prev, next)
    case None =>
      assert Update(s, m, name, prev, next, now) == Fail(c, now);
    case Some((k, ch)) =>
      assert Update(s, m, name, prev, next, now) == UpdateAt(c, k, ch, now);
      UpdateAtAuto(c, k, ch, now);
  }

  /** A delete in the handle's own transaction commits and ends nothing;
      when that transaction is active its operations grow by the whole
      file's before-image, always, and, when the file was rewritten, its
      after-image. */
  lemma DeleteInOwnTransaction(s: Store, m: Manager, name: bytes, value: bytes, now: Stamp)
    requires Inv(m) && Headroom(m, 2) && s.txn.Some?
    ensures var r := Delete(s, m, name, value, now);
            r.store.txn == s.txn && r.manager.counter == m.counter && r.manager.committed == m.committed &&
            (IsActive(m, s.txn.value) ==>
               IsActive(r.manager, s.txn.value) &&
               r.manager.active[s.txn.value] ==
                 m.active[s.txn.value] +
                 FileImages(s.txn.value, s.name, s.table.file, r.store.table.file, r.outcome == Done(true), now))
  {
    var c := Enter(s, m, now);
    var rows := c.store.table.records;
    match DeleteTarget(c.store.table.fields, name, value)
    case None =>
      assert Delete(s, m, name, value, now) == RaisedAfterLog(c, rows, now);
    case Some((k, target)) =>
      var mt := DeleteMatcher(c.store.table.fields[k], target);
      if FirstShort(rows, k) < |rows| {
        assert Delete(s, m, name, value, now) == RaisedAfterLog(c, rows, now);
      } else if !AnyMatch(rows, k, mt) {
        assert Delete(s, m, name, value, now) == Unmatched(c, now);
      } else {
        assert Delete(s, m, name, value, now) == Rewritten(c, KeepRows(rows, k, mt), now);
      }
  }

  /** An automatic transaction never outlives a delete: it is committed
      exactly when the delete raised nothing, and aborted otherwise. */
  lemma DeleteInAutoTransaction(s: Store, m: Manager, name: bytes, value: bytes, now: Stamp)
    requires Inv(m) && Headroom(m, 2) && s.txn.None?
    ensures var r := Delete(s, m, name, value, now);
            r.store.txn == None && !IsActive(r.manager, m.counter + 1) &&
            (IsCommitted(r.manager, m.counter + 1) <==> r.outcome.Done?)
  {
    var c := Enter(s, m, now);
    var rows := c.store.table.records;
    match DeleteTarget(c.store.table.fields, name, value)
    case None =>
      assert Delete(s, m, name, value, now) == RaisedAfterLog(c, rows, now);
    case Some((k, target)) =>
      var mt := DeleteMatcher(c.store.table.fields[k], target);
      if FirstShort(rows, k) < |rows| {
        assert Delete(s, m, name, value, now) == RaisedAfterLog(c, rows, now);
      } else if !AnyMatch(rows, k, mt) {
        assert Delete(s, m, name, value, now) == Unmatched(c, now);
      } else {
        assert Delete(s, m, name, value, now) == Rewritten(c, KeepRows(rows, k, mt), now);
      }
  }

  // ---------------------------------------------------------------------
  // The calls as written
  // ---------------------------------------------------------------------

  /** Whether a call's log calls reach `_write_to_log_file`: its
      transaction is one the manager holds as active, as an automatic one
      always is. */
  predicate Logs(s: Store, m: Manager)
  {
    s.txn.None? || IsActive(m, s.txn.value)
  }

  /** The handle's before-image log call as written. The name it passes is
      `f_handle.name`, a `bytes` value, so in an active transaction the call
      raises and leaves the manager as it was. */
  function LogBeforeAsWritten(c: Context, block: int, data: bytes, now: Stamp): (r: LogCall)
    requires Inv(c.manager)
    ensures r.manager == c.manager
    ensures r.LogRaised? <==> IsActive(c.manager, c.id)
  {
    LogImageAsWritten(c.manager, BeforeImage, c.id, BytesName(c.store.name), block, data, now)
  }

  /** The cache replaced by `rows` and the file repacked from it. */
  function Repacked(t: Table, rows: seq<Row>): (r: Table)
    ensures r.fields == t.fields && r.records == rows && r.positions == t.positions
  {
    var p := Repack(t.fields, Contents(t.fields, rows, false), t.file, t.dataBlocks);
    t.(records := rows, file := p.file, dataBlocks := p.dataBlocks)
  }

  /** What an update does to the table and reports, once its field and
      arguments are known, apart from logging and the transaction. */
  function UpdateEffect(t: Table, k: nat, ch: Change): (r: (Table, Outcome))
    requires k < |t.fields|
    ensures r.0.fields == t.fields
    ensures r.1 != Done(true) ==> r.0.file == t.file
  {
    var rows := t.records;
    var mt := Matcher(t.fields[k], ch.target);
    var j := FirstShort(rows, k);
    if j < |rows| then (t.(records := UpdateRows(rows[..j], k, mt, ch.next) + rows[j..]), Raised)
    else if !AnyMatch(rows, k, mt) then (t, Done(false))
    else (Repacked(t, UpdateRows(rows, k, mt, ch.next)), Done(true))
  }

  /** What a delete does to the table and reports, once its field and value
      are known, apart from logging and the transaction. */
  function DeleteEffect(t: Table, k: nat, target: Value): (r: (Table, Outcome))
    requires k < |t.fields|
    ensures r.0.fields == t.fields
    ensures r.1 != Done(true) ==> r.0 == t
  {
    var rows := t.records;
    var mt := DeleteMatcher(t.fields[k], target);
    if FirstShort(rows, k) < |rows| then (t, Raised)
    else if !AnyMatch(rows, k, mt) then (t, Done(false))
    else (Repacked(t, KeepRows(rows, k, mt)), Done(true))
  }

  /** `insert_record` as written. A refused or missing value ends as in
      `Insert`. An accepted record is cached and placed, and then, in an
      active transaction, the before-image log raises: nothing is written
      to the file, nothing is logged or committed, and an automatic
      transaction stays open on the handle. In a transaction the manager
      does not hold, both log calls return `False` and the record is
      written unlogged. */
  function InsertAsWritten(s: Store, m: Manager, input: seq<bytes>, now: Stamp): (r: Step)
    requires Inv(m)
    ensures Inv(r.manager) && r.store.name == s.name && r.store.table.fields == s.table.fields
    ensures r.manager == (if s.txn.Some? then m else Begin(m, now).0)
    ensures r.store.txn == (if s.txn.Some? then s.txn else Some(m.counter + 1))
    ensures !CheckInput(s.table.fields, input).Accepted? ==>
              r.store.table == s.table &&
              r.outcome == (if CheckInput(s.table.fields, input).Refused? then Done(false) else Raised)
    ensures CheckInput(s.table.fields, input).Accepted? ==>
              r.store.table.records == s.table.records + [CheckInput(s.table.fields, input).row]
    ensures CheckInput(s.table.fields, input).Accepted? && Logs(s, m) ==>
              r.outcome == Raised && r.store.table.file == s.table.file
  {
    var c := Enter(s, m, now);
    match CheckInput(c.store.table.fields, input)
    case Missing => Step(c.store, c.manager, Raised)
    case Refused => Step(c.store, c.manager, Done(false))
    case Accepted(row, text) =>
      var (t1, slot) := Append(c.store.table, row, text);
      match LogBeforeAsWritten(c, slot.block, BlockOf(t1.file, slot.block), now)
      case LogRaised(m1) => Step(c.store.(table := t1), m1, Raised)
      case Returned(m1, _) =>
        var w := WriteInserted(t1.file, t1.dataBlocks, slot, text);
        Step(c.store.(table := t1.(file := w.file)), m1, if w.complete then Done(true) else Raised)
  }

  /** `update_record` as written. An unknown field or a badly typed value
      raises before any logging, as in `Update`. Otherwise, in an active
      transaction the before-image log raises before the cache is touched,
      so the handler runs with the table unchanged and an automatic
      transaction is aborted, never committed. In a transaction the manager
      does not hold, the log calls return `False` and the update runs
      unlogged. */
  function UpdateAsWritten(s: Store, m: Manager, name: bytes, prev: bytes, next: bytes, now: Stamp): (r: Step)
    requires Inv(m)
    ensures Inv(r.manager) && r.store.name == s.name && r.store.table.fields == s.table.fields
    ensures r.manager.beforeLog == m.beforeLog && r.manager.afterLog == m.afterLog
    ensures Logs(s, m) ==> r.outcome == Raised && r.store.table == s.table
    ensures s.txn.None? ==>
              r.store.txn == None && !IsActive(r.manager, m.counter + 1) && !IsCommitted(r.manager, m.counter + 1)
    ensures s.txn.Some? ==> r.store.txn == s.txn && r.manager == m
  {
    var c := Enter(s, m, now);
    match UpdateTarget(c.store.table.fields, name, prev, next)
    case None => Fail(c, now)
    case Some((k, ch)) =>
      match LogBeforeAsWritten(c, 0, c.store.table.file, now)
      case LogRaised(m1) => Fail(c.(manager := m1), now)
      case Returned(m1, _) =>
        var (t, o) := UpdateEffect(c.store.table, k, ch);
        Step(c.store.(table := t), m1, o)
  }

  /** `del_one_record` as written. The before-image log comes first, so in
      an active transaction it raises before the field is even looked up:
      the handler runs with the table unchanged and an automatic
      transaction is aborted, never committed. In a transaction the manager
      does not hold, the log calls return `False` and the delete runs
      unlogged. */
  function DeleteAsWritten(s: Store, m: Manager, name: bytes, value: bytes, now: Stamp): (r: Step)
    requires Inv(m)
    ensures Inv(r.manager) && r.store.name == s.name && r.store.table.fields == s.table.fields
    ensures r.manager.beforeLog == m.beforeLog && r.manager.afterLog == m.afterLog
    ensures Logs(s, m) ==> r.outcome == Raised && r.store.table == s.table
    ensures s.txn.None? ==>
              r.store.txn == None && !IsActive(r.manager, m.counter + 1) && !IsCommitted(r.manager, m.counter + 1)
    ensures s.txn.Some? ==> r.store.txn == s.txn && r.manager == m
  {
    var c := Enter(s, m, now);
    match LogBeforeAsWritten(c, 0, c.store.table.file, now)
    case LogRaised(m1) => Fail(c.(manager := m1), now)
    case Returned(m1, _) =>
      match DeleteTarget(c.store.table.fields, name, value)
      case None => Step(c.store, m1, Raised)
      case Some((k, target)) =>
        var (t, o) := DeleteEffect(c.store.table, k, target);
        Step(c.store.(table := t), m1, o)
  }

  /** Where nothing is logged the two readings meet: in a transaction the
      manager does not hold, the insert as written is the modelled one. */
  lemma UnloggedInsertAgrees(s: Store, m: Manager, input: seq<bytes>, now: Stamp)
    requires Inv(m) && Headroom(m, 2) && !Logs(s, m)
    ensures InsertAsWritten(s, m, input, now) == Insert(s, m, input, now)
  {
    var c := Enter(s, m, now);
    match CheckInput(c.store.table.fields, input)
    case Missing =>
    case Refused =>
    case Accepted(row, text) =>
      var (t1, slot) := Append(c.store.table, row, text);
      var b := slot.block;
      var w := WriteInserted(t1.file, t1.dataBlocks, slot, text);
      assert LogImage(c.manager, BeforeImage, c.id, c.store.name, b, BlockOf(t1.file, b), now).0 == m;
      assert LogBoth(c.manager, c.id, c.store.name, b, BlockOf(t1.file, b), BlockOf(w.file, b), now) == m;
      assert InsertAccepted(c, row, text, now) ==
             Step(c.store.(table := t1.(file := w.file)), m, if w.complete then Done(true) else Raised);
  }

  /** In a transaction the manager does not hold, the update as written is
      the modelled one. */
  lemma UnloggedUpdateAgrees(s: Store, m: Manager, name: bytes, prev: bytes, next: bytes, now: Stamp)
    requires Inv(m) && Headroom(m, 2) && !Logs(s, m)
    ensures UpdateAsWritten(s, m, name, prev, next, now) == Update(s, m, name, prev, next, now)
  {
    var c := Enter(s, m, now);
    match UpdateTarget(c.store.table.fields, name, prev, next)
    case None =>
    case Some((k, ch)) =>
      UnloggedEffect(c, now);
      var (t, o) := UpdateEffect(c.store.table, k, ch);
      var rows := c.store.table.records;
      var mt := Matcher(c.store.table.fields[k], ch.target);
      var j := FirstShort(rows, k);
      if j < |rows| {
        assert UpdateAt(c, k, ch, now) == RaisedAfterLog(c, t.records, now);
      } else if !AnyMatch(rows, k, mt) {
        assert UpdateAt(c, k, ch, now) == Unmatched(c, now);
      } else {
        assert rows[..j] == rows && rows[j..] == [];
        assert UpdateRows(rows, k, mt, ch.next) + [] == UpdateRows(rows, k, mt, ch.next);
        UnloggedRewrite(c, UpdateRows(rows, k, mt, ch.next), now);
        assert UpdateAt(c, k, ch, now) == Rewritten(c, UpdateRows(rows, k, mt, ch.next), now);
      }
  }

  /** In a transaction the manager does not hold, the delete as written is
      the modelled one. */
  lemma UnloggedDeleteAgrees(s: Store, m: Manager, name: bytes, value: bytes, now: Stamp)
    requires Inv(m) && Headroom(m, 2) && !Logs(s, m)
    ensures DeleteAsWritten(s, m, name, value, now) == Delete(s, m, name, value, now)
  {
    var c := Enter(s, m, now);
    var rows := c.store.table.records;
    UnloggedEffect(c, now);
    match DeleteTarget(c.store.table.fields, name, value)
    case None =>
    case Some((k, target)) =>
      var mt := DeleteMatcher(c.store.table.fields[k], target);
      if FirstShort(rows, k) < |rows| {
      } else if !AnyMatch(rows, k, mt) {
      } else {
        UnloggedRewrite(c, KeepRows(rows, k, mt), now);
      }
  }

  /** The endings of a call whose transaction the manager does not hold
      touch neither the manager nor the transaction. */
  lemma UnloggedEffect(c: Context, now: Stamp)
    requires Inv(c.manager) && Headroom(c.manager, 2) && !c.auto && !IsActive(c.manager, c.id)
    ensures LogFileBefore(c, now) == c.manager
    ensures forall rows :: RaisedAfterLog(c, rows, now) == Step(c.store.(table := c.store.table.(records := rows)), c.manager, Raised)
    ensures Unmatched(c, now) == Step(c.store, c.manager, Done(false))
  {
  }

  lemma UnloggedRewrite(c: Context, rows: seq<Row>, now: Stamp)
    requires Inv(c.manager) && Headroom(c.manager, 2) && !c.auto && !IsActive(c.manager, c.id)
    ensures Rewritten(c, rows, now) == Step(c.store.(table := Repacked(c.store.table, rows)), c.manager, Done(true))
  {
    var t := c.store.table;
    var p := Repack(t.fields, Contents(t.fields, rows, false), t.file, t.dataBlocks);
    assert LogBoth(c.manager, c.id, c.store.name, 0, t.file, p.file, now) == c.manager;
  }
}

=== FILE: placement.dfy ===
/** Where `insert_record` puts successive records, as written and as
    evidently intended. */
module Placement {
  import opened Common
  import opened TableLayout
  import opened TableFacts

  /** The quotient's numerator: a block less its header and one offset entry. */
  const SLOT_SPACE: int := BLOCK_SIZE - SLOT_LEN - BLOCK_HEAD_LEN

  /** The slot after `s` for a record of content length `cl`. */
  function NextSlot(s: Slot, cl: nat): Slot
  {
    if (s.index + 1) * (RECORD_HEAD_LEN + cl + SLOT_LEN) == SLOT_SPACE then Slot(s.block + 1, 0)
    else Slot(s.block, s.index + 1)
  }

  /** The slots of `n` records of content length `cl` inserted one after
      another into an empty table. */
  function PlaceAll(n: nat, cl: nat): (r: seq<Slot>)
    ensures |r| == n
  {
    if n == 0 then [] else var p := PlaceAll(n - 1, cl); p + [Place(p, RECORD_HEAD_LEN + cl).0]
  }

  /** Where record `k` lands: when `record_len + 4` divides 4084 exactly,
      `q = 4084 / (record_len + 4)` records fill each block in turn;
      otherwise the quotient is never an integer, no slot index equals it
      minus one, and every record stays in block 1. */
  function ExpectedSlot(k: nat, cl: nat): Slot
  {
    var d := RECORD_HEAD_LEN + cl + SLOT_LEN;
    if SLOT_SPACE % d == 0 then Slot(1 + k / (SLOT_SPACE / d), k % (SLOT_SPACE / d)) else Slot(1, k)
  }

  /** Division is unique: a quotient and remainder in range are the ones `/` and `%` give. */
  lemma DivModUnique(a: int, q: int, b: int, r: int)
    requires q > 0 && a == b * q + r && 0 <= r < q
    ensures a / q == b && a % q == r
  {
    var b0 := a / q;
    var r0 := a % q;
    assert a == b0 * q + r0;
    assert (b0 - b) * q == r - r0;
    if b0 > b {
      MulMono(1, b0 - b, q);
    } else if b0 < b {
      MulMono(1, b - b0, q);
    }
  }

  lemma MulMono(a: int, b: int, c: nat)
    requires a <= b
    ensures a * c <= b * c
  {
  }

  /** Counting on by one from `m` in base `q`. */
  lemma DivStep(m: nat, q: nat)
    requires q > 0
    ensures m % q + 1 == q ==> (m + 1) / q == m / q + 1 && (m + 1) % q == 0
    ensures m % q + 1 != q ==> (m + 1) / q == m / q && (m + 1) % q == m % q + 1
  {
    assert m == (m / q) * q + m % q;
    if m % q + 1 == q {
      DivModUnique(m + 1, q, m / q + 1, 0);
    } else {
      DivModUnique(m + 1, q, m / q, m % q + 1);
    }
  }

  lemma MulStrict(a: int, b: int, d: int)
    ensures a < b && d > 0 ==> a * d < b * d
  {
    if a < b && d > 0 {
      assert b * d == a * d + (b - a) * d;
    }
  }

  lemma MulCancel(a: int, b: int, d: int)
    requires d > 0 && a * d == b * d
    ensures a == b
  {
    MulStrict(a, b, d);
    MulStrict(b, a, d);
  }

  /** A product equal to 4084 makes its factor divide 4084. */
  lemma ExactFactor(x: int, d: int)
    requires d > 0 && x * d == SLOT_SPACE
    ensures SLOT_SPACE % d == 0 && SLOT_SPACE / d == x
  {
    DivModUnique(SLOT_SPACE, d, x, 0);
  }

  /** One insert after record `m` moves to where record `m + 1` is expected. */
  lemma ExpectedStep(m: nat, cl: nat)
    ensures NextSlot(ExpectedSlot(m, cl), cl) == ExpectedSlot(m + 1, cl)
  {
    var d := RECORD_HEAD_LEN + cl + SLOT_LEN;
    if SLOT_SPACE % d == 0 {
      var q := SLOT_SPACE / d;
      assert SLOT_SPACE == q * d;
      DivStep(m, q);
      if (m % q + 1) * d == SLOT_SPACE {
        MulCancel(m % q + 1, q, d);
      }
    } else if (m + 1) * d == SLOT_SPACE {
      ExactFactor(m + 1, d);
    }
  }

  /** Record placement as written: the first record goes to block 1, slot 0;
      each later one takes the next slot of the last block, rolling over to
      slot 0 of a new block only when `(slot + 1) * (record_len + 4) == 4084`. */
  lemma {:induction false} PlacedRun(n: nat, cl: nat)
    ensures forall k :: 0 <= k < n ==> PlaceAll(n, cl)[k] == ExpectedSlot(k, cl)
  {
    if n > 0 {
      PlacedRun(n - 1, cl);
      var p := PlaceAll(n - 1, cl);
      if n > 1 {
        ExpectedStep(n - 2, cl);
        assert p[n - 2] == ExpectedSlot(n - 2, cl);
      }
      assert PlaceAll(n, cl)[n - 1] == ExpectedSlot(n - 1, cl);
    }
  }

  /** As written, with one two-character field (`record_len` 20), 24 does
      not divide 4084, so every record stays in block 1: record 170's
      offset entry no longer fits below the payloads. */
  lemma PlacementOverflows()
    ensures PlaceAll(171, 2)[170] == Slot(1, 170)
    ensures !SlotFits(Slot(1, 170), 2)
    ensures SlotPos(170) + SLOT_LEN > PayloadPos(170, RECORD_HEAD_LEN + 2)
  {
    PlacedRun(171, 2);
    assert SLOT_SPACE % 24 == 4;
  }

  /** Records per block as evidently intended: the floor of the quotient. */
  function IntendedCap(cl: nat): nat
  {
    SLOT_SPACE / (RECORD_HEAD_LEN + cl + SLOT_LEN)
  }

  /** Placement with the integer quotient: roll over once the last block's
      slots are used up. */
  function PlaceIntended(positions: seq<Slot>, cl: nat): (Slot, bool)
  {
    if |positions| == 0 then (Slot(1, 0), true)
    else
      var last := positions[|positions| - 1];
      if last.index + 1 >= IntendedCap(cl) then (Slot(last.block + 1, 0), true)
      else (Slot(last.block, last.index + 1), false)
  }

  function PlaceAllIntended(n: nat, cl: nat): (r: seq<Slot>)
    ensures |r| == n
  {
    if n == 0 then [] else var p := PlaceAllIntended(n - 1, cl); p + [PlaceIntended(p, cl).0]
  }

  /** With the integer quotient, whenever a record fits in a block at all,
      every placed slot's offset entry stays clear of the payloads. */
  lemma {:induction false} PlaceIntendedFits(n: nat, cl: nat)
    requires IntendedCap(cl) >= 1
    ensures forall k :: 0 <= k < n ==>
              PlaceAllIntended(n, cl)[k].index < IntendedCap(cl) && SlotFits(PlaceAllIntended(n, cl)[k], cl)
  {
    if n > 0 {
      PlaceIntendedFits(n - 1, cl);
      var s := PlaceAllIntended(n, cl)[n - 1];
      var d := RECORD_HEAD_LEN + cl + SLOT_LEN;
      var q := IntendedCap(cl);
      assert s.index < q;
      assert SLOT_SPACE == q * d + SLOT_SPACE % d;
      MulMono(s.index + 1, q, d);
      assert forall k :: 0 <= k < n - 1 ==> PlaceAllIntended(n, cl)[k] == PlaceAllIntended(n - 1, cl)[k];
    }
  }
}

=== FILE: plain_store.dfy ===
/** `insert_record`, `update_record` and `del_one_record` of the plain table
    store: the same validation, placement and file writes as the logged
    store, with no transaction and no log. Update and delete catch and print
    their own exceptions; `Raised` stands for that caught exception. */
module PlainStore {
  import opened Common
  import opened Records
  import opened TableLayout
  import opened TableFacts
  import opened TableOps

  datatype Step = Step(table: Table, outcome: Outcome)

  // ---------------------------------------------------------------------
  // insert_record
  // ---------------------------------------------------------------------

  /** `insert_record`. A refused value returns `False` and a missing one
      raises, both leaving the table alone; an accepted record is cached and
      placed, then written. */
  function Insert(t: Table, input: seq<bytes>): (r: Step)
    ensures r.table.fields == t.fields
    ensures !CheckInput(t.fields, input).Accepted? ==>
              r.table == t && r.outcome == (if CheckInput(t.fields, input).Refused? then Done(false) else Raised)
    ensures CheckInput(t.fields, input).Accepted? ==>
              var ck := CheckInput(t.fields, input);
              r.table.records == t.records + [ck.row] &&
              r.table.positions == t.positions + [Place(t.positions, RECORD_HEAD_LEN + |ck.text|).0] &&
              r.outcome != Done(false)
  {
    match CheckInput(t.fields, input)
    case Missing => Step(t, Raised)
    case Refused => Step(t, Done(false))
    case Accepted(row, text) => InsertAccepted(t, row, text)
  }

  /** Steps 2 to 5 for an accepted record: cache it, place it, write it. */
  function InsertAccepted(t: Table, row: Row, text: bytes): (r: Step)
    ensures r.table.fields == t.fields && r.table.records == t.records + [row]
    ensures r.table.positions == t.positions + [Place(t.positions, RECORD_HEAD_LEN + |text|).0]
    ensures r.outcome != Done(false)
  {
    var (t1, slot) := Append(t, row, text);
    var w := WriteInserted(t1.file, t1.dataBlocks, slot, text);
    Step(t1.(file := w.file), if w.complete then Done(true) else Raised)
  }

  /** Where an accepted record lands: when its slot's offset entry fits below
      the payloads, the insert returns `True`, the slot's offset entry points
      at the payload, and the payload's content is the record's text. */
  lemma InsertPlacesRecord(t: Table, input: seq<bytes>, row: Row, text: bytes)
    requires CheckInput(t.fields, input) == Accepted(row, text)
    ensures var r := Insert(t, input);
            var slot := r.table.positions[|t.positions|];
            var begin := PayloadPos(slot.index, RECORD_HEAD_LEN + |text|);
            var base := BLOCK_SIZE * slot.block;
            slot.block >= 1 && SlotFits(slot, |text|) ==>
              r.outcome == Done(true) &&
              Holds(r.table.file, base + SlotPos(slot.index), Be32(begin)) &&
              Holds(r.table.file, base + begin + RECORD_HEAD_LEN, text)
  {
    AcceptedInsert(t, input, row, text);
    AcceptedPlaces(t, row, text);
  }

  lemma AcceptedInsert(t: Table, input: seq<bytes>, row: Row, text: bytes)
    requires CheckInput(t.fields, input) == Accepted(row, text)
    ensures Insert(t, input) == InsertAccepted(t, row, text)
  {
  }

  lemma AcceptedPlaces(t: Table, row: Row, text: bytes)
    ensures var r := InsertAccepted(t, row, text);
            var slot := r.table.positions[|t.positions|];
            var begin := PayloadPos(slot.index, RECORD_HEAD_LEN + |text|);
            var base := BLOCK_SIZE * slot.block;
            slot.block >= 1 && SlotFits(slot, |text|) ==>
              r.outcome == Done(true) &&
              Holds(r.table.file, base + SlotPos(slot.index), Be32(begin)) &&
              Holds(r.table.file, base + begin + RECORD_HEAD_LEN, text)
  {
    var (t1, slot) := Append(t, row, text);
    if slot.block >= 1 && SlotFits(slot, |text|) {
      InsertedHolds(t1.file, t1.dataBlocks, slot, text);
    }
  }

  // ---------------------------------------------------------------------
  // The update loop and the write-back
  // ---------------------------------------------------------------------

  /** Every matching record has been updated: the records are repacked into
      the file with the plain store's rendering. */
  function Rewrite(t: Table, rows: seq<Row>): (r: Step)
    ensures r.outcome == Done(true) && r.table.records == rows
    ensures r.table.fields == t.fields && r.table.positions == t.positions
    ensures var p := Repack(t.fields, Contents(t.fields, rows, true), t.file, t.dataBlocks);
            r.table.file == p.file && r.table.dataBlocks == p.dataBlocks
  {
    var p := Repack(t.fields, Contents(t.fields, rows, true), t.file, t.dataBlocks);
    Step(t.(records := rows, file := p.file, dataBlocks := p.dataBlocks), Done(true))
  }

  /** Steps 3 and 4 of `update_record` for field `k`, records matching `mt`
      and the new value `v`: the records are updated in place in order, so a
      record too short to have the field raises and keeps the updates before
      it; the file is rewritten only when some record changed. */
  function UpdateWith(t: Table, k: nat, mt: Value -> bool, v: Value): (r: Step)
    ensures r.table.fields == t.fields
    ensures var rows := t.records;
            var j := FirstShort(rows, k);
            r.table.records == UpdateRows(rows[..j], k, mt, v) + rows[j..] &&
            r.outcome == (if j < |rows| then Raised else Done(AnyMatch(rows, k, mt)))
    ensures r.outcome != Done(true) ==> r.table.file == t.file && r.table.dataBlocks == t.dataBlocks
    ensures r.outcome == Done(true) ==> r == Rewrite(t, r.table.records)
  {
    var rows := t.records;
    var j := FirstShort(rows, k);
    if j < |rows| then Step(t.(records := UpdateRows(rows[..j], k, mt, v) + rows[j..]), Raised)
    else
      assert rows[..j] == rows && rows[j..] == [];
      assert UpdateRows(rows, k, mt, v) + [] == UpdateRows(rows, k, mt, v);
      if !AnyMatch(rows, k, mt) then Step(t, Done(false))
      else Rewrite(t, UpdateRows(rows, k, mt, v))
  }

  // ---------------------------------------------------------------------
  // update_record, as written
  // ---------------------------------------------------------------------

  /** Type handling of the plain store: `int()` of both values for an
      integer field (`None` is the `ValueError`), the truth words for a
      boolean one, and otherwise both values encoded to `bytes`, with no
      length check and no padding. */
  function UpdateArgs(f: Field, prev: bytes, next: bytes): Option<Change>
  {
    if f.kind == INTEGER then
      match (ParseInt(AsStr, prev), ParseInt(AsStr, next))
      case (Some(o), Some(n)) => Some(Change(IntV(o), IntV(n)))
      case _ => None
    else if f.kind == BOOLEAN then Some(Change(BoolV(ArgumentTrue(prev)), BoolV(ArgumentTrue(next))))
    else Some(Change(BytesV(prev), BytesV(next)))
  }

  /** The name the field lookup compares against: the argument
      left-justified to 10 characters, encoded, then stripped as `bytes`;
      the stored field names are stripped as `bytes` too. */
  function LookupName(name: bytes): bytes { Strip(AsBytes, LJust(name, 10)) }

  /** The field and typed arguments of an update; `None` when either step raises. */
  function UpdateTarget(fields: seq<Field>, name: bytes, prev: bytes, next: bytes): (r: Option<(nat, Change)>)
    ensures r.Some? ==> r.value.0 < |fields| && FindField(AsBytes, fields, LookupName(name)) == Some(r.value.0) &&
                        UpdateArgs(fields[r.value.0], prev, next) == Some(r.value.1)
    ensures r.None? ==> FindField(AsBytes, fields, LookupName(name)).None? ||
                        UpdateArgs(fields[FindField(AsBytes, fields, LookupName(name)).value], prev, next).None?
  {
    match FindField(AsBytes, fields, LookupName(name))
    case None => None
    case Some(k) =>
      match UpdateArgs(fields[k], prev, next)
      case None => None
      case Some(ch) => Some((k, ch))
  }

  /** `record[field_index] == old_value`: plain Python equality. */
  function EqMatcher(target: Value): Value -> bool { v => PyEq(v, target) }

  /** `update_record(field_name, old_value, new_value)` as written: an
      unknown field or a badly typed integer raises; otherwise every cached
      record whose field equals the typed old value gets the typed new one. */
  function Update(t: Table, name: bytes, prev: bytes, next: bytes): (r: Step)
    ensures r.table.fields == t.fields
    ensures UpdateTarget(t.fields, name, prev, next).None? ==> r == Step(t, Raised)
    ensures UpdateTarget(t.fields, name, prev, next).Some? ==>
              var (k, ch) := UpdateTarget(t.fields, name, prev, next).value;
              var rows := t.records;
              var j := FirstShort(rows, k);
              r.table.records == UpdateRows(rows[..j], k, EqMatcher(ch.target), ch.next) + rows[j..] &&
              r.outcome == (if j < |rows| then Raised else Done(AnyMatch(rows, k, EqMatcher(ch.target))))
    ensures r.outcome != Done(true) ==> r.table.file == t.file
  {
    match UpdateTarget(t.fields, name, prev, next)
    case None => Step(t, Raised)
    case Some((k, ch)) => UpdateWith(t, k, EqMatcher(ch.target), ch.next)
  }

  /** Text values as the constructor and `insert_record` cache them: every
      value of a text field is a `str`. */
  predicate TextCachedAsStr(fields: seq<Field>, rows: seq<Row>)
  {
    forall i, j :: 0 <= i < |rows| && 0 <= j < |rows[i]| && j < |fields| && IsText(fields[j]) ==> rows[i][j].StrV?
  }

  /** As written, the typed old value of a text field is `bytes` while every
      cached text value is a `str`, and the two never compare equal: an
      update of a text field changes no record and never rewrites the file. */
  lemma TextUpdateNeverApplies(t: Table, name: bytes, prev: bytes, next: bytes)
    requires TextCachedAsStr(t.fields, t.records)
    requires UpdateTarget(t.fields, name, prev, next).Some?
    requires IsText(t.fields[UpdateTarget(t.fields, name, prev, next).value.0])
    ensures Update(t, name, prev, next).table == t
    ensures Update(t, name, prev, next).outcome != Done(true)
  {
    var (k, ch) := UpdateTarget(t.fields, name, prev, next).value;
    var rows := t.records;
    var mt := EqMatcher(ch.target);
    var j := FirstShort(rows, k);
    assert ch.target.BytesV?;
    assert !AnyMatch(rows, k, mt) by {
      forall i | 0 <= i < |rows| && k < |rows[i]|
        ensures !mt(rows[i][k])
      {
        assert rows[i][k].StrV?;
      }
    }
    assert !AnyMatch(rows[..j], k, mt) by {
      forall i | 0 <= i < j
        ensures !RowMatches(rows[..j][i], k, mt)
      {
        assert rows[..j][i] == rows[i];
      }
    }
    assert rows[..j] + rows[j..] == rows;
  }

  /** A table of one four-wide text field holding `ab`: updating `ab` to
      `cd` reports no match and leaves the record as it was. */
  lemma TextUpdateExample(t: Table)
    requires t.fields == [Field(Ascii("name"), STRING, 4)] && t.records == [[StrV(Ascii("ab"))]]
    ensures Update(t, Ascii("name"), Ascii("ab"), Ascii("cd")) == Step(t, Done(false))
  {
    var name := Ascii("name");
    assert Stripped(AsBytes, name);
    LookupStripped(name);
    StripNoop(AsBytes, name);
    assert FindField(AsBytes, t.fields, name) == Some(0);
    assert UpdateTarget(t.fields, name, Ascii("ab"), Ascii("cd")) == Some((0, Change(BytesV(Ascii("ab")), BytesV(Ascii("cd")))));
    assert FirstShort(t.records, 0) == 1;
    TextUpdateNeverApplies(t, name, Ascii("ab"), Ascii("cd"));
  }

  /** A name with no surrounding whitespace is looked up as itself. */
  lemma LookupStripped(name: bytes)
    requires Stripped(AsBytes, name)
    ensures LookupName(name) == name
  {
    if |name| < 10 {
      assert LJust(name, 10) == Spaces(0) + name + Spaces(10 - |name|);
      StripPadded(AsBytes, name, 0, 10 - |name|);
    } else {
      StripNoop(AsBytes, name);
    }
  }

  // ---------------------------------------------------------------------
  // update_record, as evidently intended
  // ---------------------------------------------------------------------

  /** Type handling with text arguments kept as `str`, the type every
      cached text value has. */
  function IntendedArgs(f: Field, prev: bytes, next: bytes): Option<Change>
  {
    if IsText(f) then Some(Change(StrV(prev), StrV(next))) else UpdateArgs(f, prev, next)
  }

  /** `update_record` comparing text values as `str` (a `bytes` value first
      decoded and stripped, as delete does) and storing the new value as `str`. */
  function UpdateIntended(t: Table, name: bytes, prev: bytes, next: bytes): (r: Step)
    ensures r.table.fields == t.fields
    ensures FindField(AsBytes, t.fields, LookupName(name)).None? ==> r == Step(t, Raised)
    ensures r.outcome != Done(true) ==> r.table.file == t.file
  {
    match FindField(AsBytes, t.fields, LookupName(name))
    case None => Step(t, Raised)
    case Some(k) =>
      match IntendedArgs(t.fields[k], prev, next)
      case None => Step(t, Raised)
      case Some(ch) => UpdateWith(t, k, Matcher(t.fields[k], ch.target), ch.next)
  }

  /** The intended update of a text field, on records that all have the
      field: exactly the records holding the old value get the new one,
      everything else stays, and the file is rewritten exactly when some
      record held the old value. */
  lemma IntendedTextUpdate(t: Table, name: bytes, prev: bytes, next: bytes)
    requires TextCachedAsStr(t.fields, t.records)
    requires FindField(AsBytes, t.fields, LookupName(name)).Some?
    requires IsText(t.fields[FindField(AsBytes, t.fields, LookupName(name)).value])
    requires FirstShort(t.records, FindField(AsBytes, t.fields, LookupName(name)).value) == |t.records|
    ensures var k := FindField(AsBytes, t.fields, LookupName(name)).value;
            var r := UpdateIntended(t, name, prev, next);
            |r.table.records| == |t.records| &&
            (forall i :: 0 <= i < |t.records| ==>
               r.table.records[i] == if t.records[i][k] == StrV(prev) then t.records[i][k := StrV(next)] else t.records[i]) &&
            (r.outcome == Done(true) <==> exists i :: 0 <= i < |t.records| && t.records[i][k] == StrV(prev))
  {
    var k := FindField(AsBytes, t.fields, LookupName(name)).value;
    var rows := t.records;
    var mt := Matcher(t.fields[k], StrV(prev));
    assert UpdateIntended(t, name, prev, next) == UpdateWith(t, k, mt, StrV(next));
    forall i | 0 <= i < |rows|
      ensures RowMatches(rows[i], k, mt) <==> rows[i][k] == StrV(prev)
    {
      TextMatch(t.fields[k], prev, rows[i][k]);
    }
    UpdateWithExact(t, k, mt, StrV(prev), StrV(next));
  }

  /** When every record has the field and a record matches exactly when its
      field holds `target`, updating replaces exactly those fields. */
  lemma UpdateWithExact(t: Table, k: nat, mt: Value -> bool, target: Value, v: Value)
    requires FirstShort(t.records, k) == |t.records|
    requires forall i :: 0 <= i < |t.records| ==> (RowMatches(t.records[i], k, mt) <==> t.records[i][k] == target)
    ensures var r := UpdateWith(t, k, mt, v);
            |r.table.records| == |t.records| &&
            (forall i :: 0 <= i < |t.records| ==>
               r.table.records[i] == if t.records[i][k] == target then t.records[i][k := v] else t.records[i]) &&
            (r.outcome == Done(true) <==> exists i :: 0 <= i < |t.records| && t.records[i][k] == target)
  {
    var rows := t.records;
    assert rows[..|rows|] == rows;
    assert rows[|rows|..] == [];
    assert AnyMatch(rows, k, mt) <==> exists i :: 0 <= i < |rows| && rows[i][k] == target;
  }

  /** Against a `str` old value, a cached `str` matches exactly when it is the old value. */
  lemma TextMatch(f: Field, prev: bytes, v: Value)
    requires v.StrV?
    ensures UpdateMatch(f, StrV(prev), v) <==> v == StrV(prev)
  {
  }

  // ---------------------------------------------------------------------
  // del_one_record
  // ---------------------------------------------------------------------

  /** `del_one_record(field_name, field_value)`: an unknown field or a badly
      typed integer raises; a record too short to have the field raises and
      changes nothing; otherwise the records whose field renders as the value
      are dropped and, when any was, the rest are repacked into the file. */
  function Delete(t: Table, name: bytes, value: bytes): (r: Step)
    ensures r.table.fields == t.fields
    ensures DeleteTarget(t.fields, name, value).None? ==> r == Step(t, Raised)
    ensures DeleteTarget(t.fields, name, value).Some? ==>
              var (k, target) := DeleteTarget(t.fields, name, value).value;
              var rows := t.records;
              var mt := DeleteMatcher(t.fields[k], target);
              if FirstShort(rows, k) < |rows| then r == Step(t, Raised)
              else r.outcome == Done(AnyMatch(rows, k, mt)) && r.table.records == KeepRows(rows, k, mt)
    ensures r.outcome != Done(true) ==> r.table == t
    ensures r.outcome == Done(true) ==> r == Rewrite(t, r.table.records)
  {
    match DeleteTarget(t.fields, name, value)
    case None => Step(t, Raised)
    case Some((k, target)) =>
      var rows := t.records;
      var mt := DeleteMatcher(t.fields[k], target);
      if FirstShort(rows, k) < |rows| then Step(t, Raised)
      else if !AnyMatch(rows, k, mt) then Step(t, Done(false))
      else Rewrite(t, KeepRows(rows, k, mt))
  }

  /** Deleting twice is deleting once: after a delete that returned, the
      same delete finds nothing to drop and changes nothing. */
  lemma DeleteIdempotent(t: Table, name: bytes, value: bytes)
    ensures var r1 := Delete(t, name, value);
            var r2 := Delete(r1.table, name, value);
            r1.outcome.Done? ==> r2 == Step(r1.table, Done(false))
  {
    var r1 := Delete(t, name, value);
    if r1.outcome.Done? {
      var (k, target) := DeleteTarget(t.fields, name, value).value;
      var rows := t.records;
      var mt := DeleteMatcher(t.fields[k], target);
      var kept := r1.table.records;
      assert kept == KeepRows(rows, k, mt);
      assert !AnyMatch(kept, k, mt);
      forall x | x in kept
        ensures k < |x|
      {
        var i :| 0 <= i < |rows| && rows[i] == x;
      }
      assert forall i :: 0 <= i < |kept| ==> k < |kept[i]|;
    }
  }
}

=== FILE: query_condition.dfy ===
/** How a `WHERE` condition is judged on one record: the column name is
    resolved against the record's qualified names, the query constant is
    cast to the column's type, the two are compared, and `AND` / `OR`
    combine the results. A record is kept only when its condition comes
    out true. */
module QueryCondition {
  import opened Common
  import opened Records
  import opened QueryExtract

  const DOT: byte := 46

  // -------------------------------------------------------------------
  // Dotted names
  // -------------------------------------------------------------------

  /** The name a table gives its column: `table.field`. */
  function Qualified(table: bytes, field: bytes): bytes { table + [DOT] + field }

  /** `n.split('.')[0]`: the text before the first dot, or all of `n`. */
  function UpToDot(n: bytes): (r: bytes)
    ensures |r| <= |n| && r == n[..|r|]
    ensures DOT !in r
    ensures |r| < |n| ==> n[|r|] == DOT
    decreases |n|
  {
    if |n| == 0 || n[0] == DOT then [] else [n[0]] + UpToDot(n[1..])
  }

  /** `n.split('.')[-1]`: the text after the last dot, or all of `n`. */
  function LastPart(n: bytes): (r: bytes)
    ensures |r| <= |n| && r == n[|n| - |r|..]
    ensures DOT !in r
    ensures |r| < |n| ==> n[|n| - |r| - 1] == DOT
    decreases |n|
  {
    if |n| == 0 || n[|n| - 1] == DOT then [] else LastPart(n[..|n| - 1]) + [n[|n| - 1]]
  }

  /** `n.split('.')[1]` for a name holding a dot: the text between the
      first dot and the next one (or the end). */
  function SecondPart(n: bytes): bytes
    requires DOT in n
  {
    var k := |UpToDot(n)|;
    UpToDot(n[k + 1..])
  }

  /** A dot-free prefix followed by a dot is exactly what `UpToDot` cuts off. */
  lemma {:induction false} UpToDotOf(a: bytes, b: bytes)
    requires DOT !in a
    ensures UpToDot(a + [DOT] + b) == a
    decreases |a|
  {
    var n := a + [DOT] + b;
    if |a| > 0 {
      assert n[0] == a[0] && n[1..] == a[1..] + [DOT] + b;
      UpToDotOf(a[1..], b);
      assert [a[0]] + a[1..] == a;
    }
  }

  /** A dot followed by a dot-free suffix: the suffix is the last part. */
  lemma {:induction false} LastPartOf(a: bytes, b: bytes)
    requires DOT !in b
    ensures LastPart(a + [DOT] + b) == b
    decreases |b|
  {
    var n := a + [DOT] + b;
    if |b| > 0 {
      var init := b[..|b| - 1];
      assert n[|n| - 1] == b[|b| - 1] && n[..|n| - 1] == a + [DOT] + init;
      LastPartOf(a, init);
      assert init + [b[|b| - 1]] == b;
    }
  }

  /** A qualified name whose table and field hold no dot splits back into
      them: the first part is the table, and both the second and the last
      part are the field. */
  lemma QualifiedParts(table: bytes, field: bytes)
    requires DOT !in table && DOT !in field
    ensures DOT in Qualified(table, field)
    ensures UpToDot(Qualified(table, field)) == table
    ensures SecondPart(Qualified(table, field)) == field
    ensures LastPart(Qualified(table, field)) == field
  {
    var q := Qualified(table, field);
    assert q[|table|] == DOT;
    UpToDotOf(table, field);
    assert q[|table| + 1..] == field;
    UpToDotOf(field, []);
    assert field + [DOT] + [] == field + [DOT];
    LastPartOf(table, field);
  }

  // -------------------------------------------------------------------
  // Resolving a condition's column
  // -------------------------------------------------------------------

  /** The outcome of looking a column up: what was found, or why nothing was. */
  datatype Lookup<T> = Hit(found: T) | Ambiguous | Missing

  /** Whether a key's last dotted part is `s`. */
  function EndsIn(s: bytes): bytes -> bool { k => LastPart(k) == s }

  /** The key of `dict(zip(names, row))` a condition's column names: the
      name itself when it is a key, else the one key whose last part it
      is; two different such keys are ambiguous, none is missing. An entry
      that is not a raw string matches no key. */
  function ResolveKey(keys: seq<bytes>, c: Syn): (r: Lookup<bytes>)
    ensures r.Hit? ==> r.found in keys
  {
    match c
    case Token(StrV(s)) =>
      if s in keys then Hit(s)
      else
        var ms := Filter(keys, EndsIn(s));
        if |ms| == 0 then Missing
        else if forall i :: 0 <= i < |ms| ==> ms[i] == ms[0] then Hit(ms[0])
        else Ambiguous
    case _ => Missing
  }

  /** Some key has `s` as its last part. */
  predicate SomeKeyEndsIn(keys: seq<bytes>, s: bytes)
  {
    exists k :: k in keys && LastPart(k) == s
  }

  /** Two different keys have `s` as their last part. */
  predicate TwoKeysEndIn(keys: seq<bytes>, s: bytes)
  {
    exists k1, k2 :: k1 in keys && k2 in keys && k1 != k2 && LastPart(k1) == s && LastPart(k2) == s
  }

  /** What resolution means for a raw string `s`: a key equal to `s` wins;
      otherwise `s` is missing when no key has it as last part, ambiguous
      when two different keys do, and otherwise found as the one key that
      does. */
  lemma ResolveKeyMeaning(keys: seq<bytes>, s: bytes)
    ensures s in keys ==> ResolveKey(keys, Name(s)) == Hit(s)
    ensures s !in keys ==> (ResolveKey(keys, Name(s)) == Missing <==> !SomeKeyEndsIn(keys, s))
    ensures s !in keys ==> (ResolveKey(keys, Name(s)) == Ambiguous <==> TwoKeysEndIn(keys, s))
    ensures s !in keys && ResolveKey(keys, Name(s)).Hit? ==>
              var f := ResolveKey(keys, Name(s)).found;
              LastPart(f) == s && forall k :: k in keys && LastPart(k) == s ==> k == f
  {
    var r := ResolveKey(keys, Name(s));
    if s !in keys {
      var ms := Filter(keys, EndsIn(s));
      EndingKeys(keys, s);
      if |ms| == 0 {
        assert r == Missing;
        NoEndingKey(keys, s, ms);
      } else if forall i :: 0 <= i < |ms| ==> ms[i] == ms[0] {
        assert r == Hit(ms[0]);
        OneEndingKey(keys, s, ms);
      } else {
        assert r == Ambiguous;
        TwoEndingKeys(keys, s, ms);
      }
    }
  }

  /** The keys `ResolveKey` weighs are the keys with last part `s`. */
  lemma EndingKeys(keys: seq<bytes>, s: bytes)
    ensures forall k :: k in Filter(keys, EndsIn(s)) <==> k in keys && LastPart(k) == s
  {
  }

  lemma NoEndingKey(keys: seq<bytes>, s: bytes, ms: seq<bytes>)
    requires forall k :: k in ms <==> k in keys && LastPart(k) == s
    requires |ms| == 0
    ensures !SomeKeyEndsIn(keys, s) && !TwoKeysEndIn(keys, s)
  {
    forall k | k in keys ensures LastPart(k) != s {
      assert k in ms <==> LastPart(k) == s;
    }
  }

  lemma OneEndingKey(keys: seq<bytes>, s: bytes, ms: seq<bytes>)
    requires forall k :: k in ms <==> k in keys && LastPart(k) == s
    requires |ms| > 0 && forall i :: 0 <= i < |ms| ==> ms[i] == ms[0]
    ensures LastPart(ms[0]) == s && SomeKeyEndsIn(keys, s) && !TwoKeysEndIn(keys, s)
    ensures forall k :: k in keys && LastPart(k) == s ==> k == ms[0]
  {
    assert ms[0] in ms;
    forall k | k in keys && LastPart(k) == s ensures k == ms[0] {
      assert k in ms;
    }
  }

  lemma TwoEndingKeys(keys: seq<bytes>, s: bytes, ms: seq<bytes>)
    requires forall k :: k in ms <==> k in keys && LastPart(k) == s
    requires |ms| > 0 && !forall i :: 0 <= i < |ms| ==> ms[i] == ms[0]
    ensures SomeKeyEndsIn(keys, s) && TwoKeysEndIn(keys, s)
  {
    var i :| 0 <= i < |ms| && ms[i] != ms[0];
    assert ms[i] in ms && ms[0] in ms;
  }

  /** A key that names the column and no different key is the key a raw
      string resolves to. */
  lemma ResolvesTo(keys: seq<bytes>, s: bytes, f: bytes)
    requires f in keys && (f == s || LastPart(f) == s)
    requires s in keys ==> f == s
    requires forall k :: k in keys && LastPart(k) == s ==> k == f
    ensures ResolveKey(keys, Name(s)) == Hit(f)
  {
    ResolveKeyMeaning(keys, s);
  }

  /** `list.index(key)`: the first position of `key`, -1 when absent. */
  function FirstIndex(ns: seq<bytes>, key: bytes): (r: int)
    ensures r < 0 <==> key !in ns
    ensures r >= 0 ==> r < |ns| && ns[r] == key && key !in ns[..r]
    decreases |ns|
  {
    if |ns| == 0 then -1
    else if ns[0] == key then 0
    else
      var rest := FirstIndex(ns[1..], key);
      assert key in ns <==> key in ns[1..];
      if rest < 0 then -1
      else
        assert ns[..rest + 1] == [ns[0]] + ns[1..][..rest];
        rest + 1
  }

  /** The position `dict(zip(ns, row))[key]` reads: a later duplicate key
      overwrites an earlier one, so the last position holding `key`. */
  function LastIndex(ns: seq<bytes>, key: bytes): (r: int)
    ensures r < 0 <==> key !in ns
    ensures r >= 0 ==> r < |ns| && ns[r] == key && key !in ns[r + 1..]
    decreases |ns|
  {
    if |ns| == 0 then -1
    else if ns[|ns| - 1] == key then |ns| - 1
    else
      var rest := LastIndex(ns[..|ns| - 1], key);
      assert key in ns <==> key in ns[..|ns| - 1];
      if rest >= 0 then assert ns[rest + 1..] == ns[..|ns| - 1][rest + 1..] + [ns[|ns| - 1]]; rest
      else -1
  }

  // -------------------------------------------------------------------
  // Typing and comparing
  // -------------------------------------------------------------------

  /** The query constant cast to the column's type: `int()` for an integer
      column (`None` where it raises ValueError, which the evaluator turns
      into a rejected record), the truth words `true` / `1` or Python
      truthiness for a boolean column, `str()` for anything else. */
  function CastConstant(kind: int, k: Value): (r: Option<Value>)
    ensures r.Some? && kind == INTEGER ==> r.value.IntV?
    ensures r.Some? && kind == BOOLEAN ==> r.value.BoolV?
    ensures kind != INTEGER && kind != BOOLEAN ==> r == Some(StrV(PyStr(k)))
    ensures kind != INTEGER ==> r.Some?
  {
    if kind == INTEGER then
      match k
      case IntV(i) => Some(IntV(i))
      case BoolV(b) => Some(IntV(BoolInt(b)))
      case StrV(s) => (match ParseInt(AsStr, s) case Some(i) => Some(IntV(i)) case None => None)
      case BytesV(s) => (match ParseInt(AsBytes, s) case Some(i) => Some(IntV(i)) case None => None)
    else if kind == BOOLEAN then
      match k
      case StrV(s) => Some(BoolV(Lower(s) == Ascii("true") || Lower(s) == Ascii("1")))
      case _ => Some(BoolV(Truthy(Token(k))))
    else Some(StrV(PyStr(k)))
  }

  /** An integer written in a query casts back to itself for an integer
      column. */
  lemma CastIntegerText(i: int)
    ensures CastConstant(INTEGER, StrV(ShowInt(i))) == Some(IntV(i))
  {
    ParseShowInt(AsStr, i);
  }

  /** A number as Python compares it: an `int`, or a `bool` as 0 or 1. */
  function Num(v: Value): Option<int>
  {
    match v
    case IntV(i) => Some(i)
    case BoolV(b) => Some(BoolInt(b))
    case _ => None
  }

  /** Lexicographic three-way comparison. */
  function Lex(x: bytes, y: bytes): int
  {
    if x == y then 0 else if Below(x, y) then -1 else 1
  }

  /** Python's ordering of two values as -1, 0 or 1: numbers among
      themselves, strings among themselves, bytes among themselves; `None`
      where Python raises TypeError. */
  function Order(a: Value, b: Value): (r: Option<int>)
    ensures r.Some? ==> -1 <= r.value <= 1
  {
    match (Num(a), Num(b))
    case (Some(x), Some(y)) => Some(if x < y then -1 else if x == y then 0 else 1)
    case _ =>
      match (a, b)
      case (StrV(x), StrV(y)) => Some(Lex(x, y))
      case (BytesV(x), BytesV(y)) => Some(Lex(x, y))
      case _ => None
  }

  lemma LexAntisymmetric(x: bytes, y: bytes)
    ensures Lex(y, x) == -Lex(x, y)
  {
    if x != y {
      BelowTotal(x, y);
      if Below(x, y) { BelowAsymmetric(x, y); }
    }
  }

  /** The ordering is consistent: swapping the operands flips it, it is
      defined one way exactly when it is defined the other, and it says
      "equal" exactly when Python's `==` does. */
  lemma OrderConsistent(a: Value, b: Value)
    ensures Order(b, a).Some? <==> Order(a, b).Some?
    ensures Order(a, b).Some? ==> Order(b, a).value == -Order(a, b).value
    ensures Order(a, b).Some? ==> (Order(a, b).value == 0 <==> PyEq(a, b))
  {
    match (a, b)
    case (StrV(x), StrV(y)) => LexAntisymmetric(x, y);
    case (BytesV(x), BytesV(y)) => LexAntisymmetric(x, y);
    case _ =>
  }

  const EQ: bytes := [61]
  const NE: bytes := [33, 61]
  const LT: bytes := [60]
  const GT: bytes := [62]
  const LE: bytes := [60, 61]
  const GE: bytes := [62, 61]

  /** Whether an ordering, if Python could make one, lies in `lo..hi`. */
  function Within(o: Option<int>, lo: int, hi: int): Option<bool>
  {
    match o
    case None => None
    case Some(c) => Some(lo <= c <= hi)
  }

  /** The operator applied to the record's value and the typed constant:
      `=` (or any casing of `EQX`), `!=`, `<`, `>`, `<=`, `>=`. Any other
      string, or a `bytes` token, is an unknown operator and rejects the
      record; an operator that is not a string or `bytes` makes `.upper()`
      raise. */
  function Compare(op: Syn, a: Value, b: Value): (r: Option<bool>)
  {
    if op == Name(EQ) then Some(PyEq(a, b))
    else match op
      case Token(StrV(o)) =>
        if Upper(o) == Ascii("EQX") then Some(PyEq(a, b))
        else if o == NE then Some(!PyEq(a, b))
        else if o == LT then Within(Order(a, b), -1, -1)
        else if o == GT then Within(Order(a, b), 1, 1)
        else if o == LE then Within(Order(a, b), -1, 0)
        else if o == GE then Within(Order(a, b), 0, 1)
        else Some(false)
      case Token(BytesV(_)) => Some(false)
      case _ => None
  }

  /** On two integers the six operators mean what they say. */
  lemma CompareIntegers(x: int, y: int)
    ensures Compare(Name(EQ), IntV(x), IntV(y)) == Some(x == y)
    ensures Compare(Name(NE), IntV(x), IntV(y)) == Some(x != y)
    ensures Compare(Name(LT), IntV(x), IntV(y)) == Some(x < y)
    ensures Compare(Name(GT), IntV(x), IntV(y)) == Some(x > y)
    ensures Compare(Name(LE), IntV(x), IntV(y)) == Some(x <= y)
    ensures Compare(Name(GE), IntV(x), IntV(y)) == Some(x >= y)
  {
    assert Upper(NE) == NE && Upper(LT) == LT && Upper(GT) == GT;
    assert Upper(LE) == LE && Upper(GE) == GE;
  }

  // -------------------------------------------------------------------
  // Evaluating a condition tree
  // -------------------------------------------------------------------

  /** A simple condition `column op constant` on one record. The keys are
      the names zipped with the record's values; the value compared is the
      one the dictionary keeps for the key (its last position), the type
      the one `list.index` finds (its first position). An unresolved
      column rejects the record before the operator and constant are even
      read; a constant that `int()` refuses rejects it too. `None` where
      Python raises on a malformed node or an impossible comparison. */
  function Simple(column: Syn, op: Syn, constant: Syn, row: Row, names: seq<bytes>, infos: seq<Field>): Option<bool>
  {
    match column
    case Token(_) => None
    case Node(_, cc) =>
      if |cc| == 0 then None
      else
        var keys := names[..Min(|names|, |row|)];
        match ResolveKey(keys, cc[0])
        case Ambiguous => Some(false)
        case Missing => Some(false)
        case Hit(key) =>
          var value := row[LastIndex(keys, key)];
          var idx := FirstIndex(names, key);
          assert key in names by { assert keys <= names; }
          if idx >= |infos| then None
          else match (op, constant)
            case (Node(_, oc), Node(_, vc)) =>
              if |oc| == 0 || |vc| == 0 || !vc[0].Token? then None
              else
                (match CastConstant(infos[idx].kind, vc[0].v)
                 case None => Some(false)
                 case Some(typed) => Compare(oc[0], value, typed))
            case _ => None
  }

  /** A condition tree on one record: a false entry holds; `AND` and `OR`
      combine their children with Python's short circuit (the second child
      is not looked at when the first decides); a simple condition is
      judged as above; any other node rejects the record. `None` where
      Python raises. */
  function Eval(c: Syn, row: Row, names: seq<bytes>, infos: seq<Field>): (r: Option<bool>)
    decreases c
  {
    if !Truthy(c) then Some(true)
    else match c
      case Token(_) => None
      case Node(tag, ch) =>
        if tag == "SIMPLE_CONDITION" then
          if |ch| < 3 then None else Simple(ch[0], ch[1], ch[2], row, names, infos)
        else if tag == "CONDITION_AND" then
          if |ch| == 0 then None
          else match Eval(ch[0], row, names, infos)
            case None => None
            case Some(first) =>
              if !first then Some(false)
              else if |ch| < 2 then None
              else Eval(ch[1], row, names, infos)
        else if tag == "CONDITION_OR" then
          if |ch| == 0 then None
          else match Eval(ch[0], row, names, infos)
            case None => None
            case Some(first) =>
              if first then Some(true)
              else if |ch| < 2 then None
              else Eval(ch[1], row, names, infos)
        else Some(false)
  }

  /** The tree the grammar builds for `column op constant`. */
  function CondTree(column: Syn, op: Syn, constant: Syn): Syn
  {
    Node("SIMPLE_CONDITION", [Node("COLUMN_NAME_COND", [column]), Node("OPERATOR", [op]), Node("VALUE_CONST", [constant])])
  }

  function And(a: Syn, b: Syn): Syn { Node("CONDITION_AND", [a, b]) }
  function Or(a: Syn, b: Syn): Syn { Node("CONDITION_OR", [a, b]) }

  /** `AND` is conjunction and `OR` disjunction of children that evaluate;
      a first child that decides makes the second irrelevant, even one that
      would raise. */
  lemma Connectives(a: Syn, b: Syn, row: Row, names: seq<bytes>, infos: seq<Field>)
    ensures Eval(a, row, names, infos) == Some(false) ==> Eval(And(a, b), row, names, infos) == Some(false)
    ensures Eval(a, row, names, infos) == Some(true) ==> Eval(Or(a, b), row, names, infos) == Some(true)
    ensures Eval(a, row, names, infos).Some? && Eval(b, row, names, infos).Some? ==>
              && Eval(And(a, b), row, names, infos) ==
                   Some(Eval(a, row, names, infos).value && Eval(b, row, names, infos).value)
              && Eval(Or(a, b), row, names, infos) ==
                   Some(Eval(a, row, names, infos).value || Eval(b, row, names, infos).value)
  {
    assert "CONDITION_AND" != "SIMPLE_CONDITION";
    assert "CONDITION_OR" != "SIMPLE_CONDITION" && "CONDITION_OR" != "CONDITION_AND";
  }

  /** `a AND b` holds exactly when both children hold, whatever raises. */
  lemma AndTrue(a: Syn, b: Syn, row: Row, names: seq<bytes>, infos: seq<Field>)
    ensures (Eval(And(a, b), row, names, infos) == Some(true)) ==
            (Eval(a, row, names, infos) == Some(true) && Eval(b, row, names, infos) == Some(true))
  {
    assert "CONDITION_AND" != "SIMPLE_CONDITION";
  }

  /** A column name that resolves to no key, or to two, rejects the record
      whatever the operator and constant. */
  lemma UnresolvedColumnRejects(column: Syn, op: Syn, constant: Syn, row: Row, names: seq<bytes>, infos: seq<Field>)
    requires !ResolveKey(names[..Min(|names|, |row|)], column).Hit?
    ensures Eval(CondTree(column, op, constant), row, names, infos) == Some(false)
  {
  }

  /** A node that is neither a simple condition nor `AND` nor `OR`
      rejects every record. */
  lemma UnknownNodeRejects(tag: string, ch: seq<Syn>, row: Row, names: seq<bytes>, infos: seq<Field>)
    requires tag != "SIMPLE_CONDITION" && tag != "CONDITION_AND" && tag != "CONDITION_OR"
    ensures Eval(Node(tag, ch), row, names, infos) == Some(false)
  {
  }

  /** An operator string that is none of the six rejects a record whose
      column resolves and whose constant casts. */
  lemma UnknownOperatorRejects(o: bytes, a: Value, b: Value)
    requires o != EQ && Upper(o) != Ascii("EQX") && o != NE && o != LT && o != GT && o != LE && o != GE
    ensures Compare(Name(o), a, b) == Some(false)
  {
  }

  /** What a simple condition means on a well-formed record: when the
      column names exactly one position `k` and that field is an integer
      field holding `x`, comparing it with the integer constant `y` judges
      `x` against `y`. */
  lemma IntegerCondition(column: Syn, o: bytes, y: int, row: Row, names: seq<bytes>, infos: seq<Field>, k: nat)
    requires |row| == |names| == |infos| && k < |names|
    requires ResolveKey(names, column) == Hit(names[k])
    requires forall j :: 0 <= j < |names| && j != k ==> names[j] != names[k]
    requires infos[k].kind == INTEGER && row[k].IntV?
    ensures Eval(CondTree(column, Name(o), Token(IntV(y))), row, names, infos) ==
              Compare(Name(o), row[k], IntV(y))
  {
    assert names[..Min(|names|, |row|)] == names;
    OnlyIndex(names, k);
  }

  /** A name held at one position only is found there from either end. */
  lemma OnlyIndex(ns: seq<bytes>, k: nat)
    requires k < |ns|
    requires forall j :: 0 <= j < |ns| && j != k ==> ns[j] != ns[k]
    ensures FirstIndex(ns, ns[k]) == k && LastIndex(ns, ns[k]) == k
  {
  }

  // -------------------------------------------------------------------
  // Selecting the records a condition accepts
  // -------------------------------------------------------------------

  /** The test a record must pass: its condition evaluates to true. */
  function Keeps(cond: Syn, names: seq<bytes>, infos: seq<Field>): Row -> bool
  {
    row => Eval(cond, row, names, infos) == Some(true)
  }

  /** The records a condition accepts, in their original order; `None`
      when evaluating it on any record raises. */
  function SelectRows(rows: seq<Row>, cond: Syn, names: seq<bytes>, infos: seq<Field>): (r: Option<seq<Row>>)
    ensures r.Some? <==> forall i :: 0 <= i < |rows| ==> Eval(cond, rows[i], names, infos).Some?
    ensures r.Some? ==> r.value == Filter(rows, Keeps(cond, names, infos))
    decreases |rows|
  {
    if |rows| == 0 then Some([])
    else
      var init := rows[..|rows| - 1];
      var last := rows[|rows| - 1];
      assert forall i :: 0 <= i < |init| ==> init[i] == rows[i];
      match SelectRows(init, cond, names, infos)
      case None => None
      case Some(kept) =>
        match Eval(cond, last, names, infos)
        case None => None
        case Some(b) => Some(if b then kept + [last] else kept)
  }

  /** Keeping what passes `keep` is keeping what passes `p`, then what of
      that passes `q`, when `keep` is `p` and `q` together. */
  lemma {:induction false} FilterBoth<T(!new)>(s: seq<T>, keep: T -> bool, p: T -> bool, q: T -> bool)
    requires forall x :: keep(x) == (p(x) && q(x))
    ensures Filter(s, keep) == Filter(Filter(s, p), q)
    decreases |s|
  {
    if |s| > 0 {
      var init := s[..|s| - 1];
      var last := s[|s| - 1];
      FilterBoth(init, keep, p, q);
      if p(last) {
        FilterAppend(Filter(init, p), [last], q);
        assert Filter([last], q) == Filter([], q) + (if q(last) then [last] else []);
      }
    }
  }

  /** Selecting with `a AND b` keeps the records selecting with `a` and then
      with `b` keeps, when both evaluate on every record. */
  lemma SelectAnd(rows: seq<Row>, a: Syn, b: Syn, names: seq<bytes>, infos: seq<Field>)
    requires forall i :: 0 <= i < |rows| ==> Eval(a, rows[i], names, infos).Some?
    requires forall i :: 0 <= i < |rows| ==> Eval(b, rows[i], names, infos).Some?
    ensures SelectRows(rows, And(a, b), names, infos) ==
              Some(Filter(Filter(rows, Keeps(a, names, infos)), Keeps(b, names, infos)))
  {
    forall i | 0 <= i < |rows|
      ensures Eval(And(a, b), rows[i], names, infos).Some?
    {
      Connectives(a, b, rows[i], names, infos);
    }
    var keep := Keeps(And(a, b), names, infos);
    var p := Keeps(a, names, infos);
    var q := Keeps(b, names, infos);
    forall row: Row ensures keep(row) == (p(row) && q(row)) {
      AndTrue(a, b, row, names, infos);
    }
    FilterBoth(rows, keep, p, q);
  }
}

=== FILE: query_extract.dfy ===
/** The parsed query as the planner reads it: syntax-tree entries, and the
    walk that pulls the select list, the from list and the condition tree
    out of a `QUERY` node. */
module QueryExtract {
  import opened Common
  import opened Records

  /** A syntax-tree entry: a parser node (a tag and its children), or a
      raw Python value the parser stored as a child — a name, an operator
      or a constant. */
  datatype Syn = Node(value: string, children: seq<Syn>) | Token(v: Value)

  /** Python truthiness of an entry: a node object is always true; a raw
      value is false when it is zero, `False` or empty. */
  predicate Truthy(s: Syn)
  {
    match s
    case Node(_, _) => true
    case Token(IntV(i)) => i != 0
    case Token(BoolV(b)) => b
    case Token(StrV(t)) => |t| > 0
    case Token(BytesV(t)) => |t| > 0
  }

  /** The raw Python string `s`, as the parser stores a name or an operator. */
  function Name(s: bytes): Syn { Token(StrV(s)) }

  /** What the planner is handed: the entries under each `COLUMN_NAME` and
      each `TABLE_NAME`, in source order, and the condition tree if any. */
  datatype Sfw = Sfw(select: seq<Syn>, from: seq<Syn>, where: Option<Syn>)

  /** The answer for anything that is not a query: two empty lists, no condition. */
  const NO_QUERY: Sfw := Sfw([], [], None)

  /** The entry a list item contributes: the first child of an `item`
      node, nothing for another node or a childless one, and `None` (Python
      raises reading `.value`) for a raw value. */
  function ItemOf(c: Syn, item: string): (r: Option<seq<Syn>>)
    ensures r.Some? ==> |r.value| <= 1
  {
    match c
    case Token(_) => None
    case Node(tag, k) => Some(if tag == item && |k| > 0 then [k[0]] else [])
  }

  /** The entries of a right-nested list `single(item)` or
      `multiple(item, rest)`, in source order. The walk stops at a false
      entry, at a node of another tag, and after a `multiple` node with
      one child; `None` where Python raises (no first child, or `.value`
      of a raw value). */
  function ListItems(n: Syn, single: string, multiple: string, item: string): (r: Option<seq<Syn>>)
    decreases n
  {
    if !Truthy(n) then Some([])
    else match n
      case Token(_) => None
      case Node(tag, ch) =>
        if tag != single && tag != multiple then Some([])
        else if |ch| == 0 then None
        else match ItemOf(ch[0], item)
          case None => None
          case Some(head) =>
            if tag == multiple && |ch| > 1 then
              match ListItems(ch[1], single, multiple, item)
              case None => None
              case Some(rest) => Some(head + rest)
            else Some(head)
  }

  /** One child of the `QUERY` node: a select or from clause appends its
      list, a where clause with a child replaces the condition, any other
      node is skipped, a raw value raises. */
  function Clause(c: Syn, acc: Sfw): (r: Option<Sfw>)
    ensures r.Some? ==> |acc.select| <= |r.value.select| && |acc.from| <= |r.value.from|
  {
    match c
    case Token(_) => None
    case Node(tag, ch) =>
      if tag == "SELECT_CLAUSE" then
        if |ch| == 0 then None
        else match ListItems(ch[0], "SELECT_LIST_SINGLE", "SELECT_LIST_MULTIPLE", "COLUMN_NAME")
          case None => None
          case Some(cols) => Some(acc.(select := acc.select + cols))
      else if tag == "FROM_CLAUSE" then
        if |ch| == 0 then None
        else match ListItems(ch[0], "FROM_LIST_SINGLE", "FROM_LIST_MULTIPLE", "TABLE_NAME")
          case None => None
          case Some(tables) => Some(acc.(from := acc.from + tables))
      else if tag == "WHERE_CLAUSE" then
        Some(if |ch| > 0 then acc.(where := Some(ch[0])) else acc)
      else Some(acc)
  }

  /** The clauses of a query, first to last. */
  function Clauses(cs: seq<Syn>, acc: Sfw): (r: Option<Sfw>)
    decreases |cs|
  {
    if |cs| == 0 then Some(acc)
    else match Clause(cs[0], acc)
      case None => None
      case Some(next) => Clauses(cs[1..], next)
  }

  /** The select list, from list and condition of a parsed query; a missing
      or false root, or a root that is not a `QUERY` node, gives
      `NO_QUERY`. `None` where Python raises on a malformed tree. */
  function ExtractSfw(root: Option<Syn>): (r: Option<Sfw>)
    ensures root.None? ==> r == Some(NO_QUERY)
    ensures root.Some? && root.value.Node? && root.value.value != "QUERY" ==> r == Some(NO_QUERY)
  {
    match root
    case None => Some(NO_QUERY)
    case Some(t) =>
      if !Truthy(t) then Some(NO_QUERY)
      else match t
        case Token(_) => None
        case Node(tag, ch) => if tag != "QUERY" then Some(NO_QUERY) else Clauses(ch, NO_QUERY)
  }

  // -------------------------------------------------------------------
  // The trees the grammar builds, and the walk that undoes them
  // -------------------------------------------------------------------

  /** The grammar's list for `items`: `multiple(item(x), rest)` down to a
      final `single(item(x))`. */
  function ListTree(items: seq<Syn>, single: string, multiple: string, item: string): Syn
    requires |items| > 0
    decreases |items|
  {
    var head := Node(item, [items[0]]);
    if |items| == 1 then Node(single, [head])
    else Node(multiple, [head, ListTree(items[1..], single, multiple, item)])
  }

  function SelectTree(cols: seq<Syn>): Syn
    requires |cols| > 0
  {
    Node("SELECT_CLAUSE", [ListTree(cols, "SELECT_LIST_SINGLE", "SELECT_LIST_MULTIPLE", "COLUMN_NAME")])
  }

  function FromTree(tables: seq<Syn>): Syn
    requires |tables| > 0
  {
    Node("FROM_CLAUSE", [ListTree(tables, "FROM_LIST_SINGLE", "FROM_LIST_MULTIPLE", "TABLE_NAME")])
  }

  /** The `QUERY` node the grammar builds for `SELECT cols FROM tables
      [WHERE cond]`. */
  function QueryTree(cols: seq<Syn>, tables: seq<Syn>, cond: Option<Syn>): Syn
    requires |cols| > 0 && |tables| > 0
  {
    match cond
    case None => Node("QUERY", [SelectTree(cols), FromTree(tables)])
    case Some(c) => Node("QUERY", [SelectTree(cols), FromTree(tables), Node("WHERE_CLAUSE", [c])])
  }

  /** Walking a list the grammar built gives back its entries, in order. */
  lemma {:induction false} ListRoundTrip(items: seq<Syn>, single: string, multiple: string, item: string)
    requires |items| > 0 && single != multiple
    ensures ListItems(ListTree(items, single, multiple, item), single, multiple, item) == Some(items)
    decreases |items|
  {
    if |items| > 1 {
      ListRoundTrip(items[1..], single, multiple, item);
      assert [items[0]] + items[1..] == items;
    } else {
      assert [items[0]] == items;
    }
  }

  /** Extraction undoes the grammar: the select and from lists come back in
      source order and the condition comes back unchanged. */
  lemma ExtractQueryTree(cols: seq<Syn>, tables: seq<Syn>, cond: Option<Syn>)
    requires |cols| > 0 && |tables| > 0
    ensures ExtractSfw(Some(QueryTree(cols, tables, cond))) == Some(Sfw(cols, tables, cond))
  {
    ListRoundTrip(cols, "SELECT_LIST_SINGLE", "SELECT_LIST_MULTIPLE", "COLUMN_NAME");
    ListRoundTrip(tables, "FROM_LIST_SINGLE", "FROM_LIST_MULTIPLE", "TABLE_NAME");
    var s := SelectTree(cols);
    var f := FromTree(tables);
    var afterSelect := Sfw(cols, [], None);
    assert [] + cols == cols && [] + tables == tables;
    assert Clause(s, NO_QUERY) == Some(afterSelect);
    assert Clause(f, afterSelect) == Some(Sfw(cols, tables, None));
    match cond
    case None =>
      assert Clauses([s, f], NO_QUERY) == Clauses([f], afterSelect);
      assert Clauses([f], afterSelect) == Clauses([], Sfw(cols, tables, None));
    case Some(c) =>
      var w := Node("WHERE_CLAUSE", [c]);
      assert Clauses([s, f, w], NO_QUERY) == Clauses([f, w], afterSelect);
      assert Clauses([f, w], afterSelect) == Clauses([w], Sfw(cols, tables, None));
      assert Clauses([w], Sfw(cols, tables, None)) == Clauses([], Sfw(cols, tables, cond));
  }

  /** A later select or from clause appends to what earlier ones gathered,
      so a query's clauses only ever lengthen the lists. */
  lemma {:induction false} ClausesGrow(cs: seq<Syn>, acc: Sfw)
    ensures Clauses(cs, acc).Some? ==>
              |acc.select| <= |Clauses(cs, acc).value.select| && |acc.from| <= |Clauses(cs, acc).value.from|
    decreases |cs|
  {
    if |cs| > 0 {
      match Clause(cs[0], acc)
      case None =>
      case Some(next) => ClausesGrow(cs[1..], next);
    }
  }
}

=== FILE: query_plan.dfy ===
/** The logical plan of a query and what it evaluates to: a left-deep tree
    of cross products over the from list, wrapped in a filter for the
    condition and a projection for the select list, evaluated bottom-up
    into relations of qualified columns. */
module QueryPlan {
  import opened Common
  import opened Records
  import opened QueryExtract
  import opened QueryCondition

  /** A plan node: a table scan (`TABLE`), a cross product (`X`), a
      filter by a condition tree (`Filter`) or a projection onto a select
      list (`Proj`). */
  datatype Plan =
    | Table(name: Syn)
    | Cross(left: Plan, right: Plan)
    | Where(source: Plan, cond: Syn)
    | Proj(source: Plan, columns: seq<Syn>)

  /** The tables a plan reads, left to right. */
  function Leaves(p: Plan): seq<Syn>
  {
    match p
    case Table(n) => [n]
    case Cross(l, r) => Leaves(l) + Leaves(r)
    case Where(s, _) => Leaves(s)
    case Proj(s, _) => Leaves(s)
  }

  /** The number of cross products in a plan. */
  function Crosses(p: Plan): nat
  {
    match p
    case Table(_) => 0
    case Cross(l, r) => Crosses(l) + Crosses(r) + 1
    case Where(s, _) => Crosses(s)
    case Proj(s, _) => Crosses(s)
  }

  /** Only scans and cross products, and every right operand a scan. */
  predicate LeftDeep(p: Plan)
  {
    match p
    case Table(_) => true
    case Cross(l, r) => r.Table? && LeftDeep(l)
    case _ => false
  }

  // -------------------------------------------------------------------
  // Building the plan
  // -------------------------------------------------------------------

  /** The cross products over `tables`: the first two joined, then each
      further table joined onto the tree so far. */
  function JoinTree(tables: seq<Syn>): (r: Plan)
    requires |tables| > 0
    ensures Leaves(r) == tables
    ensures Crosses(r) == |tables| - 1
    ensures LeftDeep(r)
    decreases |tables|
  {
    if |tables| == 1 then Table(tables[0])
    else
      var init := tables[..|tables| - 1];
      assert init + [tables[|tables| - 1]] == tables;
      Cross(JoinTree(init), Table(tables[|tables| - 1]))
  }

  /** A left-deep tree is the join tree of its own tables: the from list
      fixes the shape. */
  lemma {:induction false} LeftDeepIsJoinTree(p: Plan)
    requires LeftDeep(p)
    ensures |Leaves(p)| > 0 && p == JoinTree(Leaves(p))
  {
    match p
    case Table(_) =>
    case Cross(l, r) =>
      LeftDeepIsJoinTree(l);
      var ts := Leaves(p);
      assert Leaves(r) == [r.name];
      assert ts[..|ts| - 1] == Leaves(l);
  }

  /** `construct_from_node`: nothing for an empty from list, else the join tree. */
  function ConstructFrom(tables: seq<Syn>): (r: Option<Plan>)
    ensures r.None? <==> |tables| == 0
    ensures r.Some? ==> Leaves(r.value) == tables && Crosses(r.value) == |tables| - 1 && LeftDeep(r.value)
  {
    if |tables| == 0 then None else Some(JoinTree(tables))
  }

  /** `construct_where_node`: a filter over the source when there is a
      (true) condition, the source itself otherwise. */
  function ConstructWhere(from: Option<Plan>, cond: Option<Syn>): (r: Option<Plan>)
    ensures r.None? <==> from.None?
    ensures r.Some? ==> Leaves(r.value) == Leaves(from.value)
    ensures r.Some? && r.value != from.value ==> cond.Some? && r.value == Where(from.value, cond.value)
  {
    match from
    case None => None
    case Some(p) => if cond.Some? && Truthy(cond.value) then Some(Where(p, cond.value)) else from
  }

  /** `construct_select_node`: a projection onto a non-empty select list,
      the source itself otherwise. */
  function ConstructSelect(source: Option<Plan>, cols: seq<Syn>): (r: Option<Plan>)
    ensures r.None? <==> source.None?
    ensures r.Some? ==> Leaves(r.value) == Leaves(source.value)
    ensures r.Some? && r.value != source.value ==> r.value == Proj(source.value, cols)
  {
    match source
    case None => None
    case Some(p) => if |cols| > 0 then Some(Proj(p, cols)) else source
  }

  /** The plan for an extracted query. */
  function BuildPlan(q: Sfw): (r: Option<Plan>)
    ensures r.None? <==> |q.from| == 0
    ensures r.Some? ==> Leaves(r.value) == q.from
  {
    ConstructSelect(ConstructWhere(ConstructFrom(q.from), q.where), q.select)
  }

  /** The plan of a query with a select list and a condition: a projection
      over a filter over the left-deep join tree of its tables. */
  lemma FullPlan(cols: seq<Syn>, tables: seq<Syn>, cond: Syn)
    requires |cols| > 0 && |tables| > 0 && Truthy(cond)
    ensures BuildPlan(Sfw(cols, tables, Some(cond))) == Some(Proj(Where(JoinTree(tables), cond), cols))
  {
  }

  // -------------------------------------------------------------------
  // Relations
  // -------------------------------------------------------------------

  /** A stored table as a scan loads it: its records and its field descriptors. */
  datatype Stored = Stored(records: seq<Row>, fields: seq<Field>)

  /** An intermediate result: rows, the qualified name of each column, and
      the field descriptor behind each column. */
  datatype Rel = Rel(rows: seq<Row>, names: seq<bytes>, infos: seq<Field>)

  /** The qualified names a scan of `table` gives its columns. */
  function Columns(table: bytes, fields: seq<Field>): (r: seq<bytes>)
    ensures |r| == |fields|
    ensures forall i :: 0 <= i < |fields| ==> r[i] == Qualified(table, FieldName(AsStr, fields[i]))
  {
    seq(|fields|, i requires 0 <= i < |fields| => Qualified(table, FieldName(AsStr, fields[i])))
  }

  /** A table scan: the named table's records under `table.field` names.
      `None` for a name that is not a string or not a table. */
  function Load(name: Syn, db: map<bytes, Stored>): (r: Option<Rel>)
    ensures r.Some? ==> name.Token? && name.v.StrV? && name.v.s in db
    ensures r.Some? ==> r.value.rows == db[name.v.s].records && r.value.infos == db[name.v.s].fields
    ensures r.Some? ==> |r.value.names| == |r.value.infos|
  {
    match name
    case Token(StrV(t)) =>
      if t in db then Some(Rel(db[t].records, Columns(t, db[t].fields), db[t].fields)) else None
    case _ => None
  }

  // -------------------------------------------------------------------
  // Cross product
  // -------------------------------------------------------------------

  /** One left row against every right row. */
  function Pairs(l: Row, rs: seq<Row>): (r: seq<Row>)
    ensures |r| == |rs|
    ensures forall j :: 0 <= j < |rs| ==> r[j] == l + rs[j]
  {
    seq(|rs|, j requires 0 <= j < |rs| => l + rs[j])
  }

  /** The nested loop: for each left row, in order, each right row, in order. */
  function CrossRows(ls: seq<Row>, rs: seq<Row>): (r: seq<Row>)
    ensures |r| == |ls| * |rs|
    decreases |ls|
  {
    if |ls| == 0 then []
    else
      var rest := CrossRows(ls[1..], rs);
      assert |ls| * |rs| == |rs| + (|ls| - 1) * |rs|;
      Pairs(ls[0], rs) + rest
  }

  /** The cross product is left-major: row `i * |rs| + j` joins left row
      `i` with right row `j`. */
  lemma {:induction false} CrossRowsAt(ls: seq<Row>, rs: seq<Row>, i: nat, j: nat)
    requires i < |ls| && j < |rs|
    ensures i * |rs| + j < |CrossRows(ls, rs)|
    ensures CrossRows(ls, rs)[i * |rs| + j] == ls[i] + rs[j]
    decreases i
  {
    if i > 0 {
      CrossRowsAt(ls[1..], rs, i - 1, j);
      assert i * |rs| + j == |rs| + ((i - 1) * |rs| + j);
    }
  }

  lemma {:induction false} CrossAppend(p: seq<Row>, q: seq<Row>, c: seq<Row>)
    ensures CrossRows(p + q, c) == CrossRows(p, c) + CrossRows(q, c)
    decreases |p|
  {
    if |p| > 0 {
      assert (p + q)[1..] == p[1..] + q;
      CrossAppend(p[1..], q, c);
    } else {
      assert p + q == q;
    }
  }

  lemma PairsAppend(l: Row, a: seq<Row>, b: seq<Row>)
    ensures Pairs(l, a + b) == Pairs(l, a) + Pairs(l, b)
  {
  }

  lemma PairsNested(a: Row, b: Row, c: seq<Row>)
    ensures Pairs(a, Pairs(b, c)) == Pairs(a + b, c)
  {
    forall j | 0 <= j < |c| ensures Pairs(a, Pairs(b, c))[j] == Pairs(a + b, c)[j] {
      assert a + (b + c[j]) == (a + b) + c[j];
    }
  }

  lemma {:induction false} PairsCross(a: Row, bs: seq<Row>, cs: seq<Row>)
    ensures CrossRows(Pairs(a, bs), cs) == Pairs(a, CrossRows(bs, cs))
    decreases |bs|
  {
    if |bs| > 0 {
      var head := Pairs(a, bs);
      assert head == [a + bs[0]] + Pairs(a, bs[1..]);
      CrossAppend([a + bs[0]], Pairs(a, bs[1..]), cs);
      PairsCross(a, bs[1..], cs);
      assert CrossRows([a + bs[0]], cs) == Pairs(a + bs[0], cs) + CrossRows([], cs);
      PairsNested(a, bs[0], cs);
      PairsAppend(a, Pairs(bs[0], cs), CrossRows(bs[1..], cs));
    }
  }

  /** Cross products associate: joining `a` with `b` and then `c` gives the
      rows, in the same order, that joining `a` with the product of `b`
      and `c` does. */
  lemma {:induction false} CrossAssociative(a: seq<Row>, b: seq<Row>, c: seq<Row>)
    ensures CrossRows(CrossRows(a, b), c) == CrossRows(a, CrossRows(b, c))
    decreases |a|
  {
    if |a| > 0 {
      CrossAppend(Pairs(a[0], b), CrossRows(a[1..], b), c);
      PairsCross(a[0], b, c);
      CrossAssociative(a[1..], b, c);
    }
  }

  /** Two relations side by side: every pairing of rows, the left columns
      then the right ones. */
  function CrossRel(a: Rel, b: Rel): (r: Rel)
    ensures |r.rows| == |a.rows| * |b.rows|
    ensures r.names == a.names + b.names && r.infos == a.infos + b.infos
  {
    Rel(CrossRows(a.rows, b.rows), a.names + b.names, a.infos + b.infos)
  }

  lemma CrossRelAssociative(a: Rel, b: Rel, c: Rel)
    ensures CrossRel(CrossRel(a, b), c) == CrossRel(a, CrossRel(b, c))
  {
    CrossAssociative(a.rows, b.rows, c.rows);
  }

  // -------------------------------------------------------------------
  // Projection
  // -------------------------------------------------------------------

  const STAR: bytes := [42]

  /** The positions of the elements `keep` accepts, in order. */
  function Positions<T>(s: seq<T>, keep: T -> bool): (r: seq<nat>)
    ensures forall k :: 0 <= k < |r| ==> r[k] < |s| && keep(s[r[k]])
    decreases |s|
  {
    if |s| == 0 then []
    else
      var rest := Positions(s[..|s| - 1], keep);
      if keep(s[|s| - 1]) then rest + [|s| - 1] else rest
  }

  /** Every accepted position is listed. */
  lemma {:induction false} PositionsComplete<T>(s: seq<T>, keep: T -> bool, j: nat)
    requires j < |s| && keep(s[j])
    ensures j in Positions(s, keep)
    decreases |s|
  {
    if j < |s| - 1 {
      var init := s[..|s| - 1];
      assert init[j] == s[j];
      PositionsComplete(init, keep, j);
    }
  }

  /** The positions are listed in increasing order. */
  lemma {:induction false} PositionsIncreasing<T>(s: seq<T>, keep: T -> bool, k1: nat, k2: nat)
    requires k1 < k2 < |Positions(s, keep)|
    ensures Positions(s, keep)[k1] < Positions(s, keep)[k2]
    decreases |s|
  {
    var init := s[..|s| - 1];
    var rest := Positions(init, keep);
    if k2 < |rest| {
      PositionsIncreasing(init, keep, k1, k2);
    } else {
      assert rest[k1] < |init|;
    }
  }

  /** The positions whose last dotted part is `s`, in order
      (`possible_matches`). */
  function EndingAt(names: seq<bytes>, s: bytes): seq<nat>
  {
    Positions(names, EndsIn(s))
  }

  lemma EndingAtSound(names: seq<bytes>, s: bytes, k: nat)
    requires k < |EndingAt(names, s)|
    ensures EndingAt(names, s)[k] < |names| && LastPart(names[EndingAt(names, s)[k]]) == s
  {
    assert EndsIn(s)(names[EndingAt(names, s)[k]]);
  }

  lemma EndingAtComplete(names: seq<bytes>, s: bytes, j: nat)
    requires j < |names| && LastPart(names[j]) == s
    ensures j in EndingAt(names, s)
  {
    assert EndsIn(s)(names[j]);
    PositionsComplete(names, EndsIn(s), j);
  }

  /** The column a projection picks for one requested entry, scanning the
      names from position `i`: an equal name wins; a dotted name whose
      second part is the request settles it by the positions whose last
      part is the request — one is picked, several are ambiguous, none lets
      the scan go on; reaching the end, the column is missing. */
  function ScanColumn(req: Syn, names: seq<bytes>, i: nat): (r: Lookup<nat>)
    requires i <= |names|
    ensures r.Hit? ==> r.found < |names|
    decreases |names| - i
  {
    if i == |names| then Missing
    else if req == Name(names[i]) then Hit(i)
    else if DOT in names[i] && req == Name(SecondPart(names[i])) then
      var possible := EndingAt(names, SecondPart(names[i]));
      if |possible| == 1 then Hit(possible[0])
      else if |possible| > 1 then Ambiguous
      else ScanColumn(req, names, i + 1)
    else ScanColumn(req, names, i + 1)
  }

  /** The column of each requested entry, in order; `None` at the first
      one that is ambiguous or missing. */
  function ResolveColumns(reqs: seq<Syn>, names: seq<bytes>): (r: Option<seq<nat>>)
    ensures r.Some? ==> |r.value| == |reqs|
    ensures r.Some? ==> forall c :: 0 <= c < |reqs| ==> ScanColumn(reqs[c], names, 0) == Hit(r.value[c])
    ensures r.None? ==> exists c :: 0 <= c < |reqs| && !ScanColumn(reqs[c], names, 0).Hit?
    decreases |reqs|
  {
    if |reqs| == 0 then Some([])
    else match ScanColumn(reqs[0], names, 0)
      case Hit(i) =>
        (match ResolveColumns(reqs[1..], names)
         case None => None
         case Some(rest) => Some([i] + rest))
      case _ => None
  }

  /** The values at the given positions, in the given order. */
  function Pick<T>(s: seq<T>, ix: seq<nat>): (r: seq<T>)
    requires forall c :: 0 <= c < |ix| ==> ix[c] < |s|
    ensures |r| == |ix| && forall c :: 0 <= c < |ix| ==> r[c] == s[ix[c]]
  {
    seq(|ix|, c requires 0 <= c < |ix| => s[ix[c]])
  }

  /** Whether every position is inside `s`. */
  predicate Inside<T>(s: seq<T>, ix: seq<nat>)
  {
    forall c :: 0 <= c < |ix| ==> ix[c] < |s|
  }

  /** A projection: `*` alone, or an empty list, keeps the relation;
      otherwise every requested entry must resolve, and each row keeps the
      resolved columns in request order. `None` for an entry that is
      ambiguous or missing, and where Python raises on a short row. */
  function ProjectRel(a: Rel, cols: seq<Syn>): (r: Option<Rel>)
    ensures |cols| == 0 || cols == [Name(STAR)] ==> r == Some(a)
    ensures (|cols| > 0 && cols != [Name(STAR)] &&
             exists c :: 0 <= c < |cols| && !ScanColumn(cols[c], a.names, 0).Hit?) ==> r.None?
    ensures r.Some? && |cols| > 0 && cols != [Name(STAR)] ==>
              |r.value.rows| == |a.rows| && |r.value.names| == |cols| && |r.value.infos| == |cols|
  {
    if |cols| == 0 || (|cols| == 1 && cols[0] == Name(STAR)) then Some(a)
    else match ResolveColumns(cols, a.names)
      case None => None
      case Some(ix) =>
        if Inside(a.infos, ix) && forall k :: 0 <= k < |a.rows| ==> Inside(a.rows[k], ix) then
          Some(Rel(seq(|a.rows|, k requires 0 <= k < |a.rows| => Pick(a.rows[k], ix)),
                   Pick(a.names, ix), Pick(a.infos, ix)))
        else None
  }

  /** What a projection's result holds: column `c` of the output is the
      source column its request resolved to — its name, its field
      descriptor, and in every row its value — and each output row has one
      value per request. */
  lemma ProjectMeaning(a: Rel, cols: seq<Syn>, c: nat, k: nat)
    requires |cols| > 0 && cols != [Name(STAR)] && ProjectRel(a, cols).Some?
    requires c < |cols| && k < |a.rows|
    ensures ScanColumn(cols[c], a.names, 0).Hit?
    ensures var i := ScanColumn(cols[c], a.names, 0).found;
            var out := ProjectRel(a, cols).value;
            && i < |a.names| && i < |a.infos| && i < |a.rows[k]|
            && out.names[c] == a.names[i]
            && out.infos[c] == a.infos[i]
            && |out.rows[k]| == |cols|
            && out.rows[k][c] == a.rows[k][i]
  {
    var ix := ResolveColumns(cols, a.names).value;
    assert Inside(a.rows[k], ix);
  }

  /** A name of the form `table.field` around its only dot, as a scan of
      a table with dot-free table and field names produces. */
  predicate Split(n: bytes) { n == Qualified(UpToDot(n), LastPart(n)) }

  /** For such a name the second and the last dotted part coincide. */
  predicate PartsAgree(n: bytes) { DOT in n && SecondPart(n) == LastPart(n) }

  lemma SplitParts(n: bytes)
    requires Split(n)
    ensures PartsAgree(n)
  {
    QualifiedParts(UpToDot(n), LastPart(n));
  }

  /** A dotted request never matches a second part, so the scan settles on
      the first position holding it, or reports it missing. */
  lemma {:induction false} ScanQualified(q: bytes, names: seq<bytes>, i: nat)
    requires DOT in q && i <= |names|
    ensures var r := ScanColumn(Name(q), names, i);
            && !r.Ambiguous?
            && (r.Hit? ==> i <= r.found && names[r.found] == q && forall j :: i <= j < r.found ==> names[j] != q)
            && (r.Missing? ==> forall j :: i <= j < |names| ==> names[j] != q)
    decreases |names| - i
  {
    if i < |names| && names[i] != q {
      if DOT in names[i] {
        assert Name(q) != Name(SecondPart(names[i]));
      }
      ScanQualified(q, names, i + 1);
    }
  }

  /** Some position from `i` on has `s` as its last part. */
  predicate EndsFrom(names: seq<bytes>, s: bytes, i: nat)
  {
    exists j :: i <= j < |names| && LastPart(names[j]) == s
  }

  /** A plain request never equals a dotted name, so the scan stops at the
      first position whose field part it is and lets the list of all such
      positions decide. */
  lemma {:induction false} ScanUnqualified(s: bytes, names: seq<bytes>, i: nat)
    requires forall j :: 0 <= j < |names| ==> PartsAgree(names[j])
    requires DOT !in s && i <= |names|
    ensures var p := EndingAt(names, s);
            ScanColumn(Name(s), names, i) ==
              if EndsFrom(names, s, i) then (if |p| == 1 then Hit(p[0]) else Ambiguous) else Missing
    decreases |names| - i
  {
    if i < |names| {
      if LastPart(names[i]) == s {
        ScanSettles(s, names, i);
      } else {
        ScanSkips(s, names, i);
        ScanUnqualified(s, names, i + 1);
      }
    }
  }

  /** At a name whose field part is the plain request, the scan settles on
      the list of all such positions. */
  lemma ScanSettles(s: bytes, names: seq<bytes>, i: nat)
    requires i < |names| && PartsAgree(names[i]) && DOT !in s && LastPart(names[i]) == s
    ensures var p := EndingAt(names, s);
            EndsFrom(names, s, i) &&
            ScanColumn(Name(s), names, i) == if |p| == 1 then Hit(p[0]) else Ambiguous
  {
    assert names[i] != s;
    EndingAtComplete(names, s, i);
  }

  /** Past any other name, the plain request's scan goes on unchanged. */
  lemma ScanSkips(s: bytes, names: seq<bytes>, i: nat)
    requires i < |names| && PartsAgree(names[i]) && DOT !in s && LastPart(names[i]) != s
    ensures ScanColumn(Name(s), names, i) == ScanColumn(Name(s), names, i + 1)
    ensures EndsFrom(names, s, i) <==> EndsFrom(names, s, i + 1)
  {
    assert names[i] != s;
  }

  /** How a projection resolves a request. A dotted request picks the
      first position holding it, or is missing. Against `table.field`
      names, a plain request is missing when no field part equals it,
      ambiguous when two positions have it as field part, and otherwise
      picks the one position that does. */
  lemma ColumnResolution(q: bytes, names: seq<bytes>)
    ensures DOT in q ==>
              var r := ScanColumn(Name(q), names, 0);
              && (r.Hit? <==> q in names)
              && (r.Hit? ==> names[r.found] == q && forall j :: 0 <= j < r.found ==> names[j] != q)
    ensures DOT !in q && (forall j :: 0 <= j < |names| ==> Split(names[j])) ==>
              var r := ScanColumn(Name(q), names, 0);
              && (r == Missing <==> forall j :: 0 <= j < |names| ==> LastPart(names[j]) != q)
              && (r == Ambiguous <==> TwoEndIn(names, q))
              && (r.Hit? ==> forall j :: 0 <= j < |names| ==> (LastPart(names[j]) == q <==> j == r.found))
  {
    if DOT in q {
      ScanQualified(q, names, 0);
    } else if forall j :: 0 <= j < |names| ==> Split(names[j]) {
      forall j | 0 <= j < |names| ensures PartsAgree(names[j]) {
        SplitParts(names[j]);
      }
      ScanUnqualified(q, names, 0);
      UnqualifiedVerdict(q, names);
    }
  }

  /** How many positions have `s` as last part decides between a hit, an
      ambiguity and a miss. */
  lemma UnqualifiedVerdict(s: bytes, names: seq<bytes>)
    ensures var p := EndingAt(names, s);
            && (EndsFrom(names, s, 0) <==> |p| > 0)
            && (|p| >= 2 <==> TwoEndIn(names, s))
            && (|p| == 1 ==> forall j :: 0 <= j < |names| ==> (LastPart(names[j]) == s <==> j == p[0]))
  {
    var p := EndingAt(names, s);
    AllListed(names, s);
    if |p| >= 2 {
      ListedTwice(names, s);
    }
    if TwoEndIn(names, s) {
      var j1, j2 :| 0 <= j1 < j2 < |names| && LastPart(names[j1]) == s && LastPart(names[j2]) == s;
      TwoMembers(p, j1, j2);
    }
    if |p| > 0 {
      EndingAtSound(names, s, 0);
    }
  }

  /** Two different positions have `s` as last part. */
  predicate TwoEndIn(names: seq<bytes>, s: bytes)
  {
    exists j1, j2 :: 0 <= j1 < j2 < |names| && LastPart(names[j1]) == s && LastPart(names[j2]) == s
  }

  lemma TwoMembers(p: seq<nat>, a: nat, b: nat)
    requires a in p && b in p && a != b
    ensures |p| >= 2
  {
    var ka :| 0 <= ka < |p| && p[ka] == a;
    var kb :| 0 <= kb < |p| && p[kb] == b;
    assert ka != kb;
  }

  lemma AllListed(names: seq<bytes>, s: bytes)
    ensures forall j :: 0 <= j < |names| && LastPart(names[j]) == s ==> j in EndingAt(names, s)
  {
    forall j | 0 <= j < |names| && LastPart(names[j]) == s ensures j in EndingAt(names, s) {
      EndingAtComplete(names, s, j);
    }
  }

  lemma ListedTwice(names: seq<bytes>, s: bytes)
    requires |EndingAt(names, s)| >= 2
    ensures TwoEndIn(names, s)
  {
    var p := EndingAt(names, s);
    PositionsIncreasing(names, EndsIn(s), 0, 1);
    EndingAtSound(names, s, 0);
    EndingAtSound(names, s, 1);
  }

  // -------------------------------------------------------------------
  // Evaluation
  // -------------------------------------------------------------------

  /** `execute_logical_tree_recursive`: each node's relation from its
      children's; `None` when a child has none, a table is unknown, a
      condition raises on some row or a projection fails. */
  function Execute(p: Plan, db: map<bytes, Stored>): (r: Option<Rel>)
    decreases p
  {
    match p
    case Table(name) => Load(name, db)
    case Cross(l, rt) =>
      (match (Execute(l, db), Execute(rt, db))
       case (Some(a), Some(b)) => Some(CrossRel(a, b))
       case _ => None)
    case Where(src, c) =>
      (match Execute(src, db)
       case None => None
       case Some(a) =>
         if !Truthy(c) then Some(a)
         else
           (match SelectRows(a.rows, c, a.names, a.infos)
            case None => None
            case Some(kept) => Some(a.(rows := kept))))
    case Proj(src, cols) =>
      match Execute(src, db)
      case None => None
      case Some(a) => ProjectRel(a, cols)
  }

  /** The relations of the named tables, or `None` if one is unknown. */
  function LoadAll(tables: seq<Syn>, db: map<bytes, Stored>): (r: Option<seq<Rel>>)
    ensures r.Some? ==> |r.value| == |tables|
    ensures r.Some? ==> forall i :: 0 <= i < |tables| ==> Load(tables[i], db) == Some(r.value[i])
    ensures r.None? ==> exists i :: 0 <= i < |tables| && Load(tables[i], db).None?
    decreases |tables|
  {
    if |tables| == 0 then Some([])
    else
      var init := tables[..|tables| - 1];
      var last := tables[|tables| - 1];
      match (LoadAll(init, db), Load(last, db))
      case (Some(rs), Some(r)) => Some(rs + [r])
      case (None, _) =>
        var i :| 0 <= i < |init| && Load(init[i], db).None?;
        assert tables[i] == init[i];
        None
      case (_, None) => None
  }

  /** The product of relations nested to the right — the reference the
      left-deep tree must agree with. */
  function Product(rels: seq<Rel>): Rel
    requires |rels| > 0
    decreases |rels|
  {
    if |rels| == 1 then rels[0] else CrossRel(rels[0], Product(rels[1..]))
  }

  /** Adding a relation at the right end of a product is a cross product
      with it. */
  lemma {:induction false} ProductSnoc(rels: seq<Rel>, r: Rel)
    requires |rels| > 0
    ensures Product(rels + [r]) == CrossRel(Product(rels), r)
    decreases |rels|
  {
    if |rels| > 1 {
      assert (rels + [r])[1..] == rels[1..] + [r];
      ProductSnoc(rels[1..], r);
      CrossRelAssociative(rels[0], Product(rels[1..]), r);
    } else {
      assert rels + [r] == [rels[0], r];
      assert [rels[0], r][1..] == [r];
    }
  }

  /** The join tree of the from list evaluates to the product of its
      tables: every combination of rows, first table outermost, columns in
      table order. */
  lemma {:induction false} JoinTreeProduct(tables: seq<Syn>, db: map<bytes, Stored>, rels: seq<Rel>)
    requires |tables| > 0 && LoadAll(tables, db) == Some(rels)
    ensures Execute(JoinTree(tables), db) == Some(Product(rels))
    decreases |tables|
  {
    if |tables| > 1 {
      var init := tables[..|tables| - 1];
      var last := tables[|tables| - 1];
      var lr := LoadAll(init, db);
      assert lr.Some? && rels == lr.value + [rels[|rels| - 1]];
      JoinTreeProduct(init, db, lr.value);
      ProductSnoc(lr.value, rels[|rels| - 1]);
    }
  }

  /** A table that is not there leaves the whole join without a result. */
  lemma {:induction false} JoinTreeMissingTable(tables: seq<Syn>, db: map<bytes, Stored>, i: nat)
    requires i < |tables| && Load(tables[i], db).None?
    ensures Execute(JoinTree(tables), db).None?
    decreases |tables|
  {
    if |tables| > 1 && i < |tables| - 1 {
      var init := tables[..|tables| - 1];
      assert init[i] == tables[i];
      JoinTreeMissingTable(init, db, i);
    }
  }

  /** A scan of a table whose name and field names hold no dot names its
      columns `table.field` around their only dot. */
  lemma ScanNamesSplit(table: bytes, fields: seq<Field>)
    requires DOT !in table
    requires forall i :: 0 <= i < |fields| ==> DOT !in FieldName(AsStr, fields[i])
    ensures forall j :: 0 <= j < |fields| ==> Split(Columns(table, fields)[j])
  {
    forall j | 0 <= j < |fields| ensures Split(Columns(table, fields)[j]) {
      QualifiedParts(table, FieldName(AsStr, fields[j]));
    }
  }

  /** From syntax tree to result: `SELECT * FROM t1, ..., tn` evaluates to
      the product of the tables, and to nothing when one is unknown. */
  lemma StarQuery(tables: seq<Syn>, db: map<bytes, Stored>)
    requires |tables| > 0
    ensures var q := ExtractSfw(Some(QueryTree([Name(STAR)], tables, None)));
            && q == Some(Sfw([Name(STAR)], tables, None))
            && BuildPlan(q.value).Some?
            && var result := Execute(BuildPlan(q.value).value, db);
               && (LoadAll(tables, db).Some? ==> result == Some(Product(LoadAll(tables, db).value)))
               && (LoadAll(tables, db).None? ==> result.None?)
  {
    ExtractQueryTree([Name(STAR)], tables, None);
    var p := BuildPlan(Sfw([Name(STAR)], tables, None)).value;
    assert p == Proj(JoinTree(tables), [Name(STAR)]);
    match LoadAll(tables, db)
    case Some(rels) => JoinTreeProduct(tables, db, rels);
    case None =>
      var i :| 0 <= i < |tables| && Load(tables[i], db).None?;
      JoinTreeMissingTable(tables, db, i);
  }
}

=== FILE: records.dfy ===
/** Field descriptors and the typed values a table handle caches: Python's
    `str()` and `==` on them, and the per-type decoding the table
    constructor applies to the fixed-width text of a record. */
module Records {
  import opened Common

  const STRING: int := 0
  const VARSTRING: int := 1
  const INTEGER: int := 2
  const BOOLEAN: int := 3

  /** A directory-block descriptor `(name[10], type_code, max_length)`. */
  datatype Field = Field(name: bytes, kind: int, length: nat)

  /** A cached field value: a Python `int`, `bool`, `str` (held as its
      ASCII bytes) or `bytes` object. */
  datatype Value = IntV(i: int) | BoolV(b: bool) | StrV(s: bytes) | BytesV(raw: bytes)

  type Row = seq<Value>

  predicate IsText(f: Field) { f.kind == STRING || f.kind == VARSTRING }

  /** The four type codes the schema prompt accepts. */
  predicate KnownKind(f: Field) { 0 <= f.kind <= 3 }

  /** A field's name as the stores compare it: stripped as `bytes` where the
      raw name is stripped, or decoded and stripped as a `str`. */
  function FieldName(w: Spacing, f: Field): bytes { Strip(w, f.name) }

  /** Python `str(v)`; a `bytes` object shows as its repr `b'...'`
      (printable ASCII assumed, so no escapes). */
  function PyStr(v: Value): bytes
  {
    match v
    case IntV(i) => ShowInt(i)
    case BoolV(b) => if b then Ascii("True") else Ascii("False")
    case StrV(s) => s
    case BytesV(r) => Ascii("b'") + r + Ascii("'")
  }

  function BoolInt(b: bool): int { if b then 1 else 0 }

  /** Python `a == b`: `bool` compares as the integers 0 and 1, and a `str`
      never equals a `bytes` object. */
  predicate PyEq(a: Value, b: Value)
  {
    match (a, b)
    case (IntV(x), IntV(y)) => x == y
    case (IntV(x), BoolV(y)) => x == BoolInt(y)
    case (BoolV(x), IntV(y)) => BoolInt(x) == y
    case (BoolV(x), BoolV(y)) => x == y
    case (StrV(x), StrV(y)) => x == y
    case (BytesV(x), BytesV(y)) => x == y
    case _ => false
  }

  /** `t.lower() in ('true', '1', 'yes', 't')`: how the constructor reads a boolean. */
  predicate StoredTrue(t: bytes)
  {
    var l := Lower(t);
    l == Ascii("true") || l == Ascii("1") || l == Ascii("yes") || l == Ascii("t")
  }

  /** `v.lower() in ('true', '1', 'yes')`: how update and delete read a boolean argument. */
  predicate ArgumentTrue(t: bytes)
  {
    var l := Lower(t);
    l == Ascii("true") || l == Ascii("1") || l == Ascii("yes")
  }

  /** The constructor's reading of one field's fixed-width text: strip, then
      `int()` for integers (`None` when it raises), the truth words for
      booleans, the text itself otherwise. */
  function DecodeField(f: Field, chunk: bytes): Option<Value>
  {
    DecodeStripped(f, Strip(AsStr, chunk))
  }

  /** The reading of a field's already stripped text. */
  function DecodeStripped(f: Field, t: bytes): Option<Value>
  {
    if f.kind == INTEGER then
      match ParseInt(AsStr, t)
      case Some(x) => Some(IntV(x))
      case None => None
    else if f.kind == BOOLEAN then Some(BoolV(StoredTrue(t)))
    else Some(StrV(t))
  }

  /** Sum of the declared field lengths: the width of a record's content. */
  function ContentLen(fields: seq<Field>): nat
  {
    if |fields| == 0 then 0 else fields[0].length + ContentLen(fields[1..])
  }

  /** Decode a record's content field by field, each taking its declared
      width (`record[tmp:tmp + length]`, clipped at the end like a Python slice). */
  function DecodeRow(fields: seq<Field>, content: bytes): (r: Option<Row>)
    ensures r.Some? ==> |r.value| == |fields|
    decreases |fields|
  {
    if |fields| == 0 then Some([])
    else
      var n := Min(fields[0].length, |content|);
      match DecodeField(fields[0], content[..n])
      case None => None
      case Some(v) =>
        match DecodeRow(fields[1..], content[n..])
        case None => None
        case Some(rest) => Some([v] + rest)
  }

  /** Flatten a list of byte strings (`''.join(...)`). */
  function Concat(parts: seq<bytes>): (r: bytes)
    ensures |parts| == 0 ==> r == []
  {
    if |parts| == 0 then [] else parts[0] + Concat(parts[1..])
  }
}

=== FILE: store_agreement.dfy ===
/** How the two table stores relate: the logged store's insert writes and
    returns exactly what the plain store's does, its delete drops the same
    records, and its update differs from the plain one only on text fields. */
module StoreAgreement {
  import opened Common
  import opened Records
  import opened TableLayout
  import opened TableOps
  import opened Transactions
  import LoggedStore
  import PlainStore

  /** Logging changes nothing an insert writes or returns: the logged
      store's table and result are the plain store's. */
  lemma InsertsAgree(s: LoggedStore.Store, m: Manager, input: seq<bytes>, now: Stamp)
    requires Inv(m) && Headroom(m, 2)
    ensures var l := LoggedStore.Insert(s, m, input, now);
            var p := PlainStore.Insert(s.table, input);
            l.store.table == p.table && l.outcome == p.outcome
  {
    var c := LoggedStore.Enter(s, m, now);
    match CheckInput(s.table.fields, input)
    case Missing =>
    case Refused =>
    case Accepted(row, text) =>
      assert LoggedStore.Insert(s, m, input, now) == LoggedStore.InsertAccepted(c, row, text, now);
      assert PlainStore.Insert(s.table, input) == PlainStore.InsertAccepted(s.table, row, text);
      AcceptedAgree(c, row, text, now);
  }

  lemma AcceptedAgree(c: LoggedStore.Context, row: Row, text: bytes, now: Stamp)
    requires Inv(c.manager) && Headroom(c.manager, 2)
    ensures var l := LoggedStore.InsertAccepted(c, row, text, now);
            var p := PlainStore.InsertAccepted(c.store.table, row, text);
            l.store.table == p.table && l.outcome == p.outcome
  {
    var (t1, slot) := Append(c.store.table, row, text);
    var w := WriteInserted(t1.file, t1.dataBlocks, slot, text);
    if w.complete {
      var m2 := LogBoth(c.manager, c.id, c.store.name, slot.block,
                        LoggedStore.BlockOf(t1.file, slot.block), LoggedStore.BlockOf(w.file, slot.block), now);
      assert LoggedStore.InsertAccepted(c, row, text, now) ==
             LoggedStore.Leave(c.(store := c.store.(table := t1.(file := w.file)), manager := m2), now, true);
    }
  }

  /** Every cached value renders the same in both stores: no `bytes` value,
      and nothing wider than its field. */
  predicate RendersAlike(fields: seq<Field>, rows: seq<Row>)
  {
    forall row: Row, j :: row in rows && 0 <= j < |row| && j < |fields| ==>
      !row[j].BytesV? && |PyStr(row[j])| <= fields[j].length
  }

  /** Records that render alike give the same texts to repack. */
  lemma ContentsAgree(fields: seq<Field>, rows: seq<Row>)
    requires RendersAlike(fields, rows)
    ensures Contents(fields, rows, true) == Contents(fields, rows, false)
  {
    forall i | 0 <= i < |rows|
      ensures RowChunks(fields, rows[i], true) == RowChunks(fields, rows[i], false)
    {
      var row := rows[i];
      forall j | 0 <= j < Min(|fields|, |row|)
        ensures RenderLoose(row[j], fields[j].length) == RenderFixed(row[j], fields[j].length)
      {
        RenderingsAgree(row[j], fields[j].length);
      }
    }
  }

  /** Both deletes drop the same records and report the same result; when
      every cached value renders alike they also leave the same file. */
  lemma DeletesAgree(s: LoggedStore.Store, m: Manager, name: bytes, value: bytes, now: Stamp)
    requires Inv(m) && Headroom(m, 2)
    ensures var l := LoggedStore.Delete(s, m, name, value, now);
            var p := PlainStore.Delete(s.table, name, value);
            l.outcome == p.outcome && l.store.table.records == p.table.records &&
            (RendersAlike(s.table.fields, s.table.records) ==> l.store.table.file == p.table.file)
  {
    var l := LoggedStore.Delete(s, m, name, value, now);
    var p := PlainStore.Delete(s.table, name, value);
    if p.outcome == Done(true) {
      var (k, target) := DeleteTarget(s.table.fields, name, value).value;
      var rows := s.table.records;
      var kept := KeepRows(rows, k, DeleteMatcher(s.table.fields[k], target));
      if RendersAlike(s.table.fields, rows) {
        assert RendersAlike(s.table.fields, kept);
        ContentsAgree(s.table.fields, kept);
      }
    }
  }

  /** Off text fields the two updates agree: for a name with no surrounding
      whitespace, in a table whose field names strip alike as `bytes` and as
      `str`, an integer or boolean field gets the same records and the same
      result from both. */
  lemma UpdatesAgreeOnNumbers(s: LoggedStore.Store, m: Manager, name: bytes, prev: bytes, next: bytes, now: Stamp)
    requires Inv(m) && Headroom(m, 2) && Stripped(AsStr, name) && NamesStripAlike(s.table.fields)
    requires FindField(AsStr, s.table.fields, name).Some?
    requires s.table.fields[FindField(AsStr, s.table.fields, name).value].kind in {INTEGER, BOOLEAN}
    ensures var l := LoggedStore.Update(s, m, name, prev, next, now);
            var p := PlainStore.Update(s.table, name, prev, next);
            l.outcome == p.outcome && l.store.table.records == p.table.records
  {
    TargetsAgree(s.table.fields, name, prev, next);
    match PlainStore.UpdateTarget(s.table.fields, name, prev, next)
    case None =>
    case Some((k, ch)) =>
      var rows := s.table.records;
      var mt := Matcher(s.table.fields[k], ch.target);
      MatchersAgree(rows[..FirstShort(rows, k)], k, mt, PlainStore.EqMatcher(ch.target), ch.next);
      MatchersAgree(rows, k, mt, PlainStore.EqMatcher(ch.target), ch.next);
  }

  /** Both updates find the same integer or boolean field and type its
      arguments alike, when the field names strip alike. */
  lemma TargetsAgree(fields: seq<Field>, name: bytes, prev: bytes, next: bytes)
    requires Stripped(AsStr, name) && NamesStripAlike(fields) && FindField(AsStr, fields, name).Some?
    requires fields[FindField(AsStr, fields, name).value].kind in {INTEGER, BOOLEAN}
    ensures LoggedStore.UpdateTarget(fields, name, prev, next) == PlainStore.UpdateTarget(fields, name, prev, next)
  {
    StrippedAsBytes(name);
    PlainStore.LookupStripped(name);
    LookupsAgree(fields, name, 0);
    var f := fields[FindField(AsStr, fields, name).value];
    assert LoggedStore.UpdateArgs(f, prev, next) == PlainStore.UpdateArgs(f, prev, next);
  }

  /** Field names that `bytes.strip()` and `str.strip()` reduce to the same
      text: none has an ASCII separator 0x1c-0x1f at its stripped edge. */
  predicate NamesStripAlike(fields: seq<Field>)
  {
    forall k :: 0 <= k < |fields| ==> FieldName(AsBytes, fields[k]) == FieldName(AsStr, fields[k])
  }

  /** Where the names strip alike, the plain store's `bytes` lookup and the
      logged store's `str` lookup find the same field. */
  lemma {:induction false} LookupsAgree(fields: seq<Field>, name: bytes, i: nat)
    requires NamesStripAlike(fields) && i <= |fields|
    ensures FindFrom(AsBytes, fields, name, i) == FindFrom(AsStr, fields, name, i)
    decreases |fields| - i
  {
    if i < |fields| {
      LookupsAgree(fields, name, i + 1);
    }
  }

  /** A field named `a` followed by the separator 0x1f: the logged update
      finds it under `a`, while the plain update's `bytes` lookup does not. */
  lemma LookupsDiffer()
    ensures var fields := [Field([97, 31], INTEGER, 4)];
            LoggedStore.UpdateTarget(fields, [97], ShowInt(1), ShowInt(2)) == Some((0, Change(IntV(1), IntV(2)))) &&
            PlainStore.UpdateTarget(fields, [97], ShowInt(1), ShowInt(2)).None?
  {
    var fields := [Field([97, 31], INTEGER, 4)];
    SeparatorStrips();
    assert FindField(AsStr, fields, [97]) == Some(0);
    PlainLookupOfA();
    assert FindField(AsBytes, fields, [97]).None?;
    ParseShowInt(AsStr, 1);
    ParseShowInt(AsStr, 2);
  }

  lemma PlainLookupOfA()
    ensures PlainStore.LookupName([97]) == [97]
  {
    assert LJust([97], 10) == Spaces(0) + [97] + Spaces(9);
    StripPadded(AsBytes, [97], 0, 9);
  }
}

=== FILE: table_facts.dfy ===
/** Properties of the table file layout: what the constructor reads back
    after an insert or a repack, where records are placed, and what the
    insert writes leave untouched. */
module TableFacts {
  import opened Common
  import opened Records
  import opened TableLayout

  // ---------------------------------------------------------------------
  // Decoding joined fixed-width text
  // ---------------------------------------------------------------------

  /** Every chunk decodes, under its field, to the row's value at that index. */
  predicate DecodesTo(fields: seq<Field>, chunks: seq<bytes>, row: Row)
  {
    |chunks| == |fields| && |row| == |fields| &&
    forall k :: 0 <= k < |fields| ==>
      |chunks[k]| == fields[k].length && DecodeField(fields[k], chunks[k]) == Some(row[k])
  }

  /** Field-width chunks joined together decode chunk by chunk. */
  lemma {:induction false} DecodeJoined(fields: seq<Field>, chunks: seq<bytes>, row: Row)
    requires DecodesTo(fields, chunks, row)
    ensures |Concat(chunks)| == ContentLen(fields)
    ensures DecodeRow(fields, Concat(chunks)) == Some(row)
    decreases |fields|
  {
    if |fields| > 0 {
      assert DecodesTo(fields[1..], chunks[1..], row[1..]) by {
        forall k | 0 <= k < |fields| - 1
          ensures |chunks[1..][k]| == fields[1..][k].length
          ensures DecodeField(fields[1..][k], chunks[1..][k]) == Some(row[1..][k])
        {
          assert chunks[1..][k] == chunks[k + 1] && fields[1..][k] == fields[k + 1];
        }
      }
      DecodeJoined(fields[1..], chunks[1..], row[1..]);
      var s := Concat(chunks);
      assert s == chunks[0] + Concat(chunks[1..]);
      var n := fields[0].length;
      assert Min(n, |s|) == n;
      assert s[..n] == chunks[0];
      assert s[n..] == Concat(chunks[1..]);
      assert DecodeField(fields[0], s[..n]) == Some(row[0]);
      DecodeRowStep(fields, s, row[0], row[1..]);
      assert row == [row[0]] + row[1..];
      assert |s| == ContentLen(fields);
    }
  }

  /** One step of the constructor's field loop. */
  lemma DecodeRowStep(fields: seq<Field>, content: bytes, v: Value, rest: Row)
    requires |fields| > 0 && fields[0].length <= |content|
    requires DecodeField(fields[0], content[..fields[0].length]) == Some(v)
    requires DecodeRow(fields[1..], content[fields[0].length..]) == Some(rest)
    ensures DecodeRow(fields, content) == Some([v] + rest)
  {
  }

  /** Left padding is undone by the constructor's strip. */
  lemma PadLeftStripped(v: bytes, n: int)
    requires Stripped(AsStr, v) && |v| <= n
    ensures Strip(AsStr, PadLeft(v, n)) == v
  {
    StripPadded(AsStr, v, n - |v|, 0);
    assert PadLeft(v, n) == Spaces(n - |v|) + v + Spaces(0);
  }

  /** Right padding is undone by the constructor's strip. */
  lemma LJustStripped(v: bytes, n: int)
    requires Stripped(AsStr, v) && |v| <= n
    ensures Strip(AsStr, LJust(v, n)) == v
  {
    StripPadded(AsStr, v, 0, n - |v|);
    assert LJust(v, n) == Spaces(0) + v + Spaces(n - |v|);
  }

  // ---------------------------------------------------------------------
  // Insert, then reopen
  // ---------------------------------------------------------------------

  /** Every value fits its declared width, so no padded field spills into the next. */
  predicate InputFits(fields: seq<Field>, input: seq<bytes>)
  {
    |input| == |fields| &&
    forall k :: 0 <= k < |fields| ==> KnownKind(fields[k]) && |Strip(AsStr, input[k])| <= fields[k].length
  }

  /** What reopening shows for an inserted value: the cached value, except
      that a boolean is re-read through the truth words. */
  function RereadField(f: Field, v: bytes, cached: Value): Value
  {
    if f.kind == BOOLEAN then BoolV(StoredTrue(v)) else cached
  }

  /** The text `insert_record` writes decodes, field by field, to the cached
      strings and integers; a boolean comes back as what its stripped text
      spells among the truth words. */
  lemma InsertThenDecode(fields: seq<Field>, input: seq<bytes>, row: Row, text: bytes)
    requires InputFits(fields, input)
    requires CheckInput(fields, input) == Accepted(row, text)
    ensures |row| == |fields|
    ensures DecodeRow(fields, text) == Some(Reread(fields, input, row))
  {
    assert forall k :: 0 <= k < |fields| ==> KnownKind(fields[k]);
    assert Concat(input[|fields|..]) == [] by {
      assert input[|fields|..] == [];
    }
    assert text == Concat(FieldTexts(fields, input));
    DecodeKept(fields, input, row);
  }

  /** What reopening shows for an accepted record's cached row. */
  function Reread(fields: seq<Field>, input: seq<bytes>, row: Row): (r: Row)
    requires |input| == |fields| == |row|
    ensures |r| == |row|
  {
    seq(|fields|, k requires 0 <= k < |fields| => RereadField(fields[k], Strip(AsStr, input[k]), row[k]))
  }

  /** The padded texts of kept values decode to the values reopening shows. */
  lemma DecodeKept(fields: seq<Field>, input: seq<bytes>, row: Row)
    requires InputFits(fields, input) && |row| == |fields|
    requires forall k :: 0 <= k < |fields| ==> KeptAt(fields, input, row, 0, k)
    ensures DecodeRow(fields, Concat(FieldTexts(fields, input))) == Some(Reread(fields, input, row))
  {
    var chunks := FieldTexts(fields, input);
    var back := Reread(fields, input, row);
    forall k | 0 <= k < |fields|
      ensures |chunks[k]| == fields[k].length && DecodeField(fields[k], chunks[k]) == Some(back[k])
    {
      assert KeptAt(fields, input, row, 0, k);
      FieldRoundTrip(fields[k], input[k], row[k]);
    }
    DecodeJoined(fields, chunks, back);
  }

  /** One field: the padded text reads back as the cached value, booleans re-read. */
  lemma FieldRoundTrip(f: Field, input: bytes, cached: Value)
    requires KnownKind(f) && |Strip(AsStr, input)| <= f.length
    requires CheckField(f, Strip(AsStr, input)) == Keep(cached)
    ensures |FieldText(f, input)| == f.length
    ensures DecodeField(f, FieldText(f, input)) == Some(RereadField(f, Strip(AsStr, input), cached))
  {
    var v := Strip(AsStr, input);
    PadLeftStripped(v, f.length);
    assert DecodeField(f, FieldText(f, input)) == DecodeStripped(f, v);
    KeptDecodes(f, v, cached);
  }

  /** A value the insert keeps reads back from its stripped text, booleans re-read. */
  lemma KeptDecodes(f: Field, v: bytes, cached: Value)
    requires KnownKind(f) && CheckField(f, v) == Keep(cached)
    ensures DecodeStripped(f, v) == Some(RereadField(f, v, cached))
  {
  }

  /** As written, a cached boolean can disagree with what reopening shows:
      `bool('no')` is true, but the stored text `no` reads back as false. */
  lemma BoolCacheDisagrees()
    ensures var fields := [Field(Ascii("flag"), BOOLEAN, 5)];
            var input := [Ascii("no")];
            CheckInput(fields, input) == Accepted([BoolV(true)], Ascii("   no")) &&
            DecodeRow(fields, Ascii("   no")) == Some([BoolV(false)])
  {
    NoAccepted([Field(Ascii("flag"), BOOLEAN, 5)], [Ascii("no")]);
    NoReadsFalse([Field(Ascii("flag"), BOOLEAN, 5)], Ascii("   no"));
  }

  /** Reopened, the stored text `   no` of a boolean field reads as false. */
  lemma NoReadsFalse(fields: seq<Field>, content: bytes)
    requires fields == [Field(Ascii("flag"), BOOLEAN, 5)] && content == Ascii("   no")
    ensures DecodeRow(fields, content) == Some([BoolV(false)])
  {
    NoStripsToNo();
    NoIsNotTrue();
    DecodeSingle(fields[0], content, BoolV(false));
  }

  lemma NoStripsToNo()
    ensures Strip(AsStr, Ascii("   no")) == Ascii("no")
  {
    assert Stripped(AsStr, Ascii("no"));
    assert PadLeft(Ascii("no"), 5) == Ascii("   no");
    PadLeftStripped(Ascii("no"), 5);
  }

  lemma NoIsNotTrue()
    ensures !StoredTrue(Ascii("no"))
  {
    assert Lower(Ascii("no")) == Ascii("no");
  }

  /** A one-field row decodes to the field's value. */
  lemma DecodeSingle(f: Field, content: bytes, v: Value)
    requires |content| == f.length && DecodeField(f, content) == Some(v)
    ensures DecodeRow([f], content) == Some([v])
  {
    assert content[..|content|] == content && content[|content|..] == [];
    assert [f][1..] == [];
    DecodeRowStep([f], content, v, []);
    assert [v] + [] == [v];
  }

  /** The record `no` for a five-byte boolean field is accepted, cached as
      `bool('no')`, and written padded to `   no`. */
  lemma NoAccepted(fields: seq<Field>, input: seq<bytes>)
    requires fields == [Field(Ascii("flag"), BOOLEAN, 5)] && input == [Ascii("no")]
    ensures CheckInput(fields, input) == Accepted([BoolV(true)], Ascii("   no"))
  {
    StripNoop(AsStr, Ascii("no"));
    assert !RefusesAt(fields, input, 0);
    var c := CheckInput(fields, input);
    assert KeptAt(fields, input, c.row, 0, 0);
    assert FieldTexts(fields, input) == [PadLeft(Ascii("no"), 5)];
    assert PadLeft(Ascii("no"), 5) == Ascii("   no");
    assert c.text == Ascii("   no") + Concat([]) by {
      assert input[|fields|..] == [];
    }
  }

  /** The boolean reading that agrees with the constructor: the truth words. */
  function CheckFieldIntended(f: Field, v: bytes): (r: FieldCheck)
    ensures f.kind != BOOLEAN ==> r == CheckField(f, v)
    ensures f.kind == BOOLEAN ==> r == Keep(BoolV(StoredTrue(v)))
  {
    if f.kind == BOOLEAN then Keep(BoolV(StoredTrue(v))) else CheckField(f, v)
  }

  /** With the intended boolean reading, every accepted value that fits its
      width is exactly what reopening the table shows. */
  lemma IntendedFieldRoundTrip(f: Field, input: bytes)
    requires KnownKind(f) && |Strip(AsStr, input)| <= f.length
    requires CheckFieldIntended(f, Strip(AsStr, input)).Keep?
    ensures DecodeField(f, FieldText(f, input)) == Some(CheckFieldIntended(f, Strip(AsStr, input)).v)
  {
    var v := Strip(AsStr, input);
    PadLeftStripped(v, f.length);
    assert DecodeField(f, FieldText(f, input)) == DecodeStripped(f, v);
    IntendedDecodes(f, v);
  }

  lemma IntendedDecodes(f: Field, v: bytes)
    requires KnownKind(f) && CheckFieldIntended(f, v).Keep?
    ensures DecodeStripped(f, v) == Some(CheckFieldIntended(f, v).v)
  {
  }

  // ---------------------------------------------------------------------
  // The insert writes
  // ---------------------------------------------------------------------

  /** The new slot's directory entry stays clear of its own payload. */
  predicate SlotFits(slot: Slot, contentLen: nat)
  {
    (slot.index + 1) * (RECORD_HEAD_LEN + contentLen + SLOT_LEN) <= BLOCK_SIZE - BLOCK_HEAD_LEN
  }

  /** Inside the target block, the writes touch only the block header, the
      new slot's offset entry and its payload. */
  predicate Touched(slot: Slot, contentLen: nat, i: int)
  {
    var base := BLOCK_SIZE * slot.block;
    var rl := RECORD_HEAD_LEN + contentLen;
    i < 8 ||
    base <= i < base + BLOCK_HEAD_LEN ||
    base + SlotPos(slot.index) <= i < base + SlotPos(slot.index) + SLOT_LEN ||
    base + PayloadPos(slot.index, rl) <= i < base + PayloadPos(slot.index - 1, rl)
  }

  /** The payload offset of a fitting slot lies past its own directory entry. */
  lemma FitsBelow(slot: Slot, contentLen: nat)
    requires SlotFits(slot, contentLen)
    ensures var begin := PayloadPos(slot.index, RECORD_HEAD_LEN + contentLen);
            SlotPos(slot.index) + SLOT_LEN <= begin && begin + RECORD_HEAD_LEN + contentLen <= BLOCK_SIZE
  {
    var rl := RECORD_HEAD_LEN + contentLen;
    var j := slot.index;
    assert (j + 1) * (rl + SLOT_LEN) == (j + 1) * rl + (j + 1) * SLOT_LEN;
    assert (j + 1) * rl == j * rl + rl;
  }

  /** Four writes to ascending, disjoint ranges all stay in place, and every
      byte outside them keeps its value. */
  lemma AscendingWrites(file: bytes, p1: nat, d1: bytes, p2: nat, d2: bytes, p3: nat, d3: bytes, p4: nat, d4: bytes)
    requires p1 + |d1| <= p2 && p2 + |d2| <= p3 && p3 + |d3| <= p4
    ensures var f := WriteAt(WriteAt(WriteAt(WriteAt(file, p1, d1), p2, d2), p3, d3), p4, d4);
            Holds(f, p1, d1) && Holds(f, p2, d2) && Holds(f, p3, d3) && Holds(f, p4, d4) &&
            |f| >= |file| &&
            forall i :: (0 <= i < |file| && !(p1 <= i < p1 + |d1|) && !(p2 <= i < p2 + |d2|) &&
                         !(p3 <= i < p3 + |d3|) && !(p4 <= i < p4 + |d4|)) ==> f[i] == file[i]
  {
    var f1 := WriteAt(file, p1, d1);
    var f2 := WriteAt(f1, p2, d2);
    var f3 := WriteAt(f2, p3, d3);
    var f4 := WriteAt(f3, p4, d4);
    HoldsWritten(file, p1, d1);
    HoldsKept(f1, p2, d2, p1, d1);
    HoldsKept(f2, p3, d3, p1, d1);
    HoldsKept(f3, p4, d4, p1, d1);
    HoldsWritten(f1, p2, d2);
    HoldsKept(f2, p3, d3, p2, d2);
    HoldsKept(f3, p4, d4, p2, d2);
    HoldsWritten(f2, p3, d3);
    HoldsKept(f3, p4, d4, p3, d3);
    HoldsWritten(f3, p4, d4);
  }

  /** Three writes to ascending, disjoint ranges all stay in place. */
  lemma ThreeWritesHold(file: bytes, p1: nat, d1: bytes, p2: nat, d2: bytes, p3: nat, d3: bytes)
    requires p1 + |d1| <= p2 && p2 + |d2| <= p3
    ensures var f := WriteAt(WriteAt(WriteAt(file, p1, d1), p2, d2), p3, d3);
            Holds(f, p1, d1) && Holds(f, p2, d2) && Holds(f, p3, d3)
  {
    var f1 := WriteAt(file, p1, d1);
    var f2 := WriteAt(f1, p2, d2);
    HoldsWritten(file, p1, d1);
    HoldsKept(f1, p2, d2, p1, d1);
    HoldsKept(f2, p3, d3, p1, d1);
    HoldsWritten(f1, p2, d2);
    HoldsKept(f2, p3, d3, p2, d2);
    HoldsWritten(f2, p3, d3);
  }

  /** The first three writes store the data block count, the block header
      and the new slot's offset entry. */
  lemma HeadersHold(file: bytes, dataBlocks: int, slot: Slot, base: nat, begin: int)
    requires 8 <= base
    ensures var f := WriteHeaders(file, dataBlocks, slot, base, begin);
            Holds(f, 4, Be32(dataBlocks)) && Holds(f, base, Be32(slot.block) + Be32(slot.index + 1)) &&
            Holds(f, base + SlotPos(slot.index), Be32(begin))
  {
    HeadersUnfold(file, dataBlocks, slot, base, begin);
    HeadersAt(file, Be32(0), Be32(dataBlocks), base, Be32(slot.block) + Be32(slot.index + 1),
              base + SlotPos(slot.index), Be32(begin));
  }

  lemma HeadersUnfold(file: bytes, dataBlocks: int, slot: Slot, base: nat, begin: int)
    ensures WriteHeaders(file, dataBlocks, slot, base, begin) ==
            WriteAt(WriteAt(WriteAt(file, 0, Be32(0) + Be32(dataBlocks)), base, Be32(slot.block) + Be32(slot.index + 1)),
                    base + SlotPos(slot.index), Be32(begin))
  {
  }

  /** The three header writes, for any bytes: the second half of the first
      write, the second write and the third all stay in place. */
  lemma HeadersAt(file: bytes, zero: bytes, count: bytes, base: nat, head: bytes, entryAt: nat, entry: bytes)
    requires |zero| == 4 && |count| == 4 && |head| == 8 && 8 <= base && base + 8 <= entryAt
    ensures var f := WriteAt(WriteAt(WriteAt(file, 0, zero + count), base, head), entryAt, entry);
            Holds(f, 4, count) && Holds(f, base, head) && Holds(f, entryAt, entry)
  {
    var f := WriteAt(WriteAt(WriteAt(file, 0, zero + count), base, head), entryAt, entry);
    ThreeWritesHold(file, 0, zero + count, base, head, entryAt, entry);
    HoldsSplit(f, 0, zero, count);
  }

  /** The insert's writes for a block at `base` whose payload begins `begin`
      bytes in store the data block count, the header, the offset entry and
      the payload. */
  lemma InsertWritesHold(file: bytes, dataBlocks: int, slot: Slot, base: nat, begin: int, text: bytes)
    requires 8 <= base && SlotPos(slot.index) + SLOT_LEN <= begin
    ensures var f := WriteAt(WriteHeaders(file, dataBlocks, slot, base, begin), base + begin, InsertedRecord(text));
            Holds(f, 4, Be32(dataBlocks)) && Holds(f, base, Be32(slot.block) + Be32(slot.index + 1)) &&
            Holds(f, base + SlotPos(slot.index), Be32(begin)) && Holds(f, base + begin + RECORD_HEAD_LEN, text)
  {
    var f3 := WriteHeaders(file, dataBlocks, slot, base, begin);
    var at: nat := base + begin;
    PayloadHolds(f3, at, text);
    HeadersHold(file, dataBlocks, slot, base, begin);
    WriteKeepsThree(f3, at, InsertedRecord(text), 4, Be32(dataBlocks),
                    base, Be32(slot.block) + Be32(slot.index + 1), base + SlotPos(slot.index), Be32(begin));
  }

  /** A write past three held ranges keeps all three. */
  lemma WriteKeepsThree(f: bytes, pos: nat, d: bytes, q1: int, e1: bytes, q2: int, e2: bytes, q3: int, e3: bytes)
    requires Holds(f, q1, e1) && Holds(f, q2, e2) && Holds(f, q3, e3)
    requires q1 + |e1| <= pos && q2 + |e2| <= pos && q3 + |e3| <= pos
    ensures var g := WriteAt(f, pos, d);
            Holds(g, q1, e1) && Holds(g, q2, e2) && Holds(g, q3, e3)
  {
    HoldsKept(f, pos, d, q1, e1);
    HoldsKept(f, pos, d, q2, e2);
    HoldsKept(f, pos, d, q3, e3);
  }

  /** The payload write puts the record's content after its 18-byte head. */
  lemma PayloadHolds(f: bytes, at: nat, text: bytes)
    ensures Holds(WriteAt(f, at, InsertedRecord(text)), at, RecordHead(|text|))
    ensures Holds(WriteAt(f, at, InsertedRecord(text)), at + RECORD_HEAD_LEN, text)
  {
    var record := InsertedRecord(text);
    HoldsWritten(f, at, record);
    HoldsPart(WriteAt(f, at, record), at, record, 0, RECORD_HEAD_LEN);
    assert record[0..RECORD_HEAD_LEN] == RecordHead(|text|);
    HoldsPart(WriteAt(f, at, record), at, record, RECORD_HEAD_LEN, RECORD_HEAD_LEN + |text|);
    assert record[RECORD_HEAD_LEN..RECORD_HEAD_LEN + |text|] == text;
  }

  /** The 18-byte record head `insert_record` packs as `'!ii10s'`: schema
      address 12, the content length and the stamp `2016-11-16`. */
  function RecordHead(n: int): (r: bytes)
    ensures |r| == RECORD_HEAD_LEN
  {
    Be32(SCHEMA_ADDRESS) + Be32(n) + PackStr(Ascii("2016-11-16"), 10)
  }

  /** Outside the ranges they write, the insert's writes leave every byte as it was. */
  lemma InsertWritesFrame(file: bytes, dataBlocks: int, slot: Slot, base: nat, begin: int, text: bytes)
    requires 8 <= base && SlotPos(slot.index) + SLOT_LEN <= begin
    ensures var f := WriteAt(WriteHeaders(file, dataBlocks, slot, base, begin), base + begin, InsertedRecord(text));
            |f| >= |file| &&
            forall i :: (0 <= i < |file| && !(0 <= i < 8) && !(base <= i < base + BLOCK_HEAD_LEN) &&
                         !(base + SlotPos(slot.index) <= i < base + SlotPos(slot.index) + SLOT_LEN) &&
                         !(base + begin <= i < base + begin + RECORD_HEAD_LEN + |text|)) ==> f[i] == file[i]
  {
    AscendingWrites(file, 0, Be32(0) + Be32(dataBlocks), base, Be32(slot.block) + Be32(slot.index + 1),
                    base + SlotPos(slot.index), Be32(begin), base + begin, InsertedRecord(text));
  }

  /** When the slot fits, the insert completes and the file holds the data
      block count, the block header, the slot's offset entry, the record head
      and the payload;
      outside the ranges it writes, every byte keeps its value. */
  lemma InsertedHolds(file: bytes, dataBlocks: int, slot: Slot, text: bytes)
    requires slot.block >= 1 && SlotFits(slot, |text|)
    ensures var w := WriteInserted(file, dataBlocks, slot, text);
            var base := BLOCK_SIZE * slot.block;
            var begin := PayloadPos(slot.index, RECORD_HEAD_LEN + |text|);
            w.complete &&
            Holds(w.file, 4, Be32(dataBlocks)) &&
            Holds(w.file, base, Be32(slot.block) + Be32(slot.index + 1)) &&
            Holds(w.file, base + SlotPos(slot.index), Be32(begin)) &&
            Holds(w.file, base + begin, RecordHead(|text|)) &&
            Holds(w.file, base + begin + RECORD_HEAD_LEN, text)
    ensures var w := WriteInserted(file, dataBlocks, slot, text);
            |w.file| >= |file| &&
            forall i :: 0 <= i < |file| && !Touched(slot, |text|, i) ==> w.file[i] == file[i]
  {
    var rl := RECORD_HEAD_LEN + |text|;
    FitsBelow(slot, |text|);
    var begin := PayloadPos(slot.index, rl);
    assert PayloadPos(slot.index as int - 1, rl) == begin + rl;
    InsertWritesHold(file, dataBlocks, slot, BLOCK_SIZE * slot.block, begin, text);
    PayloadHolds(WriteHeaders(file, dataBlocks, slot, BLOCK_SIZE * slot.block, begin), BLOCK_SIZE * slot.block + begin, text);
    InsertWritesFrame(file, dataBlocks, slot, BLOCK_SIZE * slot.block, begin, text);
  }


  // ---------------------------------------------------------------------
  // Repacking: where each cached record lands
  // ---------------------------------------------------------------------

  /** A range held inside a held block is held in the file at the sum of the offsets. */
  lemma HoldsNested(f: bytes, p: int, img: bytes, q: int, d: bytes)
    requires Holds(f, p, img) && Holds(img, q, d)
    ensures Holds(f, p + q, d)
  {
    HoldsPart(f, p, img, q, q + |d|);
  }

  /** Repacked block `b + 1` starts with its id and the number of records it holds. */
  lemma BlockHeaderHolds(contents: seq<bytes>, cap: nat, cl: nat, b: nat)
    requires cap >= 1 && BLOCK_HEAD_LEN + cap * (RECORD_HEAD_LEN + cl + SLOT_LEN) <= BLOCK_SIZE
    requires b < BlockCount(|contents|, cap) && b * cap <= |contents|
    ensures Holds(BlockImage(contents, cap, cl, b), 0, Be32(b + 1) + Be32(|Chunk(contents, cap, b)|))
  {
    var chunk := ChunkFits(contents, cap, cl, b);
    var head := Be32(b + 1) + Be32(|chunk|);
    var buf := WriteAt(Zeros(BLOCK_SIZE), 0, head);
    HoldsWritten(Zeros(BLOCK_SIZE), 0, head);
    var img := FillBlock(buf, cl, chunk);
    assert img == BlockImage(contents, cap, cl, b);
    HoldsPrefix(buf, img, 0, head);
  }

  /** Slot `j` of repacked block `b + 1` holds the chunk's `j`-th record:
      its offset entry at `8 + 4*j` names a payload `(j + 1)` record lengths
      before the block's end, which carries the record. */
  lemma BlockSlotHolds(contents: seq<bytes>, cap: nat, cl: nat, b: nat, j: nat)
    requires cap >= 1 && BLOCK_HEAD_LEN + cap * (RECORD_HEAD_LEN + cl + SLOT_LEN) <= BLOCK_SIZE
    requires b < BlockCount(|contents|, cap) && b * cap <= |contents| && j < |Chunk(contents, cap, b)|
    ensures Holds(BlockImage(contents, cap, cl, b), SlotPos(j), Be32(PayloadPos(j, RECORD_HEAD_LEN + cl)))
    ensures Holds(BlockImage(contents, cap, cl, b), PayloadPos(j, RECORD_HEAD_LEN + cl),
                  RepackedRecord(cl, Chunk(contents, cap, b)[j]))
  {
    var chunk := ChunkFits(contents, cap, cl, b);
    assert BlockImage(contents, cap, cl, b) == RepackedBlock(b + 1, cl, chunk);
  }

  /** The repack counts `ceil(n / cap)` data blocks and writes block `b + 1`'s image. */
  lemma RepackHolds(fields: seq<Field>, contents: seq<bytes>, file: bytes, dataBlocks: int, b: nat)
    requires Capacity(fields) >= 1 && b < BlockCount(|contents|, Capacity(fields))
    ensures var r := Repack(fields, contents, file, dataBlocks);
            r.dataBlocks == BlockCount(|contents|, Capacity(fields)) &&
            Holds(r.file, BLOCK_SIZE * (b + 1), BlockImage(contents, Capacity(fields), ContentLen(fields), b))
  {
  }
}

=== FILE: table_layout.dfy ===
/** The `.dat` table file shared by both table stores: block 0 holds the
    directory (`'!iii'` then one `'!10sii'` descriptor per field), data
    blocks 1.. hold a `'!ii'` header, a forward-growing array of `'!i'`
    record offsets, and record payloads packed backward from the block's end.
    This module decodes such a file the way the table constructor does,
    validates and places an inserted record, and writes the block images of
    the full-table repack. */
module TableLayout {
  import opened Common
  import opened Records

  const DIR_HEAD_LEN: nat := 12       // '!iii': block id, data block count, field count
  const FIELD_DESC_LEN: nat := 18     // '!10sii'
  const BLOCK_HEAD_LEN: nat := 8      // '!ii': block id, record count
  const SLOT_LEN: nat := 4            // '!i': one record offset
  const RECORD_HEAD_LEN: nat := 18    // '!ii10s': schema address, content length, stamp
  const SCHEMA_ADDRESS: int := 12     // what insert stores as the record's schema pointer

  /** Where a record lives: data block number and slot index inside it. */
  datatype Slot = Slot(block: nat, index: nat)

  /** An open table: the schema, the cached records and their recorded
      locations, the in-memory data block count, and the file's bytes. */
  datatype Table = Table(fields: seq<Field>, records: seq<Row>, positions: seq<Slot>,
                         dataBlocks: int, file: bytes)

  function RecordLen(fields: seq<Field>): nat { RECORD_HEAD_LEN + ContentLen(fields) }

  function SlotPos(j: int): int { BLOCK_HEAD_LEN + SLOT_LEN * j }

  /** Payloads are packed backward: slot `j` of a block starts `(j + 1)`
      record lengths before the block's end. */
  function PayloadPos(j: int, rl: int): int { BLOCK_SIZE - (j + 1) * rl }

  // ---------------------------------------------------------------------
  // Opening a table file
  // ---------------------------------------------------------------------

  datatype Opened = Opened(table: Table) | NeedsSchema | Corrupt

  /** Descriptors `i .. count-1` of the directory block. A descriptor that
      runs past the buffer (a `struct.error`) or declares a negative length
      makes the file unreadable. */
  function DecodeFields(dir: bytes, count: int, i: nat): (r: Option<seq<Field>>)
    ensures r.Some? ==> |r.value| == Max(count - i, 0)
    decreases count - i
  {
    if i >= count then Some([])
    else
      var off := DIR_HEAD_LEN + i * FIELD_DESC_LEN;
      if off + FIELD_DESC_LEN > |dir| || I32At(dir, off + 14) < 0 then None
      else
        var f := Field(dir[off..off + 10], I32At(dir, off + 10), I32At(dir, off + 14));
        match DecodeFields(dir, count, i + 1)
        case None => None
        case Some(rest) => Some([f] + rest)
  }

  /** The constructor's read of slot `i` of a block buffer: the offset at
      `8 + 4*i`, then `cl` content bytes after the 18-byte record header. */
  function SlotContent(buf: bytes, i: nat, cl: nat): (r: Option<bytes>)
    ensures r.Some? ==> |r.value| == cl
  {
    if SlotPos(i) + SLOT_LEN > |buf| then None
    else
      var off := I32At(buf, SlotPos(i)) + RECORD_HEAD_LEN;
      if off < 0 || off + cl > |buf| then None else Some(buf[off..off + cl])
  }

  /** Records `i .. n-1` of data block `block`, with their locations. */
  function DecodeSlots(buf: bytes, fields: seq<Field>, block: nat, i: nat, n: int)
    : (r: Option<(seq<Row>, seq<Slot>)>)
    ensures r.Some? ==> |r.value.0| == |r.value.1| == Max(n - i, 0)
    ensures r.Some? ==> forall k :: 0 <= k < |r.value.1| ==> r.value.1[k] == Slot(block, i + k)
    ensures r.Some? ==> forall k :: 0 <= k < |r.value.0| ==> |r.value.0[k]| == |fields|
    decreases n - i
  {
    if i >= n then Some(([], []))
    else
      match SlotContent(buf, i, ContentLen(fields))
      case None => None
      case Some(content) =>
        match DecodeRow(fields, content)
        case None => None
        case Some(row) =>
          match DecodeSlots(buf, fields, block, i + 1, n)
          case None => None
          case Some(rest) => Some(([row] + rest.0, [Slot(block, i)] + rest.1))
  }

  /** Data blocks `flag .. dataBlocks`, each read as a whole block. */
  function DecodeBlocks(file: bytes, fields: seq<Field>, flag: nat, dataBlocks: int)
    : (r: Option<(seq<Row>, seq<Slot>)>)
    ensures r.Some? ==> |r.value.0| == |r.value.1|
    ensures r.Some? ==> forall k :: 0 <= k < |r.value.1| ==> flag <= r.value.1[k].block <= dataBlocks
    ensures r.Some? ==> forall k :: 0 <= k < |r.value.0| ==> |r.value.0[k]| == |fields|
    decreases dataBlocks - flag
  {
    if flag > dataBlocks then Some(([], []))
    else
      var buf := ReadAt(file, BLOCK_SIZE * flag, BLOCK_SIZE);
      if |buf| < BLOCK_HEAD_LEN then None
      else
        match DecodeSlots(buf, fields, flag, 0, I32At(buf, 4))
        case None => None
        case Some(here) =>
          match DecodeBlocks(file, fields, flag + 1, dataBlocks)
          case None => None
          case Some(later) => Some((here.0 + later.0, here.1 + later.1))
  }

  /** The table constructor on an existing file. An empty file is the
      interactive schema prompt (`NeedsSchema`). Anything `struct` or `int()`
      would raise on is `Corrupt`, and so is a descriptor with a negative
      length, which the source would read and slice with. */
  function Open(file: bytes): (r: Opened)
    ensures r.NeedsSchema? <==> |file| == 0
    ensures r.Opened? ==> r.table.file == file
    ensures r.Opened? ==> |r.table.records| == |r.table.positions|
    ensures r.Opened? ==> forall k :: 0 <= k < |r.table.records| ==> |r.table.records[k]| == |r.table.fields|
    ensures r.Opened? ==> forall k :: 0 <= k < |r.table.positions| ==>
              1 <= r.table.positions[k].block <= r.table.dataBlocks
  {
    var dir := ReadAt(file, 0, BLOCK_SIZE);
    if |dir| == 0 then NeedsSchema
    else if |dir| < DIR_HEAD_LEN then Corrupt
    else
      var dataBlocks := I32At(dir, 4);
      match DecodeFields(dir, I32At(dir, 8), 0)
      case None => Corrupt
      case Some(fields) =>
        match DecodeBlocks(file, fields, 1, dataBlocks)
        case None => Corrupt
        case Some(found) => Opened(Table(fields, found.0, found.1, dataBlocks, file))
  }

  // ---------------------------------------------------------------------
  // Inserting: validation, placement and the four writes
  // ---------------------------------------------------------------------

  /** What `insert_record` does with one stripped input value: cache it,
      append nothing (a type code outside 0..3), or refuse the record. */
  datatype FieldCheck = Keep(v: Value) | Skip | Refuse

  function CheckField(f: Field, v: bytes): FieldCheck
  {
    if IsText(f) then (if |v| > f.length then Refuse else Keep(StrV(v)))
    else if f.kind == INTEGER then
      match ParseInt(AsStr, v)
      case Some(x) => Keep(IntV(x))
      case None => Refuse
    else if f.kind == BOOLEAN then Keep(BoolV(|v| > 0))
    else Skip
  }

  /** Accepted: the cached row and the text written to disk. `Missing`: fewer
      inputs than fields (an `IndexError` the caller sees). */
  datatype Checked = Accepted(row: Row, text: bytes) | Refused | Missing

  predicate RefusesAt(fields: seq<Field>, input: seq<bytes>, i: int)
  {
    0 <= i < |fields| && i < |input| && CheckField(fields[i], Strip(AsStr, input[i])).Refuse?
  }

  /** The per-field text `insert_record` joins: the stripped value,
      left-padded with spaces to the declared length, never truncated. */
  function FieldText(f: Field, v: bytes): bytes { PadLeft(Strip(AsStr, v), f.length) }

  /** The joined text's per-field parts. */
  function FieldTexts(fields: seq<Field>, input: seq<bytes>): (r: seq<bytes>)
    requires |input| >= |fields|
    ensures |r| == |fields|
  {
    seq(|fields|, k requires 0 <= k < |fields| => FieldText(fields[k], input[k]))
  }

  /** Validation loop of `insert_record` from field `i` on. */
  function CheckFrom(fields: seq<Field>, input: seq<bytes>, i: nat): (r: Checked)
    requires i <= |fields|
    ensures r.Accepted? ==> |input| >= |fields| && |r.row| <= |fields| - i
    decreases |fields| - i
  {
    if i == |fields| then
      if |input| < |fields| then Missing else Accepted([], Concat(input[|fields|..]))
    else if i >= |input| then Missing
    else
      var c := CheckField(fields[i], Strip(AsStr, input[i]));
      if c.Refuse? then Refused
      else
        match CheckFrom(fields, input, i + 1)
        case Accepted(row, text) =>
          Accepted((if c.Keep? then [c.v] else []) + row, FieldText(fields[i], input[i]) + text)
        case other => other
  }

  /** Step 1 and 2 of `insert_record`: validate every field in order. The
      record is refused exactly when some field's value is refused, and the
      missing-value error happens exactly when the inputs run out first. */
  function CheckInput(fields: seq<Field>, input: seq<bytes>): (r: Checked)
    ensures r.Refused? <==> exists k :: 0 <= k < |input| && RefusesAt(fields, input, k)
    ensures r.Missing? <==> |input| < |fields| && !(exists k :: 0 <= k < |input| && RefusesAt(fields, input, k))
    ensures r.Accepted? && (forall k :: 0 <= k < |fields| ==> KnownKind(fields[k])) ==>
              |r.row| == |fields| && forall k :: 0 <= k < |fields| ==> KeptAt(fields, input, r.row, 0, k)
    ensures r.Accepted? ==> r.text == Concat(FieldTexts(fields, input)) + Concat(input[|fields|..])
  {
    CheckedRefusal(fields, input, 0);
    CheckedText(fields, input, 0);
    assert |input| >= |fields| ==> FieldTexts(fields, input)[0..] == FieldTexts(fields, input);
    var r := CheckFrom(fields, input, 0);
    if r.Accepted? && forall k :: 0 <= k < |fields| ==> KnownKind(fields[k]) then
      CheckedRow(fields, input, 0, r.row, r.text);
      r
    else r
  }

  /** The values are stripped as `str`, so the ASCII separators go too: a
      two-wide text field accepts `"ab\x1f"` as `ab`. */
  lemma SeparatorPaddingAccepted()
    ensures CheckInput([Field([110], STRING, 2)], [[97, 98, 31]]) == Accepted([StrV([97, 98])], [97, 98])
  {
    var v: bytes := [97, 98, 31];
    StripLeftNoop(AsStr, v);
    assert v[..2] == [97, 98];
    assert Strip(AsStr, v) == [97, 98];
    assert PadLeft([97, 98], 2) == [97, 98];
  }

  /** The check refuses exactly when a field from `i` on refuses its value
      before the inputs run out. */
  lemma {:induction false} CheckedRefusal(fields: seq<Field>, input: seq<bytes>, i: nat)
    requires i <= |fields|
    ensures CheckFrom(fields, input, i).Refused? <==> exists k :: i <= k < |input| && RefusesAt(fields, input, k)
    ensures CheckFrom(fields, input, i).Missing? <==>
              |input| < |fields| && !(exists k :: i <= k < |input| && RefusesAt(fields, input, k))
    decreases |fields| - i
  {
    if i < |fields| && i < |input| {
      if CheckField(fields[i], Strip(AsStr, input[i])).Refuse? {
        assert RefusesAt(fields, input, i);
      } else {
        CheckedRefusal(fields, input, i + 1);
        assert forall k :: i <= k < |input| && RefusesAt(fields, input, k) ==> i + 1 <= k;
      }
    } else if i >= |fields| {
      assert forall k :: i <= k && RefusesAt(fields, input, k) ==> false;
    }
  }

  /** Field `k`'s check keeps the value the row holds at `k - off`. */
  predicate KeptAt(fields: seq<Field>, input: seq<bytes>, row: Row, off: int, k: int)
  {
    0 <= k < |fields| && k < |input| && 0 <= k - off < |row| &&
    CheckField(fields[k], Strip(AsStr, input[k])) == Keep(row[k - off])
  }

  /** An accepted record caches, field by field, what the check keeps. */
  lemma {:induction false} CheckedRow(fields: seq<Field>, input: seq<bytes>, i: nat, row: Row, text: bytes)
    requires i <= |fields| && CheckFrom(fields, input, i) == Accepted(row, text)
    requires forall k :: i <= k < |fields| ==> KnownKind(fields[k])
    ensures |row| == |fields| - i
    ensures forall k :: i <= k < |fields| ==> KeptAt(fields, input, row, i, k)
    decreases |fields| - i
  {
    if i < |fields| {
      AcceptedStep(fields, input, i, row, text);
      var c := CheckField(fields[i], Strip(AsStr, input[i]));
      KnownKeeps(fields[i], Strip(AsStr, input[i]));
      var rest := CheckFrom(fields, input, i + 1);
      CheckedRow(fields, input, i + 1, rest.row, rest.text);
      KeptShift(fields, input, c.v, rest.row, i, i + 1);
    }
  }

  /** A field of a known kind either keeps its value or refuses it. */
  lemma KnownKeeps(f: Field, v: bytes)
    requires KnownKind(f)
    ensures CheckField(f, v).Keep? || CheckField(f, v).Refuse?
  {
  }

  /** Prefixing field `i`'s kept value to the row of fields `i + 1` on gives
      the row of fields `i` on. */
  lemma KeptShift(fields: seq<Field>, input: seq<bytes>, v: Value, rest: Row, i: nat, next: nat)
    requires next == i + 1
    requires i < |fields| && i < |input| && CheckField(fields[i], Strip(AsStr, input[i])) == Keep(v)
    requires |rest| == |fields| - next
    requires forall k :: next <= k < |fields| ==> KeptAt(fields, input, rest, next, k)
    ensures forall k :: i <= k < |fields| ==> KeptAt(fields, input, [v] + rest, i, k)
  {
    var row := [v] + rest;
    forall k | i <= k < |fields|
      ensures KeptAt(fields, input, row, i, k)
    {
      if k > i {
        assert KeptAt(fields, input, rest, next, k);
        assert row[k - i] == rest[k - next];
      }
    }
  }

  /** One step of an accepted check: field `i` is not refused, and the row
      starts with what it keeps. */
  lemma AcceptedStep(fields: seq<Field>, input: seq<bytes>, i: nat, row: Row, text: bytes)
    requires i < |fields| && CheckFrom(fields, input, i) == Accepted(row, text)
    ensures i < |input|
    ensures CheckFrom(fields, input, i + 1).Accepted?
    ensures var c := CheckField(fields[i], Strip(AsStr, input[i]));
            !c.Refuse? && row == (if c.Keep? then [c.v] else []) + CheckFrom(fields, input, i + 1).row
  {
  }

  /** An accepted record's text joins the padded field texts, then any extra inputs as given. */
  lemma {:induction false} CheckedText(fields: seq<Field>, input: seq<bytes>, i: nat)
    requires i <= |fields|
    ensures CheckFrom(fields, input, i).Accepted? ==>
              CheckFrom(fields, input, i).text == Concat(FieldTexts(fields, input)[i..]) + Concat(input[|fields|..])
    decreases |fields| - i
  {
    if i < |fields| && CheckFrom(fields, input, i).Accepted? {
      CheckedText(fields, input, i + 1);
      CheckedTextStep(fields, input, i);
    } else if i == |fields| && CheckFrom(fields, input, i).Accepted? {
      assert FieldTexts(fields, input)[i..] == [];
    }
  }

  /** The inductive step of `CheckedText`: the text from field `i + 1` on
      joins the padded texts from there, so the text from field `i` does too. */
  lemma CheckedTextStep(fields: seq<Field>, input: seq<bytes>, i: nat)
    requires i < |fields| && CheckFrom(fields, input, i).Accepted?
    requires CheckFrom(fields, input, i + 1).Accepted? ==>
               CheckFrom(fields, input, i + 1).text == Concat(FieldTexts(fields, input)[i + 1..]) + Concat(input[|fields|..])
    ensures CheckFrom(fields, input, i).text == Concat(FieldTexts(fields, input)[i..]) + Concat(input[|fields|..])
  {
    AcceptedTextStep(fields, input, i);
    JoinStep(FieldTexts(fields, input), i, CheckFrom(fields, input, i + 1).text, Concat(input[|fields|..]));
  }

  /** Joining parts `i` on, then a tail: part `i`, then the join of the rest. */
  lemma JoinStep(parts: seq<bytes>, i: nat, rest: bytes, tail: bytes)
    requires i < |parts| && rest == Concat(parts[i + 1..]) + tail
    ensures parts[i] + rest == Concat(parts[i..]) + tail
  {
    assert parts[i..][1..] == parts[i + 1..];
  }

  /** One step of an accepted check's text: field `i`'s padded text, then the rest. */
  lemma AcceptedTextStep(fields: seq<Field>, input: seq<bytes>, i: nat)
    requires i < |fields| && CheckFrom(fields, input, i).Accepted?
    ensures i < |input| && |input| >= |fields| && CheckFrom(fields, input, i + 1).Accepted?
    ensures CheckFrom(fields, input, i).text == FieldTexts(fields, input)[i] + CheckFrom(fields, input, i + 1).text
  {
  }

  /** Step 4 of `insert_record`. `MAX_RECORD_NUM` is the true quotient
      `4084 / (record_len + 4)`, so the next record rolls over to a new block
      only when the last slot index equals that quotient minus one exactly,
      that is when `(index + 1) * (record_len + 4) == 4084`. The flag says
      whether the data block count grows. */
  function Place(positions: seq<Slot>, rl: nat): (Slot, bool)
  {
    if |positions| == 0 then (Slot(1, 0), true)
    else
      var last := positions[|positions| - 1];
      if (last.index + 1) * (rl + SLOT_LEN) == BLOCK_SIZE - SLOT_LEN - BLOCK_HEAD_LEN then
        (Slot(last.block + 1, 0), true)
      else (Slot(last.block, last.index + 1), false)
  }

  /** The payload `insert_record` writes: schema address 12, the content
      length, the stamp `2016-11-16`, then the content itself. */
  function InsertedRecord(text: bytes): (r: bytes)
    ensures |r| == RECORD_HEAD_LEN + |text|
  {
    Be32(SCHEMA_ADDRESS) + Be32(|text|) + PackStr(Ascii("2016-11-16"), 10) + text
  }

  /** The file after the writes of `insert_record` and whether they all
      happened (a negative seek raises before the payload is written). */
  datatype Written = Written(file: bytes, complete: bool)

  /** Step 5: the data block count at 4, the block header, the slot's offset
      entry, then the payload at the block's end minus `(index+1)` lengths. */
  function WriteInserted(file: bytes, dataBlocks: int, slot: Slot, text: bytes): Written
  {
    var begin := PayloadPos(slot.index, RECORD_HEAD_LEN + |text|);
    var base := BLOCK_SIZE * slot.block;
    var f3 := WriteHeaders(file, dataBlocks, slot, base, begin);
    if base + begin < 0 then Written(f3, false)
    else Written(WriteAt(f3, base + begin, InsertedRecord(text)), true)
  }

  /** The first three writes of step 5, for a block starting at `base` whose
      new payload begins `begin` bytes in. */
  function WriteHeaders(file: bytes, dataBlocks: int, slot: Slot, base: nat, begin: int): bytes
  {
    var f1 := WriteAt(file, 0, Be32(0) + Be32(dataBlocks));
    var f2 := WriteAt(f1, base, Be32(slot.block) + Be32(slot.index + 1));
    WriteAt(f2, base + SlotPos(slot.index), Be32(begin))
  }

  /** Steps 2 to 4 on the handle: cache the row, place it, count a new block. */
  function Append(t: Table, row: Row, text: bytes): (r: (Table, Slot))
    ensures r.0.records == t.records + [row]
    ensures r.0.positions == t.positions + [r.1]
    ensures r.0.fields == t.fields && r.0.file == t.file
  {
    var (slot, grows) := Place(t.positions, RECORD_HEAD_LEN + |text|);
    (t.(records := t.records + [row], positions := t.positions + [slot],
        dataBlocks := if grows then t.dataBlocks + 1 else t.dataBlocks), slot)
  }

  // ---------------------------------------------------------------------
  // Repacking every cached record (`write_block_to_file`)
  // ---------------------------------------------------------------------

  /** Records per block: `(BLOCK_SIZE - 8) // (record_len + 4)`. */
  function Capacity(fields: seq<Field>): (r: nat)
    ensures BLOCK_HEAD_LEN + r * (RecordLen(fields) + SLOT_LEN) <= BLOCK_SIZE
    ensures BLOCK_HEAD_LEN + (r + 1) * (RecordLen(fields) + SLOT_LEN) > BLOCK_SIZE
  {
    var a := BLOCK_SIZE - BLOCK_HEAD_LEN;
    var d := RecordLen(fields) + SLOT_LEN;
    assert a == (a / d) * d + a % d;
    a / d
  }

  /** A repacked payload: schema address 0, the content length, the stamp
      `timestamp`, then the content truncated or NUL-padded to the length. */
  function RepackedRecord(cl: nat, content: bytes): (r: bytes)
    ensures |r| == RECORD_HEAD_LEN + cl
  {
    Be32(0) + Be32(cl) + PackStr(Ascii("timestamp"), 10) + PackStr(content, cl)
  }

  /** Write slots `0 .. |contents|-1` into a block buffer: each offset entry,
      then its payload, packed backward from the end. Everything outside
      the written entries and payloads keeps its bytes. */
  function FillBlock(buf: bytes, cl: nat, contents: seq<bytes>): (r: bytes)
    requires |buf| == BLOCK_SIZE
    requires BLOCK_HEAD_LEN + |contents| * (RECORD_HEAD_LEN + cl + SLOT_LEN) <= BLOCK_SIZE
    ensures |r| == BLOCK_SIZE
    ensures forall j :: 0 <= j < |contents| ==>
              Holds(r, SlotPos(j), Be32(PayloadPos(j, RECORD_HEAD_LEN + cl)))
    ensures forall j :: 0 <= j < |contents| ==>
              Holds(r, PayloadPos(j, RECORD_HEAD_LEN + cl), RepackedRecord(cl, contents[j]))
    ensures forall i ::
              (0 <= i < BLOCK_SIZE &&
               (i < BLOCK_HEAD_LEN || SlotPos(|contents|) <= i < PayloadPos(|contents| - 1, RECORD_HEAD_LEN + cl)))
              ==> r[i] == buf[i]
    decreases |contents|
  {
    if |contents| == 0 then buf
    else
      var m := |contents| - 1;
      var rl := RECORD_HEAD_LEN + cl;
      FillStep(m, rl);
      var prev := FillBlock(buf, cl, contents[..m]);
      var withSlot := WriteAt(prev, SlotPos(m), Be32(PayloadPos(m, rl)));
      var r := WriteAt(withSlot, PayloadPos(m, rl), RepackedRecord(cl, contents[m]));
      FillKeeps(prev, withSlot, r, cl, contents, m);
      r
  }

  /** Arithmetic of one more slot: it stays clear of the payload area. */
  lemma FillStep(m: nat, rl: nat)
    requires BLOCK_HEAD_LEN + (m + 1) * (rl + SLOT_LEN) <= BLOCK_SIZE
    ensures BLOCK_HEAD_LEN + m * (rl + SLOT_LEN) <= BLOCK_SIZE
    ensures SlotPos(m + 1) <= PayloadPos(m, rl)
    ensures PayloadPos(m, rl) + rl == PayloadPos(m - 1, rl) <= BLOCK_SIZE
  {
    assert (m + 1) * (rl + SLOT_LEN) == m * (rl + SLOT_LEN) + rl + SLOT_LEN;
    assert (m + 1) * rl == m * rl + rl;
  }

  lemma FillKeeps(prev: bytes, withSlot: bytes, r: bytes, cl: nat, contents: seq<bytes>, m: nat)
    requires m + 1 == |contents| && |prev| == BLOCK_SIZE
    requires BLOCK_HEAD_LEN + |contents| * (RECORD_HEAD_LEN + cl + SLOT_LEN) <= BLOCK_SIZE
    requires forall j :: 0 <= j < m ==>
               Holds(prev, SlotPos(j), Be32(PayloadPos(j, RECORD_HEAD_LEN + cl)))
    requires forall j :: 0 <= j < m ==>
               Holds(prev, PayloadPos(j, RECORD_HEAD_LEN + cl), RepackedRecord(cl, contents[..m][j]))
    requires withSlot == WriteAt(prev, SlotPos(m), Be32(PayloadPos(m, RECORD_HEAD_LEN + cl)))
    requires PayloadPos(m, RECORD_HEAD_LEN + cl) >= 0
    requires r == WriteAt(withSlot, PayloadPos(m, RECORD_HEAD_LEN + cl), RepackedRecord(cl, contents[m]))
    ensures |r| == BLOCK_SIZE
    ensures forall j :: 0 <= j < |contents| ==>
              Holds(r, SlotPos(j), Be32(PayloadPos(j, RECORD_HEAD_LEN + cl)))
    ensures forall j :: 0 <= j < |contents| ==>
              Holds(r, PayloadPos(j, RECORD_HEAD_LEN + cl), RepackedRecord(cl, contents[j]))
  {
    var rl := RECORD_HEAD_LEN + cl;
    FillStep(m, rl);
    FillKeepsLast(prev, withSlot, r, cl, contents[m], m);
    forall j | 0 <= j < |contents|
      ensures Holds(r, SlotPos(j), Be32(PayloadPos(j, rl)))
      ensures Holds(r, PayloadPos(j, rl), RepackedRecord(cl, contents[j]))
    {
      if j < m {
        assert contents[..m][j] == contents[j];
        FillKeepsEarlier(prev, withSlot, r, cl, contents[m], m, j, contents[j]);
      } else {
        assert j == m;
      }
    }
  }

  /** Slot `m`'s entry and payload are in place after its two writes. */
  lemma FillKeepsLast(prev: bytes, withSlot: bytes, r: bytes, cl: nat, last: bytes, m: nat)
    requires SlotPos(m + 1) <= PayloadPos(m, RECORD_HEAD_LEN + cl)
    requires withSlot == WriteAt(prev, SlotPos(m), Be32(PayloadPos(m, RECORD_HEAD_LEN + cl)))
    requires PayloadPos(m, RECORD_HEAD_LEN + cl) >= 0
    requires r == WriteAt(withSlot, PayloadPos(m, RECORD_HEAD_LEN + cl), RepackedRecord(cl, last))
    ensures Holds(r, SlotPos(m), Be32(PayloadPos(m, RECORD_HEAD_LEN + cl)))
    ensures Holds(r, PayloadPos(m, RECORD_HEAD_LEN + cl), RepackedRecord(cl, last))
  {
    var pm := PayloadPos(m, RECORD_HEAD_LEN + cl);
    HoldsWritten(prev, SlotPos(m), Be32(pm));
    HoldsKept(withSlot, pm, RepackedRecord(cl, last), SlotPos(m), Be32(pm));
    HoldsWritten(withSlot, pm, RepackedRecord(cl, last));
  }

  /** An earlier slot's entry and payload survive the writes for slot `m`. */
  lemma FillKeepsEarlier(prev: bytes, withSlot: bytes, r: bytes, cl: nat, last: bytes, m: nat, j: nat, c: bytes)
    requires j < m && SlotPos(m + 1) <= PayloadPos(m, RECORD_HEAD_LEN + cl)
    requires Holds(prev, SlotPos(j), Be32(PayloadPos(j, RECORD_HEAD_LEN + cl)))
    requires Holds(prev, PayloadPos(j, RECORD_HEAD_LEN + cl), RepackedRecord(cl, c))
    requires withSlot == WriteAt(prev, SlotPos(m), Be32(PayloadPos(m, RECORD_HEAD_LEN + cl)))
    requires PayloadPos(m, RECORD_HEAD_LEN + cl) >= 0
    requires r == WriteAt(withSlot, PayloadPos(m, RECORD_HEAD_LEN + cl), RepackedRecord(cl, last))
    ensures Holds(r, SlotPos(j), Be32(PayloadPos(j, RECORD_HEAD_LEN + cl)))
    ensures Holds(r, PayloadPos(j, RECORD_HEAD_LEN + cl), RepackedRecord(cl, c))
  {
    var rl := RECORD_HEAD_LEN + cl;
    var pm := PayloadPos(m, rl);
    assert (j + 1) * rl <= m * rl by { MulLe(j + 1, m, rl); }
    HoldsKept(prev, SlotPos(m), Be32(pm), SlotPos(j), Be32(PayloadPos(j, rl)));
    HoldsKept(withSlot, pm, RepackedRecord(cl, last), SlotPos(j), Be32(PayloadPos(j, rl)));
    HoldsKept(prev, SlotPos(m), Be32(pm), PayloadPos(j, rl), RepackedRecord(cl, c));
    HoldsKept(withSlot, pm, RepackedRecord(cl, last), PayloadPos(j, rl), RepackedRecord(cl, c));
  }

  lemma MulLe(a: nat, b: nat, c: nat)
    requires a <= b
    ensures a * c <= b * c
  {
  }

  /** Block `id` as `write_block_to_file` builds it: a zeroed buffer with the
      `(id, count)` header and the records' slots and payloads. */
  function RepackedBlock(id: int, cl: nat, contents: seq<bytes>): (r: bytes)
    requires BLOCK_HEAD_LEN + |contents| * (RECORD_HEAD_LEN + cl + SLOT_LEN) <= BLOCK_SIZE
    ensures |r| == BLOCK_SIZE
  {
    FillBlock(WriteAt(Zeros(BLOCK_SIZE), 0, Be32(id) + Be32(|contents|)), cl, contents)
  }

  /** `ceil(n / cap)`, written `(n + cap - 1) // cap`. */
  function BlockCount(n: nat, cap: int): (r: nat)
    requires cap >= 1
    ensures r * cap >= n
    ensures r > 0 ==> (r - 1) * cap < n
  {
    var r := (n + cap - 1) / cap;
    assert r * cap + (n + cap - 1) % cap == n + cap - 1;
    r
  }

  /** Records `[b*cap, min((b+1)*cap, n))`: the contents of repacked block `b + 1`. */
  function Chunk(contents: seq<bytes>, cap: nat, b: nat): (r: seq<bytes>)
    requires cap >= 1 && b * cap <= |contents|
    ensures |r| <= cap
  {
    contents[b * cap..Min((b + 1) * cap, |contents|)]
  }

  /** `Chunk`, with the fact that it fits in one block. */
  function ChunkFits(contents: seq<bytes>, cap: nat, cl: nat, b: nat): (r: seq<bytes>)
    requires cap >= 1 && BLOCK_HEAD_LEN + cap * (RECORD_HEAD_LEN + cl + SLOT_LEN) <= BLOCK_SIZE
    requires b * cap <= |contents|
    ensures r == Chunk(contents, cap, b)
    ensures BLOCK_HEAD_LEN + |r| * (RECORD_HEAD_LEN + cl + SLOT_LEN) <= BLOCK_SIZE
  {
    var r := Chunk(contents, cap, b);
    MulLe(|r|, cap, RECORD_HEAD_LEN + cl + SLOT_LEN);
    r
  }

  /** Repacked block `k + 1` for records `contents` at `cap` records per block. */
  function BlockImage(contents: seq<bytes>, cap: nat, cl: nat, k: nat): (r: bytes)
    requires cap >= 1 && BLOCK_HEAD_LEN + cap * (RECORD_HEAD_LEN + cl + SLOT_LEN) <= BLOCK_SIZE
    requires k < BlockCount(|contents|, cap)
    ensures |r| == BLOCK_SIZE
  {
    ChunkStart(|contents|, cap, k, BlockCount(|contents|, cap));
    RepackedBlock(k + 1, cl, ChunkFits(contents, cap, cl, k))
  }

  /** The images of every repacked block, in block order. */
  function BlockImages(contents: seq<bytes>, cap: nat, cl: nat): (r: seq<bytes>)
    requires cap >= 1 && BLOCK_HEAD_LEN + cap * (RECORD_HEAD_LEN + cl + SLOT_LEN) <= BLOCK_SIZE
    ensures |r| == BlockCount(|contents|, cap)
    ensures forall k :: 0 <= k < |r| ==> r[k] == BlockImage(contents, cap, cl, k) && |r[k]| == BLOCK_SIZE
  {
    var nb := BlockCount(|contents|, cap);
    seq(nb, k requires 0 <= k < nb => BlockImage(contents, cap, cl, k))
  }

  /** Block images `images[b..]` written one after another, image `k` over
      block `k + 1`. */
  function WriteImages(f: bytes, images: seq<bytes>, b: nat): (r: bytes)
    requires b <= |images|
    requires forall k :: 0 <= k < |images| ==> |images[k]| == BLOCK_SIZE
    ensures |r| >= |f|
    ensures forall i :: 0 <= i < |f| && i < BLOCK_SIZE * (b + 1) ==> r[i] == f[i]
    ensures forall k :: b <= k < |images| ==> Holds(r, BLOCK_SIZE * (k + 1), images[k])
    decreases |images| - b
  {
    if b == |images| then f
    else
      var f1 := WriteAt(f, BLOCK_SIZE * (b + 1), images[b]);
      var r := WriteImages(f1, images, b + 1);
      HoldsWritten(f, BLOCK_SIZE * (b + 1), images[b]);
      HoldsPrefix(f1, r, BLOCK_SIZE * (b + 1), images[b]);
      r
  }

  lemma ChunkStart(n: nat, cap: nat, b: nat, nb: nat)
    requires cap >= 1 && nb == BlockCount(n, cap) && b < nb
    ensures b * cap < n
  {
    MulLe(b, nb - 1, cap);
  }

  /** A range held in `f` survives into `g` when `g` agrees with `f` up to its end. */
  lemma HoldsPrefix(f: bytes, g: bytes, p: nat, d: bytes)
    requires Holds(f, p, d)
    requires |g| >= |f|
    requires forall i :: 0 <= i < |f| && i < p + |d| ==> g[i] == f[i]
    ensures Holds(g, p, d)
  {
    assert g[p..p + |d|] == f[p..p + |d|];
  }

  /** The repacked file and the data block count the handle now holds.
      A capacity below one raises inside `write_block_to_file`, which
      catches it: nothing is written. */
  datatype Repacked = Repacked(file: bytes, dataBlocks: int)

  function Repack(fields: seq<Field>, contents: seq<bytes>, file: bytes, dataBlocks: int): (r: Repacked)
    ensures Capacity(fields) < 1 ==> r == Repacked(file, dataBlocks)
    ensures Capacity(fields) >= 1 ==>
              r.dataBlocks == BlockCount(|contents|, Capacity(fields)) &&
              Holds(r.file, 4, Be32(r.dataBlocks)) && |r.file| >= |file| &&
              (forall i :: 0 <= i < |file| && i < BLOCK_SIZE && (i < 4 || 8 <= i) ==> r.file[i] == file[i]) &&
              forall k :: 0 <= k < r.dataBlocks ==>
                Holds(r.file, BLOCK_SIZE * (k + 1), BlockImage(contents, Capacity(fields), ContentLen(fields), k))
  {
    var cl := ContentLen(fields);
    var cap := Capacity(fields);
    if cap < 1 then Repacked(file, dataBlocks)
    else
      var nb := BlockCount(|contents|, cap);
      var f1 := WriteAt(file, 4, Be32(nb));
      var images := BlockImages(contents, cap, cl);
      var r := WriteImages(f1, images, 0);
      HoldsWritten(file, 4, Be32(nb));
      HoldsPrefix(f1, r, 4, Be32(nb));
      Repacked(r, nb)
  }
}

=== FILE: table_ops.dfy ===
/** What `update_record`, `del_one_record` and `write_block_to_file` of both
    table stores share: finding a field by name, typing the arguments,
    deciding which cached records match, rewriting or dropping them, and
    rendering a cached record back into fixed-width text. */
module TableOps {
  import opened Common
  import opened Records
  import opened TableLayout
  import opened TableFacts

  // ---------------------------------------------------------------------
  // Field lookup
  // ---------------------------------------------------------------------

  /** The index of the first field whose stripped name is `name`; `None`
      raises "Field ... not found in table". */
  function FindField(w: Spacing, fields: seq<Field>, name: bytes): (r: Option<nat>)
    ensures r.Some? ==> r.value < |fields| && FieldName(w, fields[r.value]) == name &&
                        forall k :: 0 <= k < r.value ==> FieldName(w, fields[k]) != name
    ensures r.None? ==> forall k :: 0 <= k < |fields| ==> FieldName(w, fields[k]) != name
  {
    FindFrom(w, fields, name, 0)
  }

  function FindFrom(w: Spacing, fields: seq<Field>, name: bytes, i: nat): (r: Option<nat>)
    requires i <= |fields|
    ensures r.Some? ==> i <= r.value < |fields| && FieldName(w, fields[r.value]) == name &&
                        forall k :: i <= k < r.value ==> FieldName(w, fields[k]) != name
    ensures r.None? ==> forall k :: i <= k < |fields| ==> FieldName(w, fields[k]) != name
    decreases |fields| - i
  {
    if i == |fields| then None
    else if FieldName(w, fields[i]) == name then Some(i)
    else FindFrom(w, fields, name, i + 1)
  }

  // ---------------------------------------------------------------------
  // Matching and rewriting cached records
  // ---------------------------------------------------------------------

  /** Record `row` holds, at field `k`, a value `m` accepts. A row too short
      to have field `k` never matches. */
  predicate RowMatches(row: Row, k: nat, m: Value -> bool)
  {
    k < |row| && m(row[k])
  }

  /** The update loop: every matching record gets `v` at field `k`; the rest,
      and every other field, stay as they were. */
  function UpdateRows(rows: seq<Row>, k: nat, m: Value -> bool, v: Value): (r: seq<Row>)
    ensures |r| == |rows|
    ensures forall i :: 0 <= i < |rows| ==>
              (RowMatches(rows[i], k, m) ==> r[i] == rows[i][k := v]) &&
              (!RowMatches(rows[i], k, m) ==> r[i] == rows[i])
    ensures !AnyMatch(rows, k, m) ==> r == rows
    decreases |rows|
  {
    if |rows| == 0 then []
    else
      var rest := UpdateRows(rows[..|rows| - 1], k, m, v);
      var last := rows[|rows| - 1];
      rest + [if RowMatches(last, k, m) then last[k := v] else last]
  }

  /** Matchers that accept the same values update the same records. */
  lemma MatchersAgree(rows: seq<Row>, k: nat, m1: Value -> bool, m2: Value -> bool, v: Value)
    requires forall x :: m1(x) == m2(x)
    ensures UpdateRows(rows, k, m1, v) == UpdateRows(rows, k, m2, v)
    ensures AnyMatch(rows, k, m1) <==> AnyMatch(rows, k, m2)
  {
    assert forall i :: 0 <= i < |rows| ==> (RowMatches(rows[i], k, m1) <==> RowMatches(rows[i], k, m2));
  }

  /** The first record too short to have field `k`, where reading
      `record[k]` raises `IndexError`; `|rows|` when there is none. */
  function FirstShort(rows: seq<Row>, k: nat): (j: nat)
    ensures j <= |rows|
    ensures forall i :: 0 <= i < j ==> k < |rows[i]|
    ensures j < |rows| ==> |rows[j]| <= k
    decreases |rows|
  {
    if |rows| == 0 || |rows[0]| <= k then 0 else 1 + FirstShort(rows[1..], k)
  }

  /** Some record matches: the `updated` / `deleted` flag. */
  predicate AnyMatch(rows: seq<Row>, k: nat, m: Value -> bool)
  {
    exists i :: 0 <= i < |rows| && RowMatches(rows[i], k, m)
  }

  /** The delete loop: the records that do not match, in their order. */
  function KeepRows(rows: seq<Row>, k: nat, m: Value -> bool): (r: seq<Row>)
    ensures forall x :: x in r <==> x in rows && !RowMatches(x, k, m)
    ensures !AnyMatch(rows, k, m) ==> r == rows
    ensures AnyMatch(rows, k, m) ==> |r| < |rows|
  {
    var keep := (x: Row) => !RowMatches(x, k, m);
    var r := Filter(rows, keep);
    if AnyMatch(rows, k, m) then
      var i :| 0 <= i < |rows| && RowMatches(rows[i], k, m);
      FilterDrops(rows, keep, i);
      r
    else r
  }

  /** The delete loop keeps records in order and with their multiplicity:
      the kept records of two runs of records are the kept records of the
      first run followed by those of the second. */
  lemma KeepRowsAppend(a: seq<Row>, b: seq<Row>, k: nat, m: Value -> bool)
    ensures KeepRows(a + b, k, m) == KeepRows(a, k, m) + KeepRows(b, k, m)
  {
    FilterAppend(a, b, (x: Row) => !RowMatches(x, k, m));
  }

  /** One record is kept exactly when it does not match. */
  lemma KeepRowsOne(x: Row, k: nat, m: Value -> bool)
    ensures KeepRows([x], k, m) == if RowMatches(x, k, m) then [] else [x]
  {
  }

  /** Dropping an element shortens the selection. */
  lemma {:induction false} FilterDrops<T(!new)>(s: seq<T>, keep: T -> bool, i: nat)
    requires i < |s| && !keep(s[i])
    ensures |Filter(s, keep)| < |s|
    decreases |s|
  {
    var init := s[..|s| - 1];
    if i < |s| - 1 {
      assert init[i] == s[i];
      FilterDrops(init, keep, i);
    }
  }

  // ---------------------------------------------------------------------
  // Typed arguments
  // ---------------------------------------------------------------------

  /** The value `del_one_record` matches against: `int()` for integers
      (`None` is the `ValueError`), the truth words for booleans, the text
      itself otherwise. */
  function MatchValue(f: Field, value: bytes): Option<Value>
  {
    if f.kind == INTEGER then
      match ParseInt(AsStr, value)
      case Some(x) => Some(IntV(x))
      case None => None
    else if f.kind == BOOLEAN then Some(BoolV(ArgumentTrue(value)))
    else Some(StrV(value))
  }

  /** The delete comparison of both stores: `str(current) == str(match)`,
      a `bytes` value of a text field first decoded and stripped. */
  predicate DeleteMatch(f: Field, current: Value, target: Value)
  {
    var c := if IsText(f) && current.BytesV? then StrV(Strip(AsStr, current.raw)) else current;
    PyStr(c) == PyStr(target)
  }

  /** The delete comparison as a record matcher. */
  function DeleteMatcher(f: Field, target: Value): Value -> bool { v => DeleteMatch(f, v, target) }

  /** The field (its name stripped first) and the value to match; `None`
      when either step raises. */
  function DeleteTarget(fields: seq<Field>, name: bytes, value: bytes): (r: Option<(nat, Value)>)
    ensures r.Some? ==> r.value.0 < |fields| && FindField(AsStr, fields, Strip(AsStr, name)) == Some(r.value.0) &&
                        MatchValue(fields[r.value.0], value) == Some(r.value.1)
    ensures r.None? ==> FindField(AsStr, fields, Strip(AsStr, name)).None? ||
                        MatchValue(fields[FindField(AsStr, fields, Strip(AsStr, name)).value], value).None?
  {
    match FindField(AsStr, fields, Strip(AsStr, name))
    case None => None
    case Some(k) =>
      match MatchValue(fields[k], value)
      case None => None
      case Some(v) => Some((k, v))
  }

  /** The typed arguments of `update_record`: the value a record must hold
      to be updated, and the value it then gets. */
  datatype Change = Change(target: Value, next: Value)

  /** The update comparison: Python `==`, a `bytes` value of a text field
      first decoded and stripped. */
  predicate UpdateMatch(f: Field, target: Value, v: Value)
  {
    PyEq(if IsText(f) && v.BytesV? then StrV(Strip(AsStr, v.raw)) else v, target)
  }

  function Matcher(f: Field, target: Value): Value -> bool { v => UpdateMatch(f, target, v) }

  /** How a store call ends: its result, or an exception. For update and
      delete `Raised` is the exception they catch and report. */
  datatype Outcome = Done(ok: bool) | Raised

  // ---------------------------------------------------------------------
  // Rendering a cached record (`write_block_to_file`)
  // ---------------------------------------------------------------------

  /** Python `str(value)` as the logged store renders it, left-justified and
      cut to the field's width. */
  function RenderFixed(v: Value, n: nat): (r: bytes)
    ensures |r| == n
    ensures |PyStr(v)| <= n ==> r == LJust(PyStr(v), n)
  {
    LJust(PyStr(v), n)[..n]
  }

  /** The plain store's rendering: a `bytes` value decoded, anything else
      through `str()`, left-justified and never cut; a long value shifts the
      fields after it. */
  function RenderLoose(v: Value, n: nat): (r: bytes)
    ensures |r| == Max(|if v.BytesV? then v.raw else PyStr(v)|, n)
  {
    if v.BytesV? then LJust(v.raw, n) else LJust(PyStr(v), n)
  }

  /** The `record_str` of a cached record: one rendering per value, with the
      width of the field at the same position. */
  function RowChunks(fields: seq<Field>, row: Row, loose: bool): (r: seq<bytes>)
    ensures |r| == Min(|fields|, |row|)
  {
    seq(Min(|fields|, |row|), j requires 0 <= j < Min(|fields|, |row|) =>
          if loose then RenderLoose(row[j], fields[j].length) else RenderFixed(row[j], fields[j].length))
  }

  /** Every cached record's text, in cache order: what the repack packs. */
  function Contents(fields: seq<Field>, rows: seq<Row>, loose: bool): (r: seq<bytes>)
    ensures |r| == |rows|
  {
    seq(|rows|, i requires 0 <= i < |rows| => Concat(RowChunks(fields, rows[i], loose)))
  }

  /** A cached value its rendering gives back: of its field's kind (stripped
      text for a text field) and no wider than the field. */
  predicate Renderable(f: Field, v: Value)
  {
    |PyStr(v)| <= f.length &&
    if f.kind == INTEGER then v.IntV?
    else if f.kind == BOOLEAN then v.BoolV?
    else v.StrV? && Stripped(AsStr, v.s)
  }

  /** One field: the constructor reads a rendered value back as itself. */
  lemma RenderedFieldReadsBack(f: Field, v: Value)
    requires Renderable(f, v)
    ensures DecodeField(f, RenderFixed(v, f.length)) == Some(v)
  {
    var t := PyStr(v);
    if v.BoolV? {
      if v.b {
        assert Lower(t) == Ascii("true");
      } else {
        assert Lower(t) != Ascii("true") && Lower(t) != Ascii("yes") && |Lower(t)| > 1;
      }
    }
    LJustStripped(t, f.length);
    if f.kind == INTEGER {
      ParseShowInt(AsStr, v.i);
    }
  }

  /** Repack, then reopen: a record whose values all render back is decoded
      from its repacked text as the very row that was cached. */
  lemma RepackReadsBack(fields: seq<Field>, row: Row)
    requires |row| == |fields|
    requires forall k :: 0 <= k < |fields| ==> Renderable(fields[k], row[k])
    ensures |Concat(RowChunks(fields, row, false))| == ContentLen(fields)
    ensures DecodeRow(fields, Concat(RowChunks(fields, row, false))) == Some(row)
  {
    var chunks := RowChunks(fields, row, false);
    forall k | 0 <= k < |fields|
      ensures |chunks[k]| == fields[k].length && DecodeField(fields[k], chunks[k]) == Some(row[k])
    {
      RenderedFieldReadsBack(fields[k], row[k]);
    }
    DecodeJoined(fields, chunks, row);
  }

  /** Both renderings agree on every value that fits its field. */
  lemma RenderingsAgree(v: Value, n: nat)
    requires !v.BytesV? && |PyStr(v)| <= n
    ensures RenderLoose(v, n) == RenderFixed(v, n)
  {
  }

  /** They differ on a value wider than its field: the plain store's text
      for `(123, 4)` under two 2-wide integer fields shifts the second field,
      which then reads back as 34; the logged store cuts the first value to 12. */
  lemma LooseRenderingShifts()
    ensures var fields := [Field(Ascii("a"), INTEGER, 2), Field(Ascii("b"), INTEGER, 2)];
            var row := [IntV(123), IntV(4)];
            Concat(RowChunks(fields, row, true)) == Ascii("1234 ") &&
            Concat(RowChunks(fields, row, false)) == Ascii("124 ")
  {
    var fields := [Field(Ascii("a"), INTEGER, 2), Field(Ascii("b"), INTEGER, 2)];
    var row := [IntV(123), IntV(4)];
    ShowSmall();
    var loose := RowChunks(fields, row, true);
    assert loose == [Ascii("123"), Ascii("4 ")];
    assert Concat(loose) == Ascii("123") + (Ascii("4 ") + []);
    var fixed := RowChunks(fields, row, false);
    assert fixed == [Ascii("12"), Ascii("4 ")];
    assert Concat(fixed) == Ascii("12") + (Ascii("4 ") + []);
  }

  lemma ShowSmall()
    ensures PyStr(IntV(123)) == Ascii("123") && PyStr(IntV(4)) == Ascii("4")
    ensures LJust(Ascii("123"), 2) == Ascii("123") && LJust(Ascii("4"), 2) == Ascii("4 ")
    ensures LJust(Ascii("123"), 2)[..2] == Ascii("12")
  {
    assert ShowNat(12) == ShowNat(1) + Ascii("2");
  }
}

=== FILE: transactions.dfy ===
/** The transaction manager: a state machine over an id counter, the map
    of active transactions to their logged operations, and the set of
    committed ids, plus the three log files it appends to. The before- and
    after-image logs hold a `'!ii'` header block (next block id, entry
    count) and then one block per entry; the transaction log is a plain
    sequence of 16-byte `'!iid'` records after its header block. */
module Transactions {
  import opened Common

  const LOG_BEGIN: int := 1
  const LOG_COMMIT: int := 4
  const LOG_ABORT: int := 5

  const NAME_LEN: nat := 50          // '50s': the table (file) name
  const ENTRY_HEAD_LEN: nat := 70    // '!50siid i': name, txn id, block id, timestamp, data length
  const MAX_IMAGE: nat := BLOCK_SIZE - 100
  const TXN_RECORD_LEN: nat := 16    // '!iid': txn id, record type, timestamp

  /** A packed `time.time()` value; the clock itself is a parameter. */
  type Stamp = s: bytes | |s| == 8 witness [0, 0, 0, 0, 0, 0, 0, 0]

  datatype ImageKind = BeforeImage | AfterImage

  /** The `log_entry` dictionary. */
  datatype LogEntry = LogEntry(txn: int, table: bytes, block: int, data: bytes, stamp: Stamp)

  /** One element of a transaction's `operations` list: `('before', entry)` or `('after', entry)`. */
  datatype Op = Op(kind: ImageKind, entry: LogEntry)

  datatype Manager = Manager(counter: int, active: map<int, seq<Op>>, committed: set<int>,
                             beforeLog: bytes, afterLog: bytes, txnLog: bytes)

  // ---------------------------------------------------------------------
  // Log files
  // ---------------------------------------------------------------------

  /** The header block `_init_log_files` writes: `'!ii'` zeros in a zeroed block. */
  function EmptyLog(): (r: bytes)
    ensures |r| == BLOCK_SIZE && LogReady(r) && EntryCount(r) == 0
  {
    var r := Zeros(BLOCK_SIZE);
    assert r[4..8] == Be32(0);
    I32OfBe32(0);
    r
  }

  /** A log file whose header unpacks: eight bytes and a non-negative entry count. */
  predicate LogReady(f: bytes) { |f| >= 8 && I32At(f, 4) >= 0 }

  function EntryCount(f: bytes): int
    requires |f| >= 8
  {
    I32At(f, 4)
  }

  /** Room for one more entry before the count stops fitting `'!i'`. */
  predicate HasRoom(f: bytes) { LogReady(f) && EntryCount(f) + 1 < TWO_31 }

  /** A fresh manager: each log file keeps its contents when it already
      exists and gets the empty header block otherwise. */
  function Init(before: Option<bytes>, after: Option<bytes>, txn: Option<bytes>): (m: Manager)
    ensures (before.Some? ==> LogReady(before.value)) && (after.Some? ==> LogReady(after.value)) ==> Inv(m)
    ensures m.counter == 0 && m.active == map[] && m.committed == {}
  {
    Manager(0, map[], {},
            if before.Some? then before.value else EmptyLog(),
            if after.Some? then after.value else EmptyLog(),
            if txn.Some? then txn.value else EmptyLog())
  }

  /** Entry `k` of an image log sits in block `1 + k`. */
  function EntryPos(k: nat): (p: nat)
    ensures p >= BLOCK_SIZE
  {
    BLOCK_SIZE * (1 + k)
  }

  /** The block one image-log entry occupies: the 70-byte header, the data
      truncated to `BLOCK_SIZE - 100` bytes, zero fill. */
  function EntryImage(e: LogEntry): (r: bytes)
    ensures |r| == BLOCK_SIZE
  {
    var d := EntryData(e);
    EntryHead(e, |d|) + d + Zeros(BLOCK_SIZE - ENTRY_HEAD_LEN - |d|)
  }

  /** `log_entry['data'][:BLOCK_SIZE-100]`. */
  function EntryData(e: LogEntry): (r: bytes)
    ensures |r| <= MAX_IMAGE
  {
    e.data[..Min(|e.data|, MAX_IMAGE)]
  }

  function EntryHead(e: LogEntry, n: int): (r: bytes)
    ensures |r| == ENTRY_HEAD_LEN
  {
    PackStr(e.table, NAME_LEN) + Be32(e.txn) + Be32(e.block) + e.stamp + Be32(n)
  }

  /** `_write_to_log_file` with the header update evidently intended: the
      entry goes to block `1 + count`, then the header is rewritten with the
      same next-block field and the count plus one. */
  function AppendEntry(f: bytes, e: LogEntry): (r: bytes)
    requires HasRoom(f)
    ensures LogReady(r) && |r| >= |f| && EntryCount(r) == EntryCount(f) + 1
    ensures Holds(r, EntryPos(EntryCount(f)), EntryImage(e))
    ensures forall i :: 8 <= i < |f| && !(EntryPos(EntryCount(f)) <= i < EntryPos(EntryCount(f)) + BLOCK_SIZE) ==>
              r[i] == f[i]
  {
    var num := EntryCount(f);
    var at := EntryPos(num);
    var header := Be32(I32At(f, 0)) + Be32(num + 1);
    var r := WriteAt(WriteAt(f, at, EntryImage(e)), 0, header);
    EntryThenHeader(f, at, EntryImage(e), header);
    HoldsSplit(r, 0, Be32(I32At(f, 0)), Be32(num + 1));
    HoldsI32(r, 4, num + 1);
    r
  }

  /** An entry block written past the header, then the 8-byte header. */
  lemma EntryThenHeader(f: bytes, at: nat, img: bytes, header: bytes)
    requires |header| == 8 && 8 <= at
    ensures var r := WriteAt(WriteAt(f, at, img), 0, header);
            Holds(r, at, img) && Holds(r, 0, header) &&
            forall i :: 8 <= i < |f| && !(at <= i < at + |img|) ==> r[i] == f[i]
  {
    var f1 := WriteAt(f, at, img);
    HoldsWritten(f, at, img);
    HoldsKept(f1, 0, header, at, img);
    HoldsWritten(f1, 0, header);
  }

  /** `_write_to_log_file` as written: `header_data` comes from `f.read(8)`,
      an immutable `bytes` object, so `struct.pack_into` raises `TypeError`
      after the entry is written and before the header is. The flag is
      that exception. */
  function AppendEntryAsWritten(f: bytes, e: LogEntry): (r: (bytes, bool))
    requires LogReady(f)
    ensures r.1 && Holds(r.0, 0, f[..8])
    ensures Holds(r.0, EntryPos(EntryCount(f)), EntryImage(e))
  {
    var at := EntryPos(EntryCount(f));
    var r := WriteAt(f, at, EntryImage(e));
    HoldsWritten(f, at, EntryImage(e));
    (r, true)
  }

  /** Read back entry `k` of an image log; `None` when it runs past the file
      or its length field is negative. */
  function ReadEntry(f: bytes, k: nat): Option<LogEntry>
  {
    ReadEntryAt(f, EntryPos(k))
  }

  function ReadEntryAt(f: bytes, pos: nat): Option<LogEntry>
  {
    if |f| < pos + ENTRY_HEAD_LEN then None
    else
      var n := I32At(f, pos + 66);
      var stamp: Stamp := f[pos + 58..pos + 66];
      if n < 0 || |f| < pos + ENTRY_HEAD_LEN + n then None
      else Some(LogEntry(I32At(f, pos + 50), f[pos..pos + NAME_LEN], I32At(f, pos + 54),
                         f[pos + ENTRY_HEAD_LEN..pos + ENTRY_HEAD_LEN + n], stamp))
  }

  /** What survives a round trip through an entry block: the name NUL-padded
      or cut to 50 bytes and the data cut to `BLOCK_SIZE - 100` bytes. */
  function Stored(e: LogEntry): LogEntry
  {
    e.(table := PackStr(e.table, NAME_LEN), data := EntryData(e))
  }

  /** A held entry block reads back as the stored form of its entry. */
  lemma EntryReadsBack(f: bytes, k: nat, e: LogEntry)
    requires Holds(f, EntryPos(k), EntryImage(e))
    requires InI32(e.txn) && InI32(e.block)
    ensures ReadEntry(f, k) == Some(Stored(e))
  {
    EntryReadsBackAt(f, EntryPos(k), e);
  }

  lemma EntryReadsBackAt(f: bytes, pos: nat, e: LogEntry)
    requires Holds(f, pos, EntryImage(e))
    requires InI32(e.txn) && InI32(e.block)
    ensures ReadEntryAt(f, pos) == Some(Stored(e))
  {
    var d := EntryData(e);
    var z := Zeros(BLOCK_SIZE - ENTRY_HEAD_LEN - |d|);
    HoldsSplit(f, pos, EntryHead(e, |d|) + d, z);
    HoldsSplit(f, pos, EntryHead(e, |d|), d);
    HeadReadsBack(f, pos, e, |d|);
    assert f[pos + ENTRY_HEAD_LEN..pos + ENTRY_HEAD_LEN + |d|] == d;
  }

  lemma HeadReadsBack(f: bytes, pos: nat, e: LogEntry, n: nat)
    requires Holds(f, pos, EntryHead(e, n))
    requires InI32(e.txn) && InI32(e.block) && n <= MAX_IMAGE
    ensures pos + ENTRY_HEAD_LEN <= |f|
    ensures f[pos..pos + NAME_LEN] == PackStr(e.table, NAME_LEN)
    ensures I32At(f, pos + 50) == e.txn && I32At(f, pos + 54) == e.block
    ensures f[pos + 58..pos + 66] == e.stamp && I32At(f, pos + 66) == n
  {
    var a := PackStr(e.table, NAME_LEN);
    HoldsSplit(f, pos, a + Be32(e.txn) + Be32(e.block) + e.stamp, Be32(n));
    HoldsSplit(f, pos, a + Be32(e.txn) + Be32(e.block), e.stamp);
    HoldsSplit(f, pos, a + Be32(e.txn), Be32(e.block));
    HoldsSplit(f, pos, a, Be32(e.txn));
    HoldsI32(f, pos + 50, e.txn);
    HoldsI32(f, pos + 54, e.block);
    HoldsI32(f, pos + 66, n);
  }

  /** `'!iid'`: transaction id, record type, timestamp. */
  function TxnRecord(id: int, kind: int, stamp: Stamp): (r: bytes)
    ensures |r| == TXN_RECORD_LEN
  {
    Be32(id) + Be32(kind) + stamp
  }

  // ---------------------------------------------------------------------
  // The state machine
  // ---------------------------------------------------------------------

  /** Ids are handed out by the counter, never reused, and a transaction is
      never both active and committed; the image logs' headers unpack. */
  predicate Inv(m: Manager)
  {
    m.counter >= 0 &&
    (forall t :: t in m.active ==> 1 <= t <= m.counter) &&
    (forall t :: t in m.committed ==> 1 <= t <= m.counter && t !in m.active) &&
    LogReady(m.beforeLog) && LogReady(m.afterLog)
  }

  predicate IsActive(m: Manager, id: int) { id in m.active }

  predicate IsCommitted(m: Manager, id: int) { id in m.committed }

  /** `begin_transaction`: the next id, registered with no operations, after
      a BEGIN record. The id is new: above every id seen so far, so neither
      active nor committed before; ids come out as 1, 2, 3, ... */
  function Begin(m: Manager, now: Stamp): (r: (Manager, int))
    ensures r.1 == m.counter + 1 && r.0.counter == r.1
    ensures Inv(m) ==>
              Inv(r.0) && r.1 >= 1 && !IsActive(m, r.1) && !IsCommitted(m, r.1) &&
              (forall t :: t in m.active || t in m.committed ==> t < r.1)
    ensures IsActive(r.0, r.1) && r.0.active[r.1] == [] && r.0.committed == m.committed
    ensures forall t :: t != r.1 ==>
              ((IsActive(r.0, t) <==> IsActive(m, t)) && (IsActive(m, t) ==> r.0.active[t] == m.active[t]))
    ensures r.0.txnLog == m.txnLog + TxnRecord(r.1, LOG_BEGIN, now)
    ensures r.0.beforeLog == m.beforeLog && r.0.afterLog == m.afterLog
  {
    var id := m.counter + 1;
    (m.(counter := id, active := m.active[id := []],
        txnLog := m.txnLog + TxnRecord(id, LOG_BEGIN, now)), id)
  }

  /** `commit_transaction`: refused, changing nothing, for an id that is not
      active; otherwise a COMMIT record, and the id alone moves from the
      active map to the committed set. */
  function Commit(m: Manager, id: int, now: Stamp): (r: (Manager, bool))
    ensures r.1 <==> IsActive(m, id)
    ensures !r.1 ==> r.0 == m
    ensures Inv(m) ==> Inv(r.0)
    ensures r.0.counter == m.counter && r.0.beforeLog == m.beforeLog && r.0.afterLog == m.afterLog
    ensures r.1 ==> !IsActive(r.0, id) && IsCommitted(r.0, id) &&
                    r.0.txnLog == m.txnLog + TxnRecord(id, LOG_COMMIT, now)
    ensures forall t :: t != id ==>
              ((IsActive(r.0, t) <==> IsActive(m, t)) && (IsCommitted(r.0, t) <==> IsCommitted(m, t)) &&
               (IsActive(m, t) ==> r.0.active[t] == m.active[t]))
  {
    if id !in m.active then (m, false)
    else (m.(active := m.active - {id}, committed := m.committed + {id},
             txnLog := m.txnLog + TxnRecord(id, LOG_COMMIT, now)), true)
  }

  /** `abort_transaction`: refused, changing nothing, for an id that is not
      active; otherwise an ABORT record, and the id leaves the active map
      without being committed. */
  function Abort(m: Manager, id: int, now: Stamp): (r: (Manager, bool))
    ensures r.1 <==> IsActive(m, id)
    ensures !r.1 ==> r.0 == m
    ensures Inv(m) ==> Inv(r.0) && (r.1 ==> !IsCommitted(r.0, id))
    ensures r.0.counter == m.counter && r.0.beforeLog == m.beforeLog && r.0.afterLog == m.afterLog
    ensures r.1 ==> !IsActive(r.0, id) && r.0.txnLog == m.txnLog + TxnRecord(id, LOG_ABORT, now)
    ensures forall t :: t != id ==>
              ((IsActive(r.0, t) <==> IsActive(m, t)) && (IsCommitted(r.0, t) <==> IsCommitted(m, t)) &&
               (IsActive(m, t) ==> r.0.active[t] == m.active[t]))
  {
    if id !in m.active then (m, false)
    else (m.(active := m.active - {id}, txnLog := m.txnLog + TxnRecord(id, LOG_ABORT, now)), true)
  }

  function ImageLog(m: Manager, kind: ImageKind): bytes
  {
    if kind == BeforeImage then m.beforeLog else m.afterLog
  }

  /** Room for `n` more entries in each image log. */
  predicate Headroom(m: Manager, n: nat)
  {
    LogReady(m.beforeLog) && LogReady(m.afterLog) &&
    EntryCount(m.beforeLog) + n < TWO_31 && EntryCount(m.afterLog) + n < TWO_31
  }

  /** `log_before_image` and `log_after_image`: refused for an id that is not
      active; otherwise the entry is appended to the matching image log and
      `(kind, entry)` to the transaction's operations. */
  function LogImage(m: Manager, kind: ImageKind, id: int, table: bytes, block: int, data: bytes, now: Stamp)
    : (r: (Manager, bool))
    requires Inv(m) && Headroom(m, 1)
    ensures r.1 <==> IsActive(m, id)
    ensures !r.1 ==> r.0 == m
    ensures Inv(r.0) && r.0.counter == m.counter && r.0.committed == m.committed && r.0.txnLog == m.txnLog
    ensures Headroom(m, 2) ==> Headroom(r.0, 1)
    ensures r.1 ==> r.0.active == m.active[id := m.active[id] + [Op(kind, LogEntry(id, table, block, data, now))]]
    ensures kind == BeforeImage ==> r.0.afterLog == m.afterLog
    ensures kind == AfterImage ==> r.0.beforeLog == m.beforeLog
  {
    if id !in m.active then (m, false)
    else
      var e := LogEntry(id, table, block, data, now);
      var r := WithEntry(m, kind, e);
      (r.(active := m.active[id := m.active[id] + [Op(kind, e)]]), true)
  }

  /** The manager with `e` appended to the image log of `kind`. */
  function WithEntry(m: Manager, kind: ImageKind, e: LogEntry): (r: Manager)
    requires Headroom(m, 1)
    ensures r.(beforeLog := m.beforeLog, afterLog := m.afterLog) == m
    ensures LogReady(r.beforeLog) && LogReady(r.afterLog)
    ensures Headroom(m, 2) ==> Headroom(r, 1)
    ensures kind == BeforeImage ==> r.afterLog == m.afterLog && r.beforeLog == AppendEntry(m.beforeLog, e)
    ensures kind == AfterImage ==> r.beforeLog == m.beforeLog && r.afterLog == AppendEntry(m.afterLog, e)
  {
    if kind == BeforeImage then m.(beforeLog := AppendEntry(m.beforeLog, e))
    else m.(afterLog := AppendEntry(m.afterLog, e))
  }

  /** A before-image and then an after-image of the same block, both in
      transaction `id`: what a table operation that completes logs. */
  function LogBoth(m: Manager, id: int, table: bytes, block: int, before: bytes, after: bytes, now: Stamp)
    : (r: Manager)
    requires Inv(m) && Headroom(m, 2)
    ensures Inv(r) && r.counter == m.counter && r.committed == m.committed && r.txnLog == m.txnLog
    ensures !IsActive(m, id) ==> r == m
    ensures IsActive(m, id) ==>
              r.active == m.active[id := m.active[id] + [Op(BeforeImage, LogEntry(id, table, block, before, now)),
                                                         Op(AfterImage, LogEntry(id, table, block, after, now))]]
  {
    var m1 := LogImage(m, BeforeImage, id, table, block, before, now).0;
    var r := LogImage(m1, AfterImage, id, table, block, after, now).0;
    if IsActive(m, id) then
      LogBothActive(m, id, table, block, before, after, now);
      r
    else r
  }

  lemma LogBothActive(m: Manager, id: int, table: bytes, block: int, before: bytes, after: bytes, now: Stamp)
    requires Inv(m) && Headroom(m, 2) && IsActive(m, id)
    ensures var m1 := LogImage(m, BeforeImage, id, table, block, before, now).0;
            var r := LogImage(m1, AfterImage, id, table, block, after, now).0;
            r.active == m.active[id := m.active[id] + [Op(BeforeImage, LogEntry(id, table, block, before, now)),
                                                       Op(AfterImage, LogEntry(id, table, block, after, now))]]
  {
    var m1 := LogImage(m, BeforeImage, id, table, block, before, now).0;
    var op1 := Op(BeforeImage, LogEntry(id, table, block, before, now));
    var op2 := Op(AfterImage, LogEntry(id, table, block, after, now));
    assert m1.active[id] == m.active[id] + [op1];
    assert m.active[id] + [op1] + [op2] == m.active[id] + [op1, op2];
    UpdateTwice(m.active, id, m.active[id] + [op1], m.active[id] + [op1, op2]);
  }

  lemma UpdateTwice<K, V>(m: map<K, V>, k: K, a: V, b: V)
    ensures m[k := a][k := b] == m[k := b]
  {
  }

  // ---------------------------------------------------------------------
  // The log calls as written
  // ---------------------------------------------------------------------

  /** The Python type of the `table_name` a log call is given: `str`, or
      `bytes`. A table store passes its handle's `f_handle.name`, which is
      `bytes` because the file was opened under a `bytes` path. */
  datatype TableName = StrName(text: bytes) | BytesName(raw: bytes)

  /** The text the entry carries once the name is encoded. */
  function NameText(n: TableName): bytes
  {
    match n
    case StrName(t) => t
    case BytesName(b) => b
  }

  /** How a log call ends as written: it returns its flag, or it raises; the
      manager is what the call leaves behind either way. */
  datatype LogCall = Returned(manager: Manager, ok: bool) | LogRaised(manager: Manager)

  /** `log_before_image` and `log_after_image` as written. An id that is not
      active returns `False`. Otherwise `_write_to_log_file` raises before
      `operations.append` is reached: at once for a `bytes` name, which has
      no `.encode`, and after the entry page is written for a `str` name,
      when the header is packed into immutable `bytes`. */
  function LogImageAsWritten(m: Manager, kind: ImageKind, id: int, name: TableName, block: int, data: bytes,
                             now: Stamp): (r: LogCall)
    requires LogReady(ImageLog(m, kind))
    ensures r.Returned? <==> !IsActive(m, id)
    ensures r.Returned? ==> r == Returned(m, false)
    ensures r.manager.active == m.active && r.manager.counter == m.counter &&
            r.manager.committed == m.committed && r.manager.txnLog == m.txnLog
    ensures kind == BeforeImage ==> r.manager.afterLog == m.afterLog
    ensures kind == AfterImage ==> r.manager.beforeLog == m.beforeLog
    ensures name.BytesName? ==> r.manager == m
    ensures IsActive(m, id) && name.StrName? ==>
              var f := ImageLog(m, kind);
              Holds(ImageLog(r.manager, kind), 0, f[..8]) &&
              Holds(ImageLog(r.manager, kind), EntryPos(EntryCount(f)), EntryImage(LogEntry(id, name.text, block, data, now)))
  {
    if id !in m.active then Returned(m, false)
    else match name
      case BytesName(_) => LogRaised(m)
      case StrName(t) =>
        var (f, _) := AppendEntryAsWritten(ImageLog(m, kind), LogEntry(id, t, block, data, now));
        LogRaised(if kind == BeforeImage then m.(beforeLog := f) else m.(afterLog := f))
  }

  /** Where the two readings part: for an active id the corrected call
      returns `True` and records the operation, while as written the call
      raises and the transaction's operations stay as they were. For any
      other id both return `False` and change nothing. */
  lemma LogCallsDiffer(m: Manager, kind: ImageKind, id: int, name: TableName, block: int, data: bytes, now: Stamp)
    requires Inv(m) && Headroom(m, 1)
    ensures var w := LogImageAsWritten(m, kind, id, name, block, data, now);
            var c := LogImage(m, kind, id, NameText(name), block, data, now);
            (IsActive(m, id) ==>
               w.LogRaised? && c.1 && |c.0.active[id]| == |w.manager.active[id]| + 1) &&
            (!IsActive(m, id) ==> w == Returned(c.0, c.1))
  {
    var w := LogImageAsWritten(m, kind, id, name, block, data, now);
    var c := LogImage(m, kind, id, NameText(name), block, data, now);
    if IsActive(m, id) {
      assert c.0.active[id] == m.active[id] + [Op(kind, LogEntry(id, NameText(name), block, data, now))];
      assert w.manager.active[id] == m.active[id];
    }
  }

  // ---------------------------------------------------------------------
  // Properties
  // ---------------------------------------------------------------------

  /** A logged image counts one more entry in its own log file, which reads
      it back in the block after the earlier entries. */
  lemma LogAppends(m: Manager, kind: ImageKind, id: int, table: bytes, block: int, data: bytes, now: Stamp)
    requires Inv(m) && Headroom(m, 1)
    requires IsActive(m, id) && InI32(id) && InI32(block)
    ensures var r := LogImage(m, kind, id, table, block, data, now).0;
            EntryCount(ImageLog(r, kind)) == EntryCount(ImageLog(m, kind)) + 1 &&
            ReadEntry(ImageLog(r, kind), EntryCount(ImageLog(m, kind)) as nat) ==
              Some(Stored(LogEntry(id, table, block, data, now)))
  {
    var e := LogEntry(id, table, block, data, now);
    var f := ImageLog(m, kind);
    EntryReadsBack(AppendEntry(f, e), EntryCount(f) as nat, e);
  }

  /** The transaction log reads back the id and record type of its last record. */
  lemma TxnRecordReadsBack(log: bytes, id: int, kind: int, now: Stamp)
    requires InI32(id) && InI32(kind)
    ensures var r := log + TxnRecord(id, kind, now);
            I32At(r, |log|) == id && I32At(r, |log| + 4) == kind && r[|log| + 8..] == now
  {
    var r := log + TxnRecord(id, kind, now);
    assert Holds(r, |log|, TxnRecord(id, kind, now));
    HoldsSplit(r, |log|, Be32(id) + Be32(kind), now);
    HoldsSplit(r, |log|, Be32(id), Be32(kind));
    HoldsI32(r, |log|, id);
    HoldsI32(r, |log| + 4, kind);
    assert r[|log| + 8..] == r[|log| + 8..|log| + 16];
  }

  /** As written, the header never advances: two entries logged in a row
      both land in block 1, the second overwriting the first, and each
      call raises. */
  lemma AsWrittenOverwrites(e1: LogEntry, e2: LogEntry)
    requires InI32(e2.txn) && InI32(e2.block)
    ensures var (f1, raised1) := AppendEntryAsWritten(EmptyLog(), e1);
            var (f2, raised2) := AppendEntryAsWritten(f1, e2);
            raised1 && raised2 && EntryCount(f2) == 0 && ReadEntry(f2, 0) == Some(Stored(e2))
  {
    var f0 := EmptyLog();
    var (f1, _) := AppendEntryAsWritten(f0, e1);
    assert f1[..8] == f0[..8];
    assert f1[4..8] == f0[4..8];
    var (f2, _) := AppendEntryAsWritten(f1, e2);
    assert f2[4..8] == f1[4..8];
    EntryReadsBack(f2, 0, e2);
  }

  /** With the header rewritten, two entries logged in a row land in
      consecutive blocks and both read back. */
  lemma AppendKeepsEarlier(e1: LogEntry, e2: LogEntry)
    requires InI32(e1.txn) && InI32(e1.block) && InI32(e2.txn) && InI32(e2.block)
    ensures var f2 := AppendEntry(AppendEntry(EmptyLog(), e1), e2);
            EntryCount(f2) == 2 && ReadEntry(f2, 0) == Some(Stored(e1)) && ReadEntry(f2, 1) == Some(Stored(e2))
  {
    var f1 := AppendEntry(EmptyLog(), e1);
    var f2 := AppendEntry(f1, e2);
    HoldsKept(f1, EntryPos(1), EntryImage(e2), EntryPos(0), EntryImage(e1));
    assert Holds(f2, EntryPos(0), EntryImage(e1)) by {
      var g := WriteAt(f1, EntryPos(1), EntryImage(e2));
      HoldsKept(g, 0, Be32(I32At(f1, 0)) + Be32(2), EntryPos(0), EntryImage(e1));
    }
    EntryReadsBack(f2, 0, e1);
    EntryReadsBack(f2, 1, e2);
  }
}
